=== FILE: README.md ===
# Paxxword vault engine, modelled in Dafny

Paxxword is an Android password vault. A master password is turned into an
AES-256 key with PBKDF2. A user row stores only the salt and an encrypted
verification phrase, and logging in means decrypting that phrase. The key is
held in memory by a session manager, which forgets it after three days without
use. Every account field the user enters, except the service name, is encrypted
with its own random IV before it goes into the Room database. Backups are JSON
snapshots of the decrypted vault. They are encrypted with a key derived from
the master password and a fresh salt, and restoring one merges it into the vault.

The repository carries two generations of this engine. The current `paxxword`
code uses AES-GCM and 600000 PBKDF2 iterations. The older `myapplication` code
uses AES-CBC, 10000 iterations, and a development key when no one is logged in.
This project models both generations:

- the session manager (`session.dfy`), as a class over a pure state-transition
  function with the clock as a parameter. One `SessionManager` model serves
  both generations: it follows `myapplication/data/SessionManager.kt`, and the
  current code's `paxxword.data.manager.SessionManager`, which it imports, is
  not part of this model and is taken to behave the same;
- the three DAOs as one in-memory database class (`database.dfy`), with
  AUTOINCREMENT counters, `REPLACE`/`IGNORE` conflict rules, the folder foreign
  key (checked on insert and update, `SET NULL` on delete) and the `ORDER BY`
  listings;
- both account repositories (`repository.dfy`, `legacy_repository.dfy`): how
  an account becomes an encrypted row and how it is read back;
- the backup container and the backup manager (`backup_models.dfy`,
  `backup.dfy`): export, import, and the folder and account restore loops;
- the view models for sign-up, login and restore in both generations
  (`auth.dfy`, `legacy_auth.dfy`), settings backup (`settings.dfy`), the vault
  screen (`vault.dfy`) and the older add-account form (`addedit.dfy`);
- the language-code mapping (`locale.dfy`).

Cryptography is modelled symbolically in `crypto.dfy`:

- A derived key is the term `Pbkdf2(password, salt, iterations, bits)`, so two
  derivations agree exactly when their inputs do.
- An AES-GCM ciphertext decrypts only under its own key and IV. This is the
  ideal AEAD assumption.
- AES-CBC is not authenticated. What it yields under a wrong key or IV is an
  explicit `noise` parameter, so no claim rests on it.
- Base64 and Gson are terms that round-trip by construction.
- Randomness is an `Entropy` object that hands out fixed streams of salts and
  IVs and counts its draws.

Exceptions the code catches are values (`Result`, `Outcome`). Failures that
cannot be produced from the model's own state are explicit parameters: a failing
insert, an output stream that is missing or throws, and a save that throws.

Behaviours of the source that the model keeps as written:

- The current repository stores an empty password as the ciphertext "", which
  reads back as "Error".
- The older repository lists only the accounts without a folder when no folder
  is selected.
- A restore that throws after the backup was imported deletes every user.
- A restore still creates a second folder for a folder name listed twice in a
  backup, and maps the name to the folder of that name with the smallest id,
  which is the first one it created.
- An export whose output stream is missing reports success while writing
  nothing.

## Model

| member | source | states |
|---|---|---|
| Wrappers.Interpolate | app/src/main/java/com/rubenalba/myapplication/ui/addedit/AddEditViewModel.kt:77 | a message that is present is printed as itself; a missing one prints as "null" |
| Text.IsBlank | app/src/main/java/com/rubenalba/paxxword/ui/auth/AuthViewModel.kt:41 | Kotlin `isBlank()`: the empty text is blank, and a text is blank exactly when every character in it is whitespace |
| Text.IsDigit | app/src/main/java/com/rubenalba/paxxword/ui/auth/AuthViewModel.kt:123 | Kotlin `isDigit()` on ASCII: exactly the ten characters `0` to `9` |
| Text.IsLetter | app/src/main/java/com/rubenalba/paxxword/ui/auth/AuthViewModel.kt:126 | Kotlin `isLetter()` on ASCII: no letter is a digit or whitespace |
| Text.ContainsIgnoreCase | app/src/main/java/com/rubenalba/paxxword/ui/vault/VaultViewModel.kt:52-54 | Kotlin `contains(query, ignoreCase = true)`: every text contains the empty query, and a match needs the query to be no longer than the text |
| Text.LowerAscii | app/src/main/java/com/rubenalba/paxxword/ui/vault/VaultViewModel.kt:52-54 | an upper-case ASCII letter becomes the lower-case letter at the same place in the alphabet; every other character, lower-case letters included, is left alone |
| Text.LexLeReflexive | app/src/main/java/com/rubenalba/paxxword/data/local/dao/AccountDao.kt:24 | the `ORDER BY` text order puts every name at or before itself |
| Text.LexLeTotal | app/src/main/java/com/rubenalba/paxxword/data/local/dao/AccountDao.kt:24 | any two names are comparable, so ascending order is well defined |
| Text.LexLeTransitive | app/src/main/java/com/rubenalba/paxxword/data/local/dao/AccountDao.kt:24 | the text order is transitive |
| Text.LexLeAntisymmetric | app/src/main/java/com/rubenalba/paxxword/data/local/dao/AccountDao.kt:24 | two names each at or before the other are equal |
| Collections.MinimumExists | app/src/main/java/com/rubenalba/paxxword/data/local/dao/UserDao.kt:14-15 | a non-empty key set has a least element |
| Collections.Minimum | app/src/main/java/com/rubenalba/paxxword/data/local/dao/UserDao.kt:14-15 | the least key of a non-empty table |
| Collections.SortedKeys | app/src/main/java/com/rubenalba/paxxword/data/local/dao/AccountDao.kt:27-28 | the keys of a table in strictly increasing (scan) order, each exactly once |
| Collections.RowsInKeyOrder | app/src/main/java/com/rubenalba/paxxword/data/local/dao/AccountDao.kt:30-32 | every row of the table exactly once, each one stored under its own id |
| Collections.RowsInKeyOrderIncreasing | app/src/main/java/com/rubenalba/paxxword/data/local/dao/AccountDao.kt:30-32 | the scan lists rows in strictly ascending primary-key order |
| Collections.InsertByKeyPermutes | app/src/main/java/com/rubenalba/paxxword/data/local/dao/AccountDao.kt:24 | inserting into a sorted list adds exactly that element |
| Collections.InsertByKeySorted | app/src/main/java/com/rubenalba/paxxword/data/local/dao/AccountDao.kt:24 | inserting into a sorted list keeps it sorted |
| Collections.SortByKeySortsAndPermutes | app/src/main/java/com/rubenalba/paxxword/data/local/dao/AccountDao.kt:24 | `ORDER BY` output is sorted and is a permutation of its input |
| Collections.SortByKeyKeepsMembers | app/src/main/java/com/rubenalba/paxxword/data/local/dao/AccountDao.kt:24 | sorting keeps exactly the elements it was given |
| Collections.InsertByKeyStable | app/src/main/java/com/rubenalba/myapplication/data/local/dao/FolderDao.kt:24-25 | inserting a row ahead of every row of equal column value keeps rows of equal value in ascending id order |
| Collections.SortByKeyStable | app/src/main/java/com/rubenalba/myapplication/data/local/dao/FolderDao.kt:24-25 | the sort is stable: rows given in ascending id order leave rows of equal column value in that order |
| Collections.SortedRows | app/src/main/java/com/rubenalba/myapplication/data/local/dao/FolderDao.kt:24-25 | every row exactly once, ascending on the column, rows of equal column value in ascending primary-key order |
| Collections.Filter | app/src/main/java/com/rubenalba/paxxword/ui/vault/VaultViewModel.kt:51-55 | only elements that satisfy the predicate, and every such element of the input |
| Collections.FilterAppend | app/src/main/java/com/rubenalba/paxxword/ui/vault/VaultViewModel.kt:51-55 | filtering keeps order: filtering `s + t` is filtering `s`, then filtering `t` |
| Collections.FilterIdempotent | app/src/main/java/com/rubenalba/paxxword/ui/vault/VaultViewModel.kt:51-55 | filtering twice with the same predicate equals filtering once |
| Collections.Find | app/src/main/java/com/rubenalba/paxxword/data/manager/BackupManager.kt:40 | null exactly when no element matches; otherwise an element that matches |
| Crypto.DeriveKey | app/src/main/java/com/rubenalba/myapplication/data/manager/KeyDerivationUtil.kt:21-27 | JCA `PBKDF2WithHmacSHA256` through `PBEKeySpec`: 600000 iterations, a 256-bit key, determined by the password and the salt |
| Crypto.Encrypt | app/src/main/java/com/rubenalba/paxxword/data/manager/CryptoManager.kt:25-34 | JCA `AES/GCM/NoPadding` encryption: the ciphertext decrypts to the plaintext under its own key and IV, and under no other key or IV |
| Crypto.Decrypt | app/src/main/java/com/rubenalba/paxxword/data/manager/CryptoManager.kt:37-47 | JCA `AES/GCM/NoPadding` decryption: it succeeds exactly on a GCM ciphertext made under this key and IV, and then yields that ciphertext's plaintext; otherwise the tag check throws |
| Crypto.DeriveKeyInjective | app/src/main/java/com/rubenalba/myapplication/data/manager/KeyDerivationUtil.kt:21-27 | two derivations give the same key exactly when password and salt are the same |
| Crypto.DerivationsDisagree | app/src/main/java/com/rubenalba/myapplication/utils/crypto/KeyDerivationUtil.kt:10-12 | the 600000-iteration and 10000-iteration derivations never produce the same key |
| Crypto.DecryptEncrypt | app/src/main/java/com/rubenalba/paxxword/data/manager/CryptoManager.kt:25-47 | AES-GCM decryption returns the plaintext exactly when key and IV match, and fails otherwise |
| Crypto.CbcDecryptEncrypt | app/src/main/java/com/rubenalba/myapplication/utils/crypto/CryptoManager.kt:21-39 | AES-CBC with its own key and IV returns the plaintext, whatever it does on wrong keys |
| Crypto.CbcDecrypt | app/src/main/java/com/rubenalba/myapplication/utils/crypto/CryptoManager.kt:31-39 | JCA AES-CBC decryption: a CBC ciphertext made under this key and IV yields its plaintext; any other input yields what the noise oracle says, unauthenticated |
| Crypto.CbcWrongKeyCanYieldAnything | app/src/main/java/com/rubenalba/myapplication/utils/crypto/CryptoManager.kt:31-39 | under a wrong key, AES-CBC may yield any text at all (there is no authentication) |
| Crypto.Base64RoundTrip | app/src/main/java/com/rubenalba/paxxword/data/manager/CryptoManager.kt:49-55 | decoding the base64 of some bytes gives those bytes back |
| Crypto.Entropy.GenerateSalt | app/src/main/java/com/rubenalba/myapplication/data/manager/KeyDerivationUtil.kt:14-19 | a salt is the next value of the salt stream; one draw |
| Crypto.Entropy.GenerateIv | app/src/main/java/com/rubenalba/paxxword/data/manager/CryptoManager.kt:18-22 | a GCM IV is the next value of the IV stream; one draw |
| Crypto.Entropy.GenerateCbcIv | app/src/main/java/com/rubenalba/myapplication/utils/crypto/CryptoManager.kt:14-18 | a CBC IV is the next value of the CBC stream; one draw |
| Session.ReadAll | app/src/main/java/com/rubenalba/myapplication/data/SessionManager.kt:23-30 | successive `getKey` calls give one result per call |
| Session.InitialReadIsNull | app/src/main/java/com/rubenalba/myapplication/data/SessionManager.kt:10-13 | before any `setKey`, `getKey` returns null at any time |
| Session.Expired | app/src/main/java/com/rubenalba/myapplication/data/SessionManager.kt:32-35 | expired exactly when more than 259 200 000 ms (3 days) have passed since the last activity; never before the last activity |
| Session.Read | app/src/main/java/com/rubenalba/myapplication/data/SessionManager.kt:23-35 | the key returned is the key the session still holds; a returned key is the held one with the activity moved to now; an expired session is cleared and gives null |
| Session.ReadWithinWindow | app/src/main/java/com/rubenalba/myapplication/data/SessionManager.kt:23-35 | within the timeout, a read returns the held key and moves the last activity to now |
| Session.KeyReadableAfterSet | app/src/main/java/com/rubenalba/myapplication/data/SessionManager.kt:17-30 | a key set at `t` is returned by any read up to `t` + 3 days |
| Session.ExpiryIsStrict | app/src/main/java/com/rubenalba/myapplication/data/SessionManager.kt:32-35 | exactly 3 days after the last activity the key is returned; one millisecond later the session is cleared and null is returned |
| Session.ReadTwiceSameInstant | app/src/main/java/com/rubenalba/myapplication/data/SessionManager.kt:23-30 | a second read at the same instant agrees with the first |
| Session.NoKeyStaysNoKey | app/src/main/java/com/rubenalba/myapplication/data/SessionManager.kt:23-44 | with no key held, every later read returns null |
| Session.ExpiredStaysCleared | app/src/main/java/com/rubenalba/myapplication/data/SessionManager.kt:24-27 | after an expiring read, every later read returns null |
| Session.ActiveUseKeepsKey | app/src/main/java/com/rubenalba/myapplication/data/SessionManager.kt:14-39 | a key used at least once every 3 days is never lost (the sliding window) |
| Session.SessionManager.constructor | app/src/main/java/com/rubenalba/myapplication/data/SessionManager.kt:10-13 | no key, last activity 0 |
| Session.SessionManager.SetKey | app/src/main/java/com/rubenalba/myapplication/data/SessionManager.kt:17-20 | key held, last activity now |
| Session.SessionManager.GetKey | app/src/main/java/com/rubenalba/myapplication/data/SessionManager.kt:23-30 | an expired session is cleared and null is returned; otherwise the key is returned and the activity refreshed |
| Session.SessionManager.ClearSession | app/src/main/java/com/rubenalba/myapplication/data/SessionManager.kt:41-44 | back to no key and activity 0 |
| Session.SessionManager.IsUserLoggedIn | app/src/main/java/com/rubenalba/myapplication/data/SessionManager.kt:46-48 | true exactly when `getKey` would return a key, with the same side effect |
| Storage.AssignedId | app/src/main/java/com/rubenalba/paxxword/data/local/entity/Account.kt:20-21 | id 0 gets a fresh id above the counter; any other id is kept |
| Storage.FirstUser | app/src/main/java/com/rubenalba/paxxword/data/local/dao/UserDao.kt:14-15 | null exactly for an empty table; otherwise the row with the least id |
| Storage.SingleUserIsAppUser | app/src/main/java/com/rubenalba/paxxword/data/local/dao/UserDao.kt:14-15 | with one user row, that row is the app user |
| Storage.SoleUserIsAppUser | app/src/main/java/com/rubenalba/paxxword/data/local/dao/UserDao.kt:14-15 | a table holding `u` alone returns `u` (under its stored id) as the app user |
| Storage.Database.InsertAccount | app/src/main/java/com/rubenalba/paxxword/data/local/dao/AccountDao.kt:15-16 | a folder id that is neither null nor an existing folder is rejected with the foreign-key error and nothing changes; otherwise the row is stored (replacing any row with that id), and id 0 gets a fresh id |
| Storage.Database.UpdateAccount | app/src/main/java/com/rubenalba/paxxword/data/local/dao/AccountDao.kt:18-19 | an unknown id changes nothing; a bad folder id is rejected; otherwise that row alone is replaced |
| Storage.Database.DeleteAccount | app/src/main/java/com/rubenalba/paxxword/data/local/dao/AccountDao.kt:21-22 | that row and only that row is removed |
| Storage.Database.AllAccounts | app/src/main/java/com/rubenalba/paxxword/data/local/dao/AccountDao.kt:24-25 | every row once, ascending by service name |
| Storage.Database.AccountsForFolder | app/src/main/java/com/rubenalba/paxxword/data/local/dao/AccountDao.kt:27-28 | exactly the rows in that folder |
| Storage.Database.AccountsWithoutFolder | app/src/main/java/com/rubenalba/paxxword/data/local/dao/AccountDao.kt:30-32 | exactly the rows with a null folder |
| Storage.Database.AccountById | app/src/main/java/com/rubenalba/paxxword/data/local/dao/AccountDao.kt:34-35 | null exactly for an unknown id; otherwise that row |
| Storage.Database.InsertFolder | app/src/main/java/com/rubenalba/myapplication/data/local/dao/FolderDao.kt:15-16 | an id already present changes nothing and returns -1; otherwise the folder is stored under its id or a fresh one |
| Storage.Database.UpdateFolder | app/src/main/java/com/rubenalba/myapplication/data/local/dao/FolderDao.kt:18-19 | replaces the folder with that id; an unknown id changes nothing |
| Storage.Database.DeleteFolder | app/src/main/java/com/rubenalba/myapplication/data/local/dao/FolderDao.kt:21-22 | removes that folder only; its accounts stay, with a null folder (`SET NULL`) |
| Storage.Database.AllFolders | app/src/main/java/com/rubenalba/myapplication/data/local/dao/FolderDao.kt:24-25 | every folder once, ascending by name, folders of the same name in ascending id order |
| Storage.Database.FolderById | app/src/main/java/com/rubenalba/myapplication/data/local/dao/FolderDao.kt:27-28 | null exactly for an unknown id; otherwise that folder |
| Storage.Database.InsertUser | app/src/main/java/com/rubenalba/paxxword/data/local/dao/UserDao.kt:11-12 | stores the user under its id or a fresh one, replacing any row with that id |
| Storage.Database.AppUser | app/src/main/java/com/rubenalba/paxxword/data/local/dao/UserDao.kt:14-15 | null exactly when there is no user; otherwise one of the stored users |
| Storage.Database.DeleteAllUsers | app/src/main/java/com/rubenalba/paxxword/data/local/dao/UserDao.kt:17-18 | the user table is emptied; nothing else changes |
| Repository.KeyOrThrow | app/src/main/java/com/rubenalba/paxxword/data/repository/PasswordRepositoryImpl.kt:21-24 | the session key, or the `IllegalStateException` when there is none |
| Repository.EncryptField | app/src/main/java/com/rubenalba/paxxword/data/repository/PasswordRepositoryImpl.kt:55-59 | "" for an empty text; otherwise a ciphertext that opens only under this key and IV |
| Repository.BuildRow | app/src/main/java/com/rubenalba/paxxword/data/repository/PasswordRepositoryImpl.kt:61-95 | each optional field is stored as a pair that is null exactly when the text is empty; the password is always stored; every ciphertext in the row is made under the given key |
| Repository.SafeDecrypt | app/src/main/java/com/rubenalba/paxxword/data/repository/PasswordRepositoryImpl.kt:132-141 | "" when either column is null; "Error" when the IV is not base64 or the GCM check fails; otherwise the decrypted text, which is the plaintext the stored ciphertext was made from under this key |
| Repository.DecryptAccount | app/src/main/java/com/rubenalba/paxxword/data/repository/PasswordRepositoryImpl.kt:113-128 | id, folder and service name copied; a null optional column reads as ""; every field shows text only when its column holds that text sealed under this key |
| Repository.DecryptBuiltRow | app/src/main/java/com/rubenalba/paxxword/data/repository/PasswordRepositoryImpl.kt:113-128 | a saved account whose password is not empty reads back unchanged under the same key |
| Repository.EmptyPasswordReadsBackAsError | app/src/main/java/com/rubenalba/paxxword/data/repository/PasswordRepositoryImpl.kt:55-56 | an empty password is stored as "" and reads back as "Error" |
| Repository.DecryptUnderOtherKey | app/src/main/java/com/rubenalba/paxxword/data/repository/PasswordRepositoryImpl.kt:132-141 | under any other key, each stored field reads back as "Error" and each absent one as "" |
| Repository.SealedRowUnreadableUnderOtherKey | app/src/main/java/com/rubenalba/paxxword/data/repository/PasswordRepositoryImpl.kt:132-141 | any row sealed under one key reads back, under another key, with no field other than "" or "Error" |
| Repository.FieldsDecryptIndependently | app/src/main/java/com/rubenalba/paxxword/data/repository/PasswordRepositoryImpl.kt:113-128 | replacing one field's stored pair changes only that field of the decrypted account |
| Repository.SaveIvsDistinct | app/src/main/java/com/rubenalba/paxxword/data/repository/PasswordRepositoryImpl.kt:49-53 | with fresh randomness, the five IVs of one save are pairwise distinct |
| Repository.SaveEffect | app/src/main/java/com/rubenalba/paxxword/data/repository/PasswordRepositoryImpl.kt:97-101 | Room `insert`/`update` under the folder foreign key: the save fails exactly when the row names a missing folder and is an insert or updates an existing row, and a failure changes nothing; an insert adds the row under the next counter value; an update replaces the row with its id, and updating a missing id changes nothing |
| Repository.SaveEffectIsLocal | app/src/main/java/com/rubenalba/paxxword/data/repository/PasswordRepositoryImpl.kt:97-101 | saving never removes a row and changes no row other than the one saved |
| Repository.Store | app/src/main/java/com/rubenalba/paxxword/data/repository/PasswordRepositoryImpl.kt:97-101 | id 0 inserts, any other id updates, with the foreign-key rule of the table |
| Repository.DeleteById | app/src/main/java/com/rubenalba/paxxword/data/repository/PasswordRepositoryImpl.kt:104-109 | the row with that id, if any, is removed; nothing else changes |
| Repository.PasswordRepository.GetKey | app/src/main/java/com/rubenalba/paxxword/data/repository/PasswordRepositoryImpl.kt:21-24 | the session key, or the `IllegalStateException`; the session is read once |
| Repository.PasswordRepository.ListingIsExact | app/src/main/java/com/rubenalba/paxxword/data/repository/PasswordRepositoryImpl.kt:26-31 | no folder lists every account; a folder lists exactly its own accounts |
| Repository.PasswordRepository.GetAccounts | app/src/main/java/com/rubenalba/paxxword/data/repository/PasswordRepositoryImpl.kt:26-38 | the listing decrypted under the session key; an empty listing needs no key; without a key a non-empty listing throws |
| Repository.PasswordRepository.DecryptRows | app/src/main/java/com/rubenalba/paxxword/data/repository/PasswordRepositoryImpl.kt:33-37 | each row decrypted under the key of one read per row; all reads agree |
| Repository.PasswordRepository.GetAccountById | app/src/main/java/com/rubenalba/paxxword/data/repository/PasswordRepositoryImpl.kt:40-43 | null for an unknown id, with no key needed; otherwise the decrypted row, or the exception without a key |
| Repository.PasswordRepository.SaveAccount | app/src/main/java/com/rubenalba/paxxword/data/repository/PasswordRepositoryImpl.kt:45-102 | without a key it throws and nothing is drawn or written; otherwise five IVs are drawn and the row built under the key is inserted or updated |
| Repository.PasswordRepository.DrawFieldIvs | app/src/main/java/com/rubenalba/paxxword/data/repository/PasswordRepositoryImpl.kt:49-53 | five draws, in the order username, email, password, URL, notes |
| Repository.PasswordRepository.DeleteAccount | app/src/main/java/com/rubenalba/paxxword/data/repository/PasswordRepositoryImpl.kt:104-109 | the row with that id is removed; no key is needed |
| Repository.PasswordRepository.AllFolders | app/src/main/java/com/rubenalba/paxxword/data/repository/PasswordRepositoryImpl.kt:143-145 | every stored folder exactly once and nothing else, ascending by name, folders of the same name in ascending id order |
| Repository.PasswordRepository.InsertFolder | app/src/main/java/com/rubenalba/paxxword/data/repository/PasswordRepositoryImpl.kt:147-149 | the DAO's insert, with its `IGNORE` rule |
| Repository.PasswordRepository.DeleteFolder | app/src/main/java/com/rubenalba/paxxword/data/repository/PasswordRepositoryImpl.kt:151-153 | the folder goes; its accounts stay, with no folder |
| LegacyRepository.DevKey | app/src/main/java/com/rubenalba/myapplication/data/repository/PasswordRepositoryImpl.kt:36-40 | the development key is the 10000-iteration derivation of `DEV_KEY_PASS` with a salt of sixteen zero bytes |
| LegacyRepository.KeyOrDevKey | app/src/main/java/com/rubenalba/myapplication/data/repository/PasswordRepositoryImpl.kt:42-44 | the session key when there is one, otherwise the development key |
| LegacyRepository.BuildRow | app/src/main/java/com/rubenalba/myapplication/data/repository/PasswordRepositoryImpl.kt:65-106 | optional fields are stored as pairs that are null exactly when the text is empty; the password is always encrypted with AES-CBC |
| LegacyRepository.SafeDecrypt | app/src/main/java/com/rubenalba/myapplication/data/repository/PasswordRepositoryImpl.kt:143-152 | "" for a null column; "Error" for an IV that is not base64; the plaintext for a ciphertext read under its own key and IV |
| LegacyRepository.DecryptAccount | app/src/main/java/com/rubenalba/myapplication/data/repository/PasswordRepositoryImpl.kt:124-139 | id, folder and service name copied; a null optional column reads as ""; a malformed password IV reads as "Error"; a password sealed under this key and its IV reads back as itself |
| LegacyRepository.DecryptBuiltRow | app/src/main/java/com/rubenalba/myapplication/data/repository/PasswordRepositoryImpl.kt:124-139 | a saved account reads back unchanged under the same key |
| LegacyRepository.DevKeyRowsReadableByAnyone | app/src/main/java/com/rubenalba/myapplication/data/repository/PasswordRepositoryImpl.kt:36-40 | a row saved without a session is readable by anyone who uses the default password "123456" |
| LegacyRepository.WrongKeyMayReadGarbage | app/src/main/java/com/rubenalba/myapplication/data/repository/PasswordRepositoryImpl.kt:143-152 | under a wrong key, a password can read back as any text |
| LegacyRepository.LegacyPasswordRepository.GetKey | app/src/main/java/com/rubenalba/myapplication/data/repository/PasswordRepositoryImpl.kt:42-44 | never fails: the session key, or the development key |
| LegacyRepository.LegacyPasswordRepository.ListingIsExact | app/src/main/java/com/rubenalba/myapplication/data/repository/PasswordRepositoryImpl.kt:46-51 | no folder lists exactly the accounts without a folder; a folder lists exactly its own accounts |
| LegacyRepository.LegacyPasswordRepository.GetAccounts | app/src/main/java/com/rubenalba/myapplication/data/repository/PasswordRepositoryImpl.kt:46-58 | the listing, decrypted under the session key or the development key |
| LegacyRepository.LegacyPasswordRepository.DecryptRows | app/src/main/java/com/rubenalba/myapplication/data/repository/PasswordRepositoryImpl.kt:53-57 | one key read per row; every row is decrypted under the same key |
| LegacyRepository.LegacyPasswordRepository.GetAccountById | app/src/main/java/com/rubenalba/myapplication/data/repository/PasswordRepositoryImpl.kt:60-63 | null for an unknown id; otherwise the decrypted row |
| LegacyRepository.LegacyPasswordRepository.SaveAccount | app/src/main/java/com/rubenalba/myapplication/data/repository/PasswordRepositoryImpl.kt:65-113 | never refused for lack of a key: five CBC IVs are drawn, and the row built under the session key or the development key is inserted or updated |
| LegacyRepository.LegacyPasswordRepository.DrawCbcIvs | app/src/main/java/com/rubenalba/myapplication/data/repository/PasswordRepositoryImpl.kt:68-72 | five CBC draws, in field order |
| LegacyRepository.LegacyPasswordRepository.DeleteAccount | app/src/main/java/com/rubenalba/myapplication/data/repository/PasswordRepositoryImpl.kt:115-120 | the row with that id is removed |
| BackupModels.JsonRoundTrip | app/src/main/java/com/rubenalba/paxxword/data/manager/BackupManager.kt:54-106 | Gson reads back the value it wrote |
| BackupModels.NewBackupFile | app/src/main/java/com/rubenalba/paxxword/domain/model/BackupModels.kt:5-10 | a new container has version 1 and the given salt, IV and data |
| BackupModels.Members | app/src/main/java/com/rubenalba/paxxword/domain/model/BackupModels.kt:5-10 | the container is written under exactly the names "v", "s", "iv" and "d" |
| BackupModels.FromMembers | app/src/main/java/com/rubenalba/paxxword/domain/model/BackupModels.kt:5-10 | a container is read back exactly when "s" and "iv" are present as strings and "d" as a ciphertext string, and it takes their values |
| BackupModels.ParseFile | app/src/main/java/com/rubenalba/paxxword/data/manager/BackupManager.kt:90 | a container exactly when the text parses and holds "s", "iv" as strings and "d" as a ciphertext string, with those values; a missing "v" reads as 0 |
| BackupModels.MembersRoundTrip | app/src/main/java/com/rubenalba/paxxword/domain/model/BackupModels.kt:5-10 | reading the members of a container gives the container back |
| BackupModels.MembersInjective | app/src/main/java/com/rubenalba/paxxword/domain/model/BackupModels.kt:5-10 | two containers with the same members are equal |
| BackupModels.WriteFile | app/src/main/java/com/rubenalba/paxxword/data/manager/BackupManager.kt:76 | what is written parses back to the same container |
| Backup.FolderNameOf | app/src/main/java/com/rubenalba/paxxword/data/manager/BackupManager.kt:40 | null exactly when no listed folder has the account's folder id; otherwise the name of such a folder |
| Backup.ToBackupAccount | app/src/main/java/com/rubenalba/paxxword/data/manager/BackupManager.kt:39-50 | the account's six text fields copied; its folder named exactly when a listed folder has its folder id, by that folder's name |
| Backup.Snapshot | app/src/main/java/com/rubenalba/paxxword/data/manager/BackupManager.kt:36-51 | the timestamp, one entry per folder (id, name) and one per account (its six fields, and its folder by name) |
| Backup.SnapshotNamesListedFolders | app/src/main/java/com/rubenalba/paxxword/data/manager/BackupManager.kt:38-40 | an exported account names a folder only if the snapshot lists a folder of that name with the account's folder id |
| Backup.SealBackup | app/src/main/java/com/rubenalba/paxxword/data/manager/BackupManager.kt:57-73 | version 1; salt and IV in base64; the snapshot's JSON opens only under the key derived from the password and that salt, with that IV |
| Backup.OpenBackup | app/src/main/java/com/rubenalba/paxxword/data/manager/BackupManager.kt:86-106 | nothing without a document; a snapshot only when the container parses, both base64 fields decode and the data was encrypted under this password's key |
| Backup.OpenSealedBackup | app/src/main/java/com/rubenalba/paxxword/data/manager/BackupManager.kt:83-106 | an exported file opens to the exported snapshot with the same password, and with no other password |
| Backup.FindByName | app/src/main/java/com/rubenalba/paxxword/data/manager/BackupManager.kt:125 | null exactly when no folder has the name; otherwise the folder of that name at the first such position in the list |
| Backup.FirstNamedIsSmallest | app/src/main/java/com/rubenalba/paxxword/data/manager/BackupManager.kt:129-133 | in a listing whose ties are in id order, the first folder of a name has the smallest id of that name in the table |
| Backup.Unmatched | app/src/main/java/com/rubenalba/paxxword/data/manager/BackupManager.kt:124-135 | the number of snapshot folders that will be created is at most their number |
| Backup.UnmatchedAllNew | app/src/main/java/com/rubenalba/paxxword/data/manager/BackupManager.kt:124-135 | into a vault with none of the names, every snapshot folder is created |
| Backup.TargetFolder | app/src/main/java/com/rubenalba/paxxword/data/manager/BackupManager.kt:139 | a folder exactly when the account names one that was mapped, and then the mapped id |
| Backup.RestoredRows | app/src/main/java/com/rubenalba/paxxword/data/manager/BackupManager.kt:138-151 | one row per backup account |
| Backup.AppendedKeeps | app/src/main/java/com/rubenalba/paxxword/data/manager/BackupManager.kt:138-151 | appending restored rows keeps every existing row and adds ids only above the counter |
| Backup.AppendedAt | app/src/main/java/com/rubenalba/paxxword/data/manager/BackupManager.kt:138-151 | restored row `j` is stored under id `counter + 1 + j` |
| Backup.AppendedSize | app/src/main/java/com/rubenalba/paxxword/data/manager/BackupManager.kt:138-151 | the table grows by one row per restored account |
| Backup.AppendedSealedUnder | app/src/main/java/com/rubenalba/paxxword/data/manager/BackupManager.kt:138-151 | every appended row is sealed under the session key |
| Backup.RestoredAccountMatchesExport | app/src/main/java/com/rubenalba/paxxword/data/manager/BackupManager.kt:36-151 | exporting, then restoring with the same password, gives back each account's six fields (if its password is not empty), in a folder with the same name as before, or in none |
| Backup.RestoreIntoEmptyVault | app/src/main/java/com/rubenalba/paxxword/data/manager/BackupManager.kt:124-135 | restoring into an empty vault creates exactly the snapshot's folder names, one folder per entry |
| Backup.RestoredAccountsMerge | app/src/main/java/com/rubenalba/paxxword/data/manager/BackupManager.kt:138-151 | the account phase never changes or removes an existing account; it completes exactly when there is nothing to restore or there is a key; then it adds one account per backup account, sealed under that key |
| Backup.FoundIffExisting | app/src/main/java/com/rubenalba/paxxword/data/manager/BackupManager.kt:120-127 | a name is found in the listing taken before the loop exactly when a folder of that name existed |
| Backup.BackupManager.ExportBackup | app/src/main/java/com/rubenalba/paxxword/data/manager/BackupManager.kt:30-80 | without a key and with accounts to list, it throws and draws nothing; otherwise it draws a salt and an IV and returns the sealed container of the snapshot |
| Backup.BackupManager.Seal | app/src/main/java/com/rubenalba/paxxword/data/manager/BackupManager.kt:57-76 | a salt is drawn, then an IV, and the container is sealed with them |
| Backup.BackupManager.ImportBackup | app/src/main/java/com/rubenalba/paxxword/data/manager/BackupManager.kt:83-116 | false with nothing written when the file does not open with this password; otherwise existing rows are kept, the result is true exactly when the restore completes, in which case one account has been added per backup account, sealed under the session key; and some name-to-folder mapping makes the folders table and the accounts table exactly what the folder phase and the account phase of the restore produce (the same RestoredFolders and RestoredAccounts as restoreDataToRepository) |
| Backup.BackupManager.RestoreDataToRepository | app/src/main/java/com/rubenalba/paxxword/data/manager/BackupManager.kt:118-152 | the folder phase, then the account phase, as the two predicates describe |
| Backup.BackupManager.RestoreAccounts | app/src/main/java/com/rubenalba/paxxword/data/manager/BackupManager.kt:138-151 | every backup account is saved as a new row, in order, or the first save throws when there is no key |
| Backup.BackupManager.RestoreNext | app/src/main/java/com/rubenalba/paxxword/data/manager/BackupManager.kt:139-150 | one save: it throws exactly when there is no key; otherwise one more row is appended |
| Backup.BackupManager.SaveRestored | app/src/main/java/com/rubenalba/paxxword/data/manager/BackupManager.kt:141-150 | the restored model is saved through `saveAccount` |
| Backup.BackupManager.RestoreFolders | app/src/main/java/com/rubenalba/paxxword/data/manager/BackupManager.kt:120-135 | existing names are reused (the first folder of that name in the listing taken before the loop); each other entry creates a folder; a new name, even when listed twice, is mapped to the folder of that name with the smallest id, the first one the loop created; no folder is changed or removed |
| Backup.BackupManager.RestoreFolder | app/src/main/java/com/rubenalba/paxxword/data/manager/BackupManager.kt:125-134 | one iteration of the folder loop |
| Backup.BackupManager.InsertAndLookUp | app/src/main/java/com/rubenalba/paxxword/data/manager/BackupManager.kt:129-133 | the new folder is inserted under a fresh id, and the id found afterwards is the smallest id of any folder of that name, in the table before or after the insert |
| Auth.Any | app/src/main/java/com/rubenalba/paxxword/ui/auth/AuthViewModel.kt:123 | true exactly when some character satisfies the predicate |
| Auth.ValidatePasswordPolicy | app/src/main/java/com/rubenalba/paxxword/ui/auth/AuthViewModel.kt:119-130 | the rules are checked in order (length at least 8, a digit, a character that is neither a letter nor a digit), and the first broken one is reported; null exactly when all hold |
| Auth.PolicyStableUnderExtension | app/src/main/java/com/rubenalba/paxxword/ui/auth/AuthViewModel.kt:119-130 | appending characters to an admitted password gives an admitted password |
| Auth.PolicyAdmitsNoBlankPassword | app/src/main/java/com/rubenalba/paxxword/ui/auth/AuthViewModel.kt:119-130 | an admitted password is never blank, so `register` never ignores it |
| Auth.PolicyRejectsShort | app/src/main/java/com/rubenalba/paxxword/ui/auth/AuthViewModel.kt:119-122 | "a1!" is reported by the length rule, although it has a digit and a symbol |
| Auth.PolicyRejectsNoDigit | app/src/main/java/com/rubenalba/paxxword/ui/auth/AuthViewModel.kt:119-125 | "password" is long enough and is reported by the digit rule |
| Auth.PolicyRejectsNoSymbol | app/src/main/java/com/rubenalba/paxxword/ui/auth/AuthViewModel.kt:119-128 | "passw0rd" has a digit and only letters and digits, and is reported by the symbol rule |
| Auth.PolicyAdmitsExample | app/src/main/java/com/rubenalba/paxxword/ui/auth/AuthViewModel.kt:119-130 | "passw0rd!" is admitted |
| Auth.LoginKey | app/src/main/java/com/rubenalba/paxxword/ui/auth/AuthViewModel.kt:93-115 | a key exactly when both base64 fields decode and the phrase decrypts under the derived key; that key is the derivation from the password and the stored salt |
| Auth.NewUser | app/src/main/java/com/rubenalba/paxxword/ui/auth/AuthViewModel.kt:53-64 | no id yet, the given email; salt and IV decode back to the bytes drawn; the stored phrase decrypts under the key and IV to the verification phrase |
| Auth.RegisteredUserVerifies | app/src/main/java/com/rubenalba/paxxword/ui/auth/AuthViewModel.kt:47-67 | the user built by sign-up admits exactly its password, with the sign-up key |
| Auth.SoleUserAdmits | app/src/main/java/com/rubenalba/paxxword/ui/auth/AuthViewModel.kt:65-67 | after the table is reduced to that user, `getAppUser` returns it and it admits exactly its password |
| Auth.AuthViewModel.constructor | app/src/main/java/com/rubenalba/paxxword/ui/auth/AuthViewModel.kt:33 | the state starts as `Idle` |
| Auth.AuthViewModel.Register | app/src/main/java/com/rubenalba/paxxword/ui/auth/AuthViewModel.kt:40-77 | a blank password changes nothing; a failing insert leaves no user and the generic error; otherwise the new user is the only user, the session holds its key, and login admits exactly this password |
| Auth.AuthViewModel.Login | app/src/main/java/com/rubenalba/paxxword/ui/auth/AuthViewModel.kt:80-117 | a blank password changes nothing; with no user, the no-user error; otherwise success with the derived key in the session exactly when the check passes, else the incorrect-password error with the session untouched |
| Auth.AuthViewModel.RestoreFromBackup | app/src/main/java/com/rubenalba/paxxword/ui/auth/AuthViewModel.kt:132-174 | a backup that does not open gives the incorrect-password error, a cleared session and unchanged tables; otherwise every earlier row is kept and the backup's folders and accounts are restored under the key from the drawn salt, each folder mapped to an existing or new folder of its name and each account stored with its folder, its fields sealed under that key (`RestoredBackup`); then either the generic error with no user and no session, or success with a single restored user, built from the drawn salt and the last IV drawn, that admits exactly the backup's password |
| Auth.AuthViewModel.ImportUnderBackupKey | app/src/main/java/com/rubenalba/paxxword/ui/auth/AuthViewModel.kt:137-145 | the salt is the next one drawn and the key is derived from it; the import succeeds exactly when the backup opens with the password; on failure nothing is written and one draw is used; on success existing rows are kept, the session holds the key, and the backup's folders and accounts are restored under that key as `RestoredBackup` states |
| Auth.AuthViewModel.BeginBackupSession | app/src/main/java/com/rubenalba/paxxword/ui/auth/AuthViewModel.kt:138-142 | the salt is the next one drawn, the key is derived from the backup's password and that salt, and the session holds that key |
| Auth.AuthViewModel.ImportUnderKey | app/src/main/java/com/rubenalba/paxxword/ui/auth/AuthViewModel.kt:145 | with the key in the session, the import succeeds exactly when the backup opens; on failure nothing is written and nothing drawn; on success five IVs per account are drawn, earlier rows are kept and the backup is restored under that key as `RestoredBackup` states |
| Auth.AuthViewModel.ConcludeRestore | app/src/main/java/com/rubenalba/paxxword/ui/auth/AuthViewModel.kt:147-172 | accounts and folders stay; a failed import gives the incorrect-password error, a cleared session and no draw; after a successful one, one IV is drawn and either the generic error with no session and no user, or success with the session kept and a single restored user that admits exactly the password |
| Auth.AuthViewModel.ReplaceWithRestoredUser | app/src/main/java/com/rubenalba/paxxword/ui/auth/AuthViewModel.kt:147-171 | one IV is drawn and accounts and folders stay; on an insert failure the generic error, no session and no user; otherwise success, the session kept and a single restored user built from that salt, IV and key that admits exactly the password |
| LegacyAuth.LegacyLoginKey | app/src/main/java/com/rubenalba/myapplication/ui/auth/AuthViewModel.kt:87-111 | a key exactly when the phrase decrypts under the derived key with AES-CBC; that key is the 10000-iteration derivation |
| LegacyAuth.LegacyNewUser | app/src/main/java/com/rubenalba/myapplication/ui/auth/AuthViewModel.kt:47-58 | no id yet, the placeholder email; salt and IV decode back to the bytes drawn; the stored phrase decrypts under the key and IV to the verification phrase whatever the CBC noise |
| LegacyAuth.LegacyRightPasswordLogsIn | app/src/main/java/com/rubenalba/myapplication/ui/auth/AuthViewModel.kt:43-61 | the user built by sign-up always admits its own password |
| LegacyAuth.LegacyWrongPasswordMayLogIn | app/src/main/java/com/rubenalba/myapplication/ui/auth/AuthViewModel.kt:96-108 | a different password can pass the check and put its wrong key in the session |
| LegacyAuth.LegacyLoginExactWithoutCollision | app/src/main/java/com/rubenalba/myapplication/ui/auth/AuthViewModel.kt:96-108 | when decryption under a wrong key never yields the phrase, exactly the registered password passes |
| LegacyAuth.LegacyAuthViewModel.Register | app/src/main/java/com/rubenalba/myapplication/ui/auth/AuthViewModel.kt:36-71 | a blank password changes nothing; a failing insert leaves no user and shows "Error al registrar: " followed by the message; otherwise there is a single user that admits the password, and its key is in the session |
| LegacyAuth.LegacyAuthViewModel.Login | app/src/main/java/com/rubenalba/myapplication/ui/auth/AuthViewModel.kt:74-113 | a blank password changes nothing; the no-user message; otherwise success with the key exactly when the check passes, else "Contraseña incorrecta" |
| Settings.VerifyMasterPassword | app/src/main/java/com/rubenalba/paxxword/ui/settings/SettingsViewModel.kt:85-101 | true exactly when there is a user and its phrase decrypts under the key derived from the password and its salt |
| Settings.VerifyAfterRegister | app/src/main/java/com/rubenalba/paxxword/ui/settings/SettingsViewModel.kt:85-101 | after sign-up, exactly the sign-up password is accepted |
| Settings.ExportedOpensOnlyWith | app/src/main/java/com/rubenalba/paxxword/ui/settings/SettingsViewModel.kt:58-61 | what export writes opens, to the snapshot, only with the password it was given |
| Settings.SettingsViewModel.constructor | app/src/main/java/com/rubenalba/paxxword/ui/settings/SettingsViewModel.kt:49-50 | the backup state starts as `Idle` |
| Settings.SettingsViewModel.ExportVault | app/src/main/java/com/rubenalba/paxxword/ui/settings/SettingsViewModel.kt:52-71 | a password that is not the master password deletes the document, with the wrong-password error, nothing drawn and the session untouched; otherwise the listing's read slides or clears the session (untouched for an empty vault), two values are drawn exactly when the listing succeeds, a failing export or write deletes the document with the write error, and a successful write leaves a document that opens only with that password, to the snapshot of the vault |
| Settings.SettingsViewModel.ExportAndWrite | app/src/main/java/com/rubenalba/paxxword/ui/settings/SettingsViewModel.kt:59-70 | the session slide or clear of the listing, two draws exactly when the listing succeeds, the write error and a deleted document on a failing export or write, success with the document untouched on a null stream, and a document that opens only with the password otherwise |
| Settings.SettingsViewModel.ImportVault | app/src/main/java/com/rubenalba/paxxword/ui/settings/SettingsViewModel.kt:73-83 | success exactly when the backup opens and its accounts can be saved; existing accounts, existing folders and the users are kept; a backup that does not open changes nothing, session and draws included; new rows are sealed under the session key; and the folders and rows restored are exactly those `importBackup` restores (each backup folder reused by name or created, each account saved in order into its folder) |
| Settings.SettingsViewModel.ResetBackupState | app/src/main/java/com/rubenalba/paxxword/ui/settings/SettingsViewModel.kt:103 | back to `Idle` |
| Vault.SearchResults | app/src/main/java/com/rubenalba/paxxword/ui/vault/VaultViewModel.kt:47-58 | a blank query shows the list unchanged; otherwise the matching accounts only, and every one of them |
| Vault.Matches | app/src/main/java/com/rubenalba/paxxword/ui/vault/VaultViewModel.kt:51-54 | the empty query matches every account; a match needs the query to fit in the service name, the username or the email |
| Vault.SearchIdempotent | app/src/main/java/com/rubenalba/paxxword/ui/vault/VaultViewModel.kt:47-58 | searching the results again with the same query changes nothing |
| Vault.SearchKeepsOrder | app/src/main/java/com/rubenalba/paxxword/ui/vault/VaultViewModel.kt:51-55 | the results keep the list's order |
| Vault.SearchIgnoresSecrets | app/src/main/java/com/rubenalba/paxxword/ui/vault/VaultViewModel.kt:51-55 | password, URL and notes play no part in matching |
| Vault.SearchIgnoresCase | app/src/main/java/com/rubenalba/paxxword/ui/vault/VaultViewModel.kt:52-54 | a query and its lower-case form match the same names |
| Vault.Lowered | app/src/main/java/com/rubenalba/paxxword/ui/vault/VaultViewModel.kt:52-54 | each character is lowered, and the length is kept |
| Vault.Present | app/src/main/java/com/rubenalba/paxxword/ui/vault/VaultViewModel.kt:43-59 | a failed listing becomes an error carrying the exception's message, or "Error desconocido" when it has none; a listing becomes the search results |
| Vault.VaultViewModel.constructor | app/src/main/java/com/rubenalba/paxxword/ui/vault/VaultViewModel.kt:36-73 | no folder selected, an empty query, the sheet closed |
| Vault.VaultViewModel.UiState | app/src/main/java/com/rubenalba/paxxword/ui/vault/VaultViewModel.kt:43-64 | the selected folder's accounts (all accounts when none is selected), decrypted and then searched, or the error; reading a non-empty listing slides or clears the session, an empty one leaves it untouched |
| Vault.VaultViewModel.OnSearchQueryChange | app/src/main/java/com/rubenalba/paxxword/ui/vault/VaultViewModel.kt:75-77 | the query changes; nothing else does |
| Vault.VaultViewModel.OnFolderSelect | app/src/main/java/com/rubenalba/paxxword/ui/vault/VaultViewModel.kt:78-80 | the selection changes; nothing else does |
| Vault.VaultViewModel.OnCreateFolder | app/src/main/java/com/rubenalba/paxxword/ui/vault/VaultViewModel.kt:82-86 | one folder with that name is added under a new id |
| Vault.VaultViewModel.OnDeleteFolder | app/src/main/java/com/rubenalba/paxxword/ui/vault/VaultViewModel.kt:88-95 | the selection falls back to all accounts exactly when the deleted folder was selected; the folder goes; its accounts stay without a folder and every other account is unchanged; users are unchanged |
| Vault.VaultViewModel.OnAddClick | app/src/main/java/com/rubenalba/paxxword/ui/vault/VaultViewModel.kt:97-103 | the sheet opens on a new, empty account in the selected folder |
| Vault.VaultViewModel.OnAccountClick | app/src/main/java/com/rubenalba/paxxword/ui/vault/VaultViewModel.kt:105-108 | the sheet opens on that account |
| Vault.VaultViewModel.OnDismissSheet | app/src/main/java/com/rubenalba/paxxword/ui/vault/VaultViewModel.kt:110-113 | the sheet closes and shows nothing |
| Vault.VaultViewModel.SaveAccount | app/src/main/java/com/rubenalba/paxxword/ui/vault/VaultViewModel.kt:115-120 | the repository save: the session is read once, five IVs are drawn exactly when it holds a key, folders and users are unchanged, the row is inserted or updated; the sheet closes exactly when the save completes |
| Vault.VaultViewModel.DeleteAccount | app/src/main/java/com/rubenalba/paxxword/ui/vault/VaultViewModel.kt:122-127 | the account is removed, folders and users are unchanged, and the sheet closes |
| AddEdit.Validate | app/src/main/java/com/rubenalba/myapplication/ui/addedit/AddEditViewModel.kt:47-55 | a blank service name is reported first; then a blank password; nothing exactly when both are filled in |
| AddEdit.Finish | app/src/main/java/com/rubenalba/myapplication/ui/addedit/AddEditViewModel.kt:74-78 | loading ends; success sets `isSaved`; a throw sets the error to "Error al guardar: " followed by the message, and `isSaved` is unchanged |
| AddEdit.ValidFormBuildsItsAccount | app/src/main/java/com/rubenalba/myapplication/ui/addedit/AddEditViewModel.kt:59-72 | a valid form builds a new account, outside every folder, with a non-blank service name and password and the form's service name, username, email, password, URL and notes |
| AddEdit.FormAccountReadsBack | app/src/main/java/com/rubenalba/myapplication/ui/addedit/AddEditViewModel.kt:62-72 | the form's account, once stored, reads back as itself under the same key |
| AddEdit.AddEditViewModel.constructor | app/src/main/java/com/rubenalba/myapplication/ui/addedit/AddEditViewModel.kt:14-24 | every text field empty; not loading; not saved; no error |
| AddEdit.AddEditViewModel.OnServiceNameChange | app/src/main/java/com/rubenalba/myapplication/ui/addedit/AddEditViewModel.kt:38 | only the service name changes |
| AddEdit.AddEditViewModel.OnEmailChange | app/src/main/java/com/rubenalba/myapplication/ui/addedit/AddEditViewModel.kt:39 | only the email changes |
| AddEdit.AddEditViewModel.OnUsernameChange | app/src/main/java/com/rubenalba/myapplication/ui/addedit/AddEditViewModel.kt:40 | only the username changes |
| AddEdit.AddEditViewModel.OnPasswordChange | app/src/main/java/com/rubenalba/myapplication/ui/addedit/AddEditViewModel.kt:41 | only the password changes |
| AddEdit.AddEditViewModel.OnUrlChange | app/src/main/java/com/rubenalba/myapplication/ui/addedit/AddEditViewModel.kt:42 | only the URL changes |
| AddEdit.AddEditViewModel.OnNotesChange | app/src/main/java/com/rubenalba/myapplication/ui/addedit/AddEditViewModel.kt:43 | only the notes change |
| AddEdit.AddEditViewModel.SaveAccount | app/src/main/java/com/rubenalba/myapplication/ui/addedit/AddEditViewModel.kt:46-80 | an invalid form shows the first failing check's message and changes nothing else; a throwing save shows the prefixed message and stores nothing, session and draws untouched; otherwise the session is read once, five IVs are drawn, and exactly one new row outside every folder reads back as the form's account, email included |
| AddEdit.AddEditViewModel.SaveStoresForm | app/src/main/java/com/rubenalba/myapplication/ui/addedit/AddEditViewModel.kt:58-74 | a validated form is stored as one new row that reads back as the form's account, with every field the user typed, email included; the session is read once, five IVs are drawn, and the form is marked saved |
| Locale.LanguageCode | app/src/main/java/com/rubenalba/paxxword/data/manager/LocaleManager.kt:18-24 | English gives "en", Spanish "es", and the system setting null; every code has two letters |
| Locale.LanguageCodeInjective | app/src/main/java/com/rubenalba/paxxword/data/manager/LocaleManager.kt:18-24 | different languages never share a code |
| Repository.PasswordRepository.constructor | app/src/main/java/com/rubenalba/paxxword/data/repository/PasswordRepositoryImpl.kt:16-20 | the repository works on the given database, session and randomness |
| LegacyRepository.LegacyPasswordRepository.constructor | app/src/main/java/com/rubenalba/myapplication/data/repository/PasswordRepositoryImpl.kt:15-40 | the older repository works on the given database and session, with the given development password |
| Backup.BackupManager.constructor | app/src/main/java/com/rubenalba/paxxword/data/manager/BackupManager.kt:21-27 | the backup manager works through the given repository |
| LegacyAuth.LegacyAuthViewModel.constructor | app/src/main/java/com/rubenalba/myapplication/ui/auth/AuthViewModel.kt:24-30 | the state starts as `Idle` |

## Left out

- File and stream I/O (URIs, the content resolver, `openInputStream`/`openOutputStream`), which is reduced to the document's content and a parameter saying how the stream behaves.
- Gson's behaviour on JSON the model's term syntax cannot express (lenient parsing, missing non-null fields filled with null), which is modelled only as a container that parses or does not.
- Coroutines, `Flow`s and `StateFlow`s: each launched block is one sequential step, and a flow is the value it emits now. The transient `Loading` states are not observable, and two launched blocks never interleave.
- The vault's `folders` flow, which only re-exposes `getAllFolders`; `PasswordRepository.AllFolders` models the listing.
- Unicode letters and digits: `isDigit`, `isLetterOrDigit` and `lowercase` are modelled on ASCII only (`isWhitespace` is modelled in full).
- Auth.ValidatePasswordPolicy: a non-ASCII letter or digit (such as `é` or `٣`) counts as a symbol in the model, and a non-ASCII digit does not satisfy the digit rule, whereas Kotlin classifies both by Unicode category.
- Exceptions other than the named faults (a missing session key, a failing insert, a missing or throwing stream, a throwing save): out-of-memory, disk errors and the like.
- `deleteBackupFile`, called by the settings screen, is not part of this model; deleting the document is modelled as it becoming `Deleted`.
- `updateTheme`, `updateLanguage` and `settingsState` of the settings screen, which only read and write DataStore preferences.
- `LocaleManager.setLocale`, which only builds an Android configuration.
- The older `User`, `UserDao` and `data.model` classes are not part of this model; the older view models use the current user table, which has the same columns.
- Vault.VaultViewModel.SaveAccount: a save that throws leaves the sheet as it was; the exception itself is uncaught in the source: in `viewModelScope` it reaches the thread's uncaught-exception handler, which crashes the app. The model returns it as a failed outcome instead.
- Crypto.DeriveKeyInjective: PBKDF2 is treated as injective and AES-GCM as an ideal authenticated cipher, so collisions and forgeries are outside the model.
- Ties under `ORDER BY` and the row `LIMIT 1` returns: SQLite specifies neither. The model lists rows of equal sort value in ascending primary-key order and takes the lowest id for `LIMIT 1`, the rowid scan order SQLite uses in practice. The restore's mapping of a repeated folder name to its first folder rests on that choice.
- Kotlin `Long` ids, AUTOINCREMENT counters, draw counters and timestamps are unbounded integers here, so their overflow is not modelled; SQLite fails an AUTOINCREMENT insert past the largest rowid instead of wrapping around.
- The clock is a parameter (`now`); the source reads `System.currentTimeMillis()`.
- `SecureRandom` is a fixed stream given to the model; freshness of salts and IVs is an assumption (`Entropy.Fresh`) that only `Repository.SaveIvsDistinct` uses.
- The backup timestamp is the `now` parameter rather than the clock.
- Key lengths and byte encodings (UTF-8 of the JSON, 256-bit keys, 12- and 16-byte IVs) are carried as terms, not as byte counts.

=== FILE: addedit.dfy ===
/**
 * The older add-account form (`AddEditViewModel`): six text fields the user
 * types into, a validation that runs before anything is saved, and the save
 * itself through the older repository.
 *
 * The account the form builds carries every field the user typed, the email
 * included, and the older repository encrypts and stores each of them. The
 * launched block is one sequential step; its
 * transient `isLoading = true` is visible only inside it.
 */
module AddEdit {
  import opened Wrappers
  import opened Session
  import opened Entities
  import opened Storage
  import opened Text
  import opened LegacyRepository

  datatype AddEditUiState = AddEditUiState(
    serviceName: string,
    email: string,
    username: string,
    password: string,
    url: string,
    notes: string,
    isLoading: bool,
    isSaved: bool,
    error: Option<string>)

  /** The state the form opens with: every field empty, nothing loading, saved or wrong. */
  const InitialState := AddEditUiState("", "", "", "", "", "", false, false, None)

  const ServiceNameRequiredMessage := "El nombre del servicio es obligatorio"
  const PasswordRequiredMessage := "La contraseña es obligatoria"
  const SaveErrorPrefix := "Error al guardar: "

  /** The two checks of `saveAccount`, in their order: the message of the first
      that fails, or nothing when the form may be saved. */
  function Validate(s: AddEditUiState): (r: Option<string>)
    ensures r == Some(ServiceNameRequiredMessage) <==> IsBlank(s.serviceName)
    ensures r == Some(PasswordRequiredMessage) <==> !IsBlank(s.serviceName) && IsBlank(s.password)
    ensures r.None? <==> !IsBlank(s.serviceName) && !IsBlank(s.password)
  {
    if IsBlank(s.serviceName) then Some(ServiceNameRequiredMessage)
    else if IsBlank(s.password) then Some(PasswordRequiredMessage)
    else None
  }

  /** The account `saveAccount` builds from the form: a new one (id 0) outside
      every folder, with the form's fields. */
  function FormAccount(s: AddEditUiState): AccountModel
  {
    AccountModel(Unsaved, None, s.serviceName, s.username, s.email, s.password, s.url, s.notes)
  }

  /** The exception a call threw, if any, from the outcome the model gives it. */
  function Thrown(r: Outcome): (e: Option<Exception>)
    ensures e.None? <==> r.Pass?
  {
    match r
    case Pass => None
    case Fail(x) => Some(x)
  }

  /** The end of the launched block, from the loading state: saved, or the
      exception's message after the prefix ("null" for a message-less one). */
  function Finish(s: AddEditUiState, thrown: Option<Exception>): (t: AddEditUiState)
    ensures !t.isLoading
    ensures thrown.None? ==> t.isSaved && t.error == s.error
    ensures thrown.Some? ==> t.isSaved == s.isSaved
                             && t.error == Some(SaveErrorPrefix + Interpolate(thrown.value.Message()))
    ensures t.(isLoading := s.isLoading, isSaved := s.isSaved, error := s.error) == s
  {
    match thrown
    case None => s.(isSaved := true, isLoading := false)
    case Some(e) => s.(error := Some(SaveErrorPrefix + Interpolate(e.Message())), isLoading := false)
  }

  /** A form that passes validation is saved with a non-blank service name and
      password, and with the form's own service name, username, email, password,
      URL and notes. */
  lemma ValidFormBuildsItsAccount(s: AddEditUiState)
    requires Validate(s).None?
    ensures var m := FormAccount(s);
            && !IsBlank(m.serviceName) && !IsBlank(m.password)
            && m.serviceName == s.serviceName && m.username == s.username && m.email == s.email
            && m.password == s.password
            && m.url == s.url && m.notes == s.notes
            && m.id == Unsaved && m.folderId == None
  {
  }

  /** The form's account, stored under any key and read back under the same key,
      is the form's account again: its fields survive encryption. */
  lemma FormAccountReadsBack(s: AddEditUiState, key: Crypto.Key, ivs: CbcIvs, now: int, id: int,
                             noise: Crypto.CbcNoise)
    ensures DecryptAccount(BuildRow(FormAccount(s), key, ivs, now).(id := id), key, noise)
            == FormAccount(s).(id := id)
  {
    DecryptBuiltRow(FormAccount(s).(id := id), key, ivs, now, noise);
    assert BuildRow(FormAccount(s), key, ivs, now).(id := id) == BuildRow(FormAccount(s).(id := id), key, ivs, now);
  }

  /** `after` is `before` with one row added at the new id `k`: a row outside every
      folder that reads back, under `key`, as the account `m` with that id. */
  ghost predicate AddsRowAt(before: map<int, Account>, after: map<int, Account>, k: int, m: AccountModel,
                            key: Crypto.Key, noise: Crypto.CbcNoise)
  {
    && k in after && k !in before && after == before[k := after[k]]
    && after[k].folderId == None
    && DecryptAccount(after[k], key, noise) == m.(id := k)
  }

  /** `AddEditViewModel` over the older repository. */
  class AddEditViewModel {
    const repo: LegacyPasswordRepository
    var uiState: AddEditUiState

    constructor(repo: LegacyPasswordRepository)
      ensures this.repo == repo && uiState == InitialState
    {
      this.repo := repo;
      uiState := InitialState;
    }

    method OnServiceNameChange(v: string)
      modifies this
      ensures uiState == old(uiState).(serviceName := v)
    {
      uiState := uiState.(serviceName := v);
    }

    method OnEmailChange(v: string)
      modifies this
      ensures uiState == old(uiState).(email := v)
    {
      uiState := uiState.(email := v);
    }

    method OnUsernameChange(v: string)
      modifies this
      ensures uiState == old(uiState).(username := v)
    {
      uiState := uiState.(username := v);
    }

    method OnPasswordChange(v: string)
      modifies this
      ensures uiState == old(uiState).(password := v)
    {
      uiState := uiState.(password := v);
    }

    method OnUrlChange(v: string)
      modifies this
      ensures uiState == old(uiState).(url := v)
    {
      uiState := uiState.(url := v);
    }

    method OnNotesChange(v: string)
      modifies this
      ensures uiState == old(uiState).(notes := v)
    {
      uiState := uiState.(notes := v);
    }

    /** `saveAccount`. A form that fails validation shows the first failing
        check's message and touches nothing else. Otherwise the account is saved
        under the session key (the development key without one); `saveFault` is
        an exception the save throws before it stores anything. A save that
        completes adds one row outside every folder, which reads back as the
        form's account and is listed among the accounts without a folder. */
    method SaveAccount(now: int, saveFault: Option<Exception>)
      requires repo.db.Valid()
      modifies this, repo.db, repo.session, repo.rng
      ensures repo.db.Valid()
      ensures repo.db.folders == old(repo.db.folders) && repo.db.users == old(repo.db.users)
      ensures var s := old(uiState);
              Validate(s).Some? ==>
                && uiState == s.(error := Validate(s))
                && repo.db.accounts == old(repo.db.accounts)
                && repo.session.State() == old(repo.session.State()) && repo.rng.draws == old(repo.rng.draws)
      ensures var s := old(uiState);
              Validate(s).None? && saveFault.Some? ==>
                && uiState == s.(isLoading := false, error := Some(SaveErrorPrefix + Interpolate(saveFault.value.Message())))
                && repo.db.accounts == old(repo.db.accounts)
                && repo.session.State() == old(repo.session.State()) && repo.rng.draws == old(repo.rng.draws)
      ensures Validate(old(uiState)).None? && saveFault.None? ==>
                && repo.session.State() == Read(old(repo.session.State()), now).1
                && repo.rng.draws == old(repo.rng.draws) + 5
      ensures var s := old(uiState);
              var key := KeyOrDevKey(Read(old(repo.session.State()), now).0, DevKey(repo.devKeyPass));
              Validate(s).None? && saveFault.None? ==>
                && uiState == s.(isLoading := false, isSaved := true, error := None)
                && exists k :: AddsRowAt(old(repo.db.accounts), repo.db.accounts, k, FormAccount(s), key, repo.noise)
    {
      var invalid := Validate(uiState);
      if invalid.Some? {
        uiState := uiState.(error := invalid);
        return;
      }
      uiState := uiState.(isLoading := true, error := None);
      if saveFault.Some? {
        uiState := Finish(uiState, saveFault);
        return;
      }
      assert FormAccount(uiState) == FormAccount(old(uiState));
      SaveStoresForm(now);
    }

    /** The completing save of a validated form. */
    method SaveStoresForm(now: int)
      requires repo.db.Valid() && Validate(uiState).None?
      modifies this, repo.db, repo.session, repo.rng
      ensures repo.db.Valid()
      ensures repo.db.folders == old(repo.db.folders) && repo.db.users == old(repo.db.users)
      ensures repo.session.State() == Read(old(repo.session.State()), now).1
      ensures repo.rng.draws == old(repo.rng.draws) + 5
      ensures var key := KeyOrDevKey(Read(old(repo.session.State()), now).0, DevKey(repo.devKeyPass));
              && uiState == old(uiState).(isLoading := false, isSaved := true)
              && exists k :: AddsRowAt(old(repo.db.accounts), repo.db.accounts, k, FormAccount(old(uiState)), key, repo.noise)
    {
      ghost var key := KeyOrDevKey(Read(repo.session.State(), now).0, DevKey(repo.devKeyPass));
      ghost var k := repo.db.accountSeq + 1;
      ghost var ivs := CbcIvsAt(repo.rng, repo.rng.draws);
      ghost var before := repo.db.accounts;
      ghost var s := uiState;
      ghost var m := FormAccount(s);
      var r := repo.SaveAccount(FormAccount(uiState), now);
      uiState := Finish(uiState, Thrown(r));
      FormAccountReadsBack(s, key, ivs, now, k, repo.noise);
      assert AddsRowAt(before, repo.db.accounts, k, m, key, repo.noise);
    }
  }
}

=== FILE: auth.dfy ===
/**
 * `AuthViewModel` of the current code: registration of the master password,
 * login, the password policy the sign-up screen applies, and the restore of a
 * vault from a backup file before any login.
 *
 * The master password itself is never stored. The single row of `app_user`
 * holds a random salt and the phrase `PAXXWORD_VERIFIED_USER` encrypted (AES-GCM)
 * under the key PBKDF2 derives from password and salt; a candidate password is
 * accepted exactly when the phrase decrypts under the key derived from it, and
 * that key then goes into the session.
 *
 * The coroutine is modelled as one step from the state the call starts in to the
 * state it settles in: the transient `Loading` that every launched call shows
 * first is not kept.
 */
module Auth {
  import opened Wrappers
  import opened Crypto
  import opened Session
  import opened Entities
  import opened Storage
  import opened Text
  import opened Repository
  import opened BackupModels
  import opened Backup

  /** The `R.string` messages the view model reports. */
  datatype MessageId =
    | AuthErrorGeneric
    | AuthErrorNoUser
    | AuthErrorIncorrect
    | AuthErrorPolicyLength
    | AuthErrorPolicyDigit
    | AuthErrorPolicySymbol

  datatype AuthState = Idle | Loading | Success | Error(messageId: MessageId)

  /** The phrase whose decryption proves the password. */
  const VerificationPhrase := "PAXXWORD_VERIFIED_USER"

  /** The shortest password the policy admits. */
  const MinPasswordLength := 8

  /** The placeholder e-mail of a user made by sign-up, and of one made by a restore. */
  const LocalUserEmail := "usuario_local"
  const RestoredUserEmail := "usuario_restaurado"

  // ---- Password policy ----

  /** Kotlin's `s.any(p)`: whether some character satisfies `p`. */
  function Any(s: string, p: char -> bool): (r: bool)
    ensures r <==> exists i :: 0 <= i < |s| && p(s[i])
    decreases |s|
  {
    if s == [] then false
    else if p(s[0]) then true
    else
      var rest := Any(s[1..], p);
      assert forall i :: 1 <= i < |s| ==> s[i] == s[1..][i - 1];
      rest
  }

  predicate IsSymbol(c: char)
  {
    !IsLetterOrDigit(c)
  }

  /** `validatePasswordPolicy`: the message of the first rule the password breaks
      (at least eight characters, then a digit, then a character that is neither
      letter nor digit), or null when it breaks none. */
  function ValidatePasswordPolicy(password: string): (r: Option<MessageId>)
    ensures r.None? <==>
              && |password| >= MinPasswordLength
              && (exists i :: 0 <= i < |password| && IsDigit(password[i]))
              && (exists i :: 0 <= i < |password| && IsSymbol(password[i]))
    ensures r == Some(AuthErrorPolicyLength) <==> |password| < MinPasswordLength
    ensures r == Some(AuthErrorPolicyDigit) <==>
              |password| >= MinPasswordLength && forall i :: 0 <= i < |password| ==> !IsDigit(password[i])
    ensures r == Some(AuthErrorPolicySymbol) <==>
              && |password| >= MinPasswordLength
              && (exists i :: 0 <= i < |password| && IsDigit(password[i]))
              && forall i :: 0 <= i < |password| ==> !IsSymbol(password[i])
  {
    if |password| < MinPasswordLength then Some(AuthErrorPolicyLength)
    else if !Any(password, IsDigit) then Some(AuthErrorPolicyDigit)
    else if !Any(password, IsSymbol) then Some(AuthErrorPolicySymbol)
    else None
  }

  /** Appending characters to a password the policy admits gives one it admits. */
  lemma PolicyStableUnderExtension(p: string, q: string)
    requires ValidatePasswordPolicy(p).None?
    ensures ValidatePasswordPolicy(p + q).None?
  {
    var i :| 0 <= i < |p| && IsDigit(p[i]);
    assert (p + q)[i] == p[i];
    var j :| 0 <= j < |p| && IsSymbol(p[j]);
    assert (p + q)[j] == p[j];
  }

  /** A password the policy admits is never blank, so `register` never ignores it. */
  lemma PolicyAdmitsNoBlankPassword(p: string)
    requires ValidatePasswordPolicy(p).None?
    ensures !IsBlank(p)
  {
    var i :| 0 <= i < |p| && IsDigit(p[i]);
    assert !IsWhitespace(p[i]);
  }

  /** A password shorter than eight characters is reported by the length rule,
      whatever else it contains. */
  lemma PolicyRejectsShort()
    ensures ValidatePasswordPolicy("a1!") == Some(AuthErrorPolicyLength)
  {
  }

  /** A long enough password without a digit is reported by the digit rule. */
  lemma PolicyRejectsNoDigit()
    ensures ValidatePasswordPolicy("password") == Some(AuthErrorPolicyDigit)
  {
    var p := "password";
    assert !Any(p, IsDigit) by {
      forall i | 0 <= i < |p| ensures !IsDigit(p[i]) {
      }
    }
  }

  /** A long enough password with a digit but only letters and digits is
      reported by the symbol rule. */
  lemma PolicyRejectsNoSymbol()
    ensures ValidatePasswordPolicy("passw0rd") == Some(AuthErrorPolicySymbol)
  {
    var p := "passw0rd";
    assert Any(p, IsDigit) by {
      assert IsDigit(p[5]);
    }
    assert !Any(p, IsSymbol) by {
      forall i | 0 <= i < |p| ensures !IsSymbol(p[i]) {
        if i == 5 {
          assert IsDigit(p[i]);
        } else {
          assert IsLetter(p[i]);
        }
      }
    }
  }

  /** A password with eight characters, a digit and a symbol is admitted. */
  lemma PolicyAdmitsExample()
    ensures ValidatePasswordPolicy("passw0rd!") == None
  {
    assert IsDigit("passw0rd!"[5]) && IsSymbol("passw0rd!"[8]);
  }

  // ---- Verification of a candidate password ----

  /** The `User` row sign-up and restore build: the salt and the IV in base64 and
      the phrase encrypted under `key` with that IV; the id is left to the database. */
  function NewUser(email: string, salt: Bytes, iv: Bytes, key: Key): (u: User)
    ensures u.id == Unsaved && u.userEmail == email
    ensures Base64ToBytes(u.userSalt) == Some(salt) && Base64ToBytes(u.ivVerificationValue) == Some(iv)
    ensures Decrypt(u.encryptedVerificationValue, key, iv) == Some(VerificationPhrase)
  {
    User(Unsaved, email, BytesToBase64(salt), Encrypt(VerificationPhrase, key, iv), BytesToBase64(iv))
  }

  /** The check inside `login`: decode the salt, derive the candidate key, decode the
      IV and decrypt the stored phrase. The candidate key when the phrase comes back;
      null when it does not, or when decoding or decryption throws. */
  function LoginKey(user: User, password: string): (r: Option<Key>)
    ensures r.Some? <==>
              && user.userSalt.Encoded? && user.ivVerificationValue.Encoded?
              && Decrypt(user.encryptedVerificationValue, DeriveKey(password, user.userSalt.bytes),
                         user.ivVerificationValue.bytes) == Some(VerificationPhrase)
    ensures r.Some? ==>
              && r.value == DeriveKey(password, user.userSalt.bytes)
              && user.encryptedVerificationValue == Encrypt(VerificationPhrase, r.value, user.ivVerificationValue.bytes)
  {
    match Base64ToBytes(user.userSalt)
    case None => None
    case Some(salt) =>
      var candidate := DeriveKey(password, salt);
      match Base64ToBytes(user.ivVerificationValue)
      case None => None
      case Some(iv) =>
        if Decrypt(user.encryptedVerificationValue, candidate, iv) == Some(VerificationPhrase)
        then Some(candidate) else None
  }

  /** Sign-up and login agree: the user built for a password admits exactly that
      password, whatever id the database gave it, and yields the key derived at
      sign-up. */
  lemma RegisteredUserVerifies(email: string, salt: Bytes, iv: Bytes, password: string, id: int, attempt: string)
    ensures LoginKey(NewUser(email, salt, iv, DeriveKey(password, salt)).(id := id), attempt)
            == if attempt == password then Some(DeriveKey(password, salt)) else None
  {
    DeriveKeyInjective(attempt, salt, password, salt);
  }

  /** The only user of the table is the one `getAppUser` returns, and it admits
      exactly the password it was built for. */
  lemma SoleUserAdmits(users: map<int, User>, email: string, salt: Bytes, iv: Bytes, password: string)
    requires SoleUser(users, NewUser(email, salt, iv, DeriveKey(password, salt)))
    ensures FirstUser(users).Some?
    ensures forall attempt :: LoginKey(FirstUser(users).value, attempt)
                              == if attempt == password then Some(DeriveKey(password, salt)) else None
  {
    SoleUserIsAppUser(users, NewUser(email, salt, iv, DeriveKey(password, salt)));
    forall attempt {
      RegisteredUserVerifies(email, salt, iv, password, FirstUser(users).value.id, attempt);
    }
  }

  /** The users table after a restore: the restored user for `salt`, `iv` and `key`
      alone, and `getAppUser` returns a user that admits exactly `password`. */
  ghost predicate HoldsRestoredUser(users: map<int, User>, salt: Bytes, iv: Bytes, key: Key, password: string)
  {
    && SoleUser(users, NewUser(RestoredUserEmail, salt, iv, key))
    && FirstUser(users).Some?
    && forall attempt :: LoginKey(FirstUser(users).value, attempt) == if attempt == password then Some(key) else None
  }

  /** The accounts and folders after an import under `key` of a backup holding `n`
      accounts: every earlier row is kept, `n` accounts are added, and each added
      account is sealed under `key`. */
  ghost predicate ImportedUnder(accountsBefore: map<int, Account>, accountsAfter: map<int, Account>,
                                foldersBefore: map<int, Folder>, foldersAfter: map<int, Folder>, n: nat, key: Key)
  {
    && (forall k :: k in accountsBefore ==> k in accountsAfter && accountsAfter[k] == accountsBefore[k])
    && (forall k :: k in foldersBefore ==> k in foldersAfter && foldersAfter[k] == foldersBefore[k])
    && |accountsAfter| == |accountsBefore| + n
    && (forall k :: k in accountsAfter && k !in accountsBefore ==> SealedUnder(accountsAfter[k], key))
  }

  /** `AuthViewModel` over the user table, the session, the randomness source and
      the backup manager; the backup manager's repository works on the same three. */
  class AuthViewModel {
    const db: Database
    const session: SessionManager
    const rng: Entropy
    const backup: BackupManager
    var state: AuthState

    /** The backup manager shares this view model's database, session and randomness. */
    predicate Wired()
    {
      backup.repo.db == db && backup.repo.session == session && backup.repo.rng == rng
    }

    constructor(db: Database, session: SessionManager, rng: Entropy, backup: BackupManager)
      requires backup.repo.db == db && backup.repo.session == session && backup.repo.rng == rng
      ensures this.db == db && this.session == session && this.rng == rng && this.backup == backup
      ensures Wired() && state == Idle
    {
      this.db := db;
      this.session := session;
      this.rng := rng;
      this.backup := backup;
      state := Idle;
    }

    /** `register`: a blank password is ignored. Otherwise draw a salt, derive the
        key, draw an IV, encrypt the phrase, replace every user by the new one,
        put the key in the session and succeed. `insertFails` is a database failure
        of the insert: the old users are then already gone, no key is set, and
        the generic error is shown. */
    method Register(password: string, now: int, insertFails: bool)
      requires db.Valid()
      modifies this, db, session, rng
      ensures db.Valid()
      ensures db.accounts == old(db.accounts) && db.folders == old(db.folders)
      ensures IsBlank(password) ==>
                && state == old(state) && db.users == old(db.users)
                && session.State() == old(session.State()) && rng.draws == old(rng.draws)
      ensures !IsBlank(password) ==>
                var salt := rng.salts(old(rng.draws));
                var key := DeriveKey(password, salt);
                && rng.draws == old(rng.draws) + 2
                && (insertFails ==>
                      state == Error(AuthErrorGeneric) && db.users == map[] && session.State() == old(session.State()))
                && (!insertFails ==>
                      && state == Success && session.State() == WithKey(key, now)
                      && SoleUser(db.users, NewUser(LocalUserEmail, salt, rng.gcmIvs(old(rng.draws) + 1), key))
                      && db.AppUser().Some?
                      && forall attempt :: LoginKey(db.AppUser().value, attempt)
                                           == if attempt == password then Some(key) else None)
    {
      if IsBlank(password) {
        return;
      }
      var salt := rng.GenerateSalt();
      var key := DeriveKey(password, salt);
      var iv := rng.GenerateIv();
      var user := NewUser(LocalUserEmail, salt, iv, key);
      db.DeleteAllUsers();
      if insertFails {
        state := Error(AuthErrorGeneric);
        return;
      }
      var id := db.InsertUser(user);
      assert db.users == map[id := user.(id := id)];
      SoleUserAdmits(db.users, LocalUserEmail, salt, iv, password);
      session.SetKey(key, now);
      state := Success;
    }

    /** `login`: a blank password is ignored; with no user, the no-user error;
        otherwise the key the stored phrase admits goes into the session, and any
        failure (wrong phrase, bad base64, failed decryption) is the
        incorrect-password error with the session untouched. */
    method Login(password: string, now: int)
      requires db.Valid()
      modifies this, session
      ensures IsBlank(password) ==> state == old(state) && session.State() == old(session.State())
      ensures !IsBlank(password) && db.AppUser().None? ==>
                state == Error(AuthErrorNoUser) && session.State() == old(session.State())
      ensures !IsBlank(password) && db.AppUser().Some? ==>
                match LoginKey(db.AppUser().value, password)
                case Some(key) => state == Success && session.State() == WithKey(key, now)
                case None => state == Error(AuthErrorIncorrect) && session.State() == old(session.State())
    {
      if IsBlank(password) {
        return;
      }
      var user := db.AppUser();
      if user.None? {
        state := Error(AuthErrorNoUser);
        return;
      }
      var key := LoginKey(user.value, password);
      if key.Some? {
        session.SetKey(key.value, now);
        state := Success;
      } else {
        state := Error(AuthErrorIncorrect);
      }
    }

    /** `restoreFromBackup`: draw a salt, derive a key from the backup's password
        and put it in the session, then import. When the import succeeds, draw an IV
        and replace every user by one built for that password and salt; otherwise
        clear the session. `insertFails` is a database failure of the insert: the
        session is cleared, every user is deleted, and the restored data stays.
        The restored user carries the last IV drawn, and the folders and accounts
        added are those of the backup, mapped and sealed under the new key as
        `RestoredBackup` describes. */
    method RestoreFromBackup(content: Option<FileText>, password: string, now: int, insertFails: bool)
      requires Wired() && db.Valid()
      modifies this, db, session, rng
      ensures db.Valid()
      ensures var data := OpenBackup(content, password);
              var salt := rng.salts(old(rng.draws));
              var key := DeriveKey(password, salt);
              && (data.None? ==>
                    && state == Error(AuthErrorIncorrect) && session.State() == Initial
                    && db.users == old(db.users) && db.accounts == old(db.accounts) && db.folders == old(db.folders)
                    && rng.draws == old(rng.draws) + 1)
              && (data.Some? ==>
                    && rng.draws == old(rng.draws) + 2 + 5 * |data.value.accounts|
                    && ImportedUnder(old(db.accounts), db.accounts, old(db.folders), db.folders, |data.value.accounts|, key))
              && (data.Some? && insertFails ==>
                    state == Error(AuthErrorGeneric) && session.State() == Initial && db.users == map[])
              && (data.Some? && !insertFails ==>
                    && state == Success && session.State() == WithKey(key, now)
                    && HoldsRestoredUser(db.users, salt, rng.gcmIvs(rng.draws - 1), key, password))
      ensures var data := OpenBackup(content, password);
              var key := DeriveKey(password, rng.salts(old(rng.draws)));
              data.Some? ==>
                RestoredBackup(data.value, true, old(db.folders), db.folders, old(db.AllFolders()),
                               old(db.accounts), old(db.accountSeq), db.accounts, Some(key), rng, old(rng.draws) + 1, now)
    {
      var salt, key, success, folders1, accounts1 := ImportUnderBackupKey(content, password, now);
      state := ConcludeRestore(success, salt, key, password, insertFails);
    }

    /** The `if (success) … else …` of `restoreFromBackup`: a failed import clears
        the session and shows the incorrect-password error; a successful one goes
        on to replace the users. The accounts and folders are left as they are. */
    method ConcludeRestore(success: bool, salt: Bytes, key: Key, password: string, insertFails: bool)
      returns (outcome: AuthState)
      requires db.Valid()
      requires key == DeriveKey(password, salt)
      modifies db, session, rng
      ensures db.Valid()
      ensures db.accounts == old(db.accounts) && db.folders == old(db.folders)
      ensures !success ==>
                && outcome == Error(AuthErrorIncorrect) && session.State() == Initial
                && db.users == old(db.users) && rng.draws == old(rng.draws)
      ensures success ==> rng.draws == old(rng.draws) + 1
      ensures success && insertFails ==> outcome == Error(AuthErrorGeneric) && session.State() == Initial && db.users == map[]
      ensures success && !insertFails ==>
                && outcome == Success && session.State() == old(session.State())
                && HoldsRestoredUser(db.users, salt, rng.gcmIvs(old(rng.draws)), key, password)
    {
      if !success {
        session.ClearSession();
        outcome := Error(AuthErrorIncorrect);
      } else {
        outcome := ReplaceWithRestoredUser(salt, key, password, insertFails);
      }
    }

    /** The start of `restoreFromBackup`: draw a salt, derive the key from the
        backup's password, put it in the session and import. The import succeeds
        exactly when the backup opens with that password, since the session then
        holds a key, and the data it opens to is restored as `RestoredBackup`
        describes. `folders` and `accounts` name the tables as the import leaves
        them. */
    method ImportUnderBackupKey(content: Option<FileText>, password: string, now: int)
      returns (salt: Bytes, key: Key, success: bool, ghost folders: map<int, Folder>, ghost accounts: map<int, Account>)
      requires Wired() && db.Valid()
      modifies db, session, rng
      ensures folders == db.folders && accounts == db.accounts
      ensures db.Valid()
      ensures salt == rng.salts(old(rng.draws)) && key == DeriveKey(password, salt)
      ensures success <==> OpenBackup(content, password).Some?
      ensures db.users == old(db.users)
      ensures !success ==> db.accounts == old(db.accounts) && db.folders == old(db.folders)
                           && rng.draws == old(rng.draws) + 1
      ensures success ==>
                var data := OpenBackup(content, password).value;
                && rng.draws == old(rng.draws) + 1 + 5 * |data.accounts|
                && ImportedUnder(old(db.accounts), accounts, old(db.folders), folders, |data.accounts|, key)
                && session.State() == WithKey(key, now)
      ensures forall d {:trigger RestoredBackup(d, true, old(db.folders), folders, old(db.AllFolders()), old(db.accounts),
                                                old(db.accountSeq), accounts, Some(key), rng, old(rng.draws) + 1, now)} ::
                OpenBackup(content, password) == Some(d) ==>
                  RestoredBackup(d, true, old(db.folders), folders, old(db.AllFolders()), old(db.accounts),
                                 old(db.accountSeq), accounts, Some(key), rng, old(rng.draws) + 1, now)
    {
      salt, key := BeginBackupSession(password, now);
      success := ImportUnderKey(content, password, now, key);
      folders, accounts := db.folders, db.accounts;
    }

    /** Draw a salt, derive the key from the backup's password and that salt, and
        put it in the session. */
    method BeginBackupSession(password: string, now: int) returns (salt: Bytes, key: Key)
      modifies session, rng
      ensures salt == rng.salts(old(rng.draws)) && key == DeriveKey(password, salt)
      ensures rng.draws == old(rng.draws) + 1
      ensures session.State() == WithKey(key, now)
    {
      salt := rng.GenerateSalt();
      key := DeriveKey(password, salt);
      session.SetKey(key, now);
    }

    /** `importBackup` with `key` in the session: it succeeds exactly when the
        backup opens, and then restores under that key. */
    method ImportUnderKey(content: Option<FileText>, password: string, now: int, key: Key) returns (success: bool)
      requires Wired() && db.Valid()
      requires session.State() == WithKey(key, now)
      modifies db, session, rng
      ensures db.Valid()
      ensures success <==> OpenBackup(content, password).Some?
      ensures db.users == old(db.users)
      ensures !success ==> db.accounts == old(db.accounts) && db.folders == old(db.folders)
                           && rng.draws == old(rng.draws)
      ensures success ==>
                var data := OpenBackup(content, password).value;
                && rng.draws == old(rng.draws) + 5 * |data.accounts|
                && ImportedUnder(old(db.accounts), db.accounts, old(db.folders), db.folders, |data.accounts|, key)
                && session.State() == WithKey(key, now)
      ensures success ==>
                RestoredBackup(OpenBackup(content, password).value, true, old(db.folders), db.folders,
                               old(db.AllFolders()), old(db.accounts), old(db.accountSeq), db.accounts,
                               Some(key), rng, old(rng.draws), now)
    {
      assert Read(session.State(), now).0 == Some(key);
      success := backup.ImportBackup(content, password, now);
    }

    /** The `if (success)` branch of `restoreFromBackup`: draw an IV, build the user
        for the backup's key and salt, and replace every user by it. `insertFails`
        is a database failure of the insert, caught by the `catch`: the session is
        cleared and every user deleted. */
    method ReplaceWithRestoredUser(salt: Bytes, key: Key, password: string, insertFails: bool)
      returns (outcome: AuthState)
      requires db.Valid()
      requires key == DeriveKey(password, salt)
      modifies db, session, rng
      ensures db.Valid()
      ensures rng.draws == old(rng.draws) + 1
      ensures db.accounts == old(db.accounts) && db.folders == old(db.folders)
      ensures insertFails ==> outcome == Error(AuthErrorGeneric) && session.State() == Initial && db.users == map[]
      ensures !insertFails ==>
                && outcome == Success && session.State() == old(session.State())
                && HoldsRestoredUser(db.users, salt, rng.gcmIvs(old(rng.draws)), key, password)
    {
      var iv := rng.GenerateIv();
      var user := NewUser(RestoredUserEmail, salt, iv, key);
      db.DeleteAllUsers();
      if insertFails {
        session.ClearSession();
        db.DeleteAllUsers();
        return Error(AuthErrorGeneric);
      }
      var id := db.InsertUser(user);
      assert db.users == map[id := user.(id := id)];
      SoleUserAdmits(db.users, RestoredUserEmail, salt, iv, password);
      outcome := Success;
    }
  }
}

=== FILE: backup.dfy ===
/**
 * `BackupManager`: export of the decrypted vault to an encrypted backup file,
 * and import of such a file, which merges its folders (by name) and accounts
 * (always as new rows) into the vault. The file is a value (`FileText`): what
 * export writes to the chosen document and what import reads from it.
 */
module Backup {
  import opened Wrappers
  import opened Crypto
  import opened Session
  import opened Entities
  import opened Storage
  import opened Collections
  import opened Repository
  import opened BackupModels

  // ---- Export: the snapshot and the container ----

  /** `folders.find { it.id == acc.folderId }?.folderName`: the name of the first
      listed folder with the account's folder id, or null. */
  function FolderNameOf(folders: seq<Folder>, folderId: Option<int>): (r: Option<string>)
    ensures r.None? <==> forall i :: 0 <= i < |folders| ==> Some(folders[i].id) != folderId
    ensures r.Some? ==> exists i :: 0 <= i < |folders| && Some(folders[i].id) == folderId
                                    && folders[i].folderName == r.value
  {
    match Find(folders, (f: Folder) => Some(f.id) == folderId)
    case None => None
    case Some(f) => Some(f.folderName)
  }

  /** The `BackupAccount` of a decrypted account: its six text fields, and its folder by name. */
  function ToBackupAccount(acc: AccountModel, folders: seq<Folder>): (b: BackupAccount)
    ensures b.serviceName == acc.serviceName && b.username == acc.username && b.email == acc.email
    ensures b.password == acc.password && b.url == acc.url && b.notes == acc.notes
    ensures b.folderName.None? <==> forall i :: 0 <= i < |folders| ==> Some(folders[i].id) != acc.folderId
    ensures b.folderName.Some? ==> exists i :: 0 <= i < |folders| && Some(folders[i].id) == acc.folderId
                                               && folders[i].folderName == b.folderName.value
  {
    BackupAccount(acc.serviceName, acc.username, acc.email, acc.password, acc.url, acc.notes,
                  FolderNameOf(folders, acc.folderId))
  }

  /** The `BackupData` of `exportBackup`. */
  function Snapshot(now: int, folders: seq<Folder>, accounts: seq<AccountModel>): (d: BackupData)
    ensures d.timestamp == now && |d.folders| == |folders| && |d.accounts| == |accounts|
    ensures forall i :: 0 <= i < |folders| ==>
              d.folders[i].id == folders[i].id && d.folders[i].name == folders[i].folderName
    ensures forall i :: 0 <= i < |accounts| ==>
              var b := d.accounts[i];
              var a := accounts[i];
              && b.serviceName == a.serviceName && b.username == a.username && b.email == a.email
              && b.password == a.password && b.url == a.url && b.notes == a.notes
    ensures forall i :: 0 <= i < |accounts| ==> d.accounts[i].folderName == FolderNameOf(folders, accounts[i].folderId)
  {
    BackupData(now,
      seq(|folders|, i requires 0 <= i < |folders| => BackupFolder(folders[i].id, folders[i].folderName)),
      seq(|accounts|, i requires 0 <= i < |accounts| => ToBackupAccount(accounts[i], folders)))
  }

  /** The folder names a snapshot lists. */
  function Names(fs: seq<BackupFolder>): set<string>
  {
    set i | 0 <= i < |fs| :: fs[i].name
  }

  /** An exported account names a folder only if the snapshot lists a folder of that
      name, and that folder has the account's folder id. */
  lemma SnapshotNamesListedFolders(now: int, folders: seq<Folder>, accounts: seq<AccountModel>, i: int)
    requires 0 <= i < |accounts|
    ensures var d := Snapshot(now, folders, accounts);
            d.accounts[i].folderName.Some? ==>
              && d.accounts[i].folderName.value in Names(d.folders)
              && exists j :: 0 <= j < |folders| && Some(folders[j].id) == accounts[i].folderId
                             && folders[j].folderName == d.accounts[i].folderName.value
  {
    var d := Snapshot(now, folders, accounts);
    if d.accounts[i].folderName.Some? {
      var j :| 0 <= j < |folders| && Some(folders[j].id) == accounts[i].folderId
               && folders[j].folderName == d.accounts[i].folderName.value;
      assert d.folders[j].name == d.accounts[i].folderName.value;
    }
  }

  /** The container `exportBackup` writes: the snapshot's JSON encrypted under a key
      derived from the given password and a fresh salt (not the session key), with
      that salt and the IV recorded in it. */
  function SealBackup(d: BackupData, password: string, salt: Bytes, iv: Bytes): (f: PaxxBackupFile)
    ensures f.version == DefaultVersion
    ensures f.saltBase64 == BytesToBase64(salt) && f.ivBase64 == BytesToBase64(iv)
    ensures Decrypt(f.encryptedData, DeriveKey(password, salt), iv) == Some(ToJson(d))
    ensures forall k, v :: (k, v) != (DeriveKey(password, salt), iv) ==> Decrypt(f.encryptedData, k, v) == None
  {
    NewBackupFile(BytesToBase64(salt), BytesToBase64(iv), Encrypt(ToJson(d), DeriveKey(password, salt), iv))
  }

  // ---- Import: opening a file ----

  /** The steps of `importBackup` before the restore: read the document (`None` when
      it cannot be opened), parse the container, decode salt and IV, derive the key
      from the given password, decrypt and parse the snapshot. `None` is `false`. */
  function OpenBackup(content: Option<FileText>, password: string): (r: Option<BackupData>)
    ensures content.None? ==> r.None?
    ensures r.Some? ==>
              && content.Some? && ParseFile(content.value).Some?
              && var f := ParseFile(content.value).value;
              && f.saltBase64.Encoded? && f.ivBase64.Encoded?
              && f.encryptedData == Encrypt(ToJson(r.value), DeriveKey(password, f.saltBase64.bytes), f.ivBase64.bytes)
  {
    if content.None? then None
    else match ParseFile(content.value)
      case None => None
      case Some(f) =>
        match (Base64ToBytes(f.saltBase64), Base64ToBytes(f.ivBase64))
        case (Some(salt), Some(iv)) =>
          (match Decrypt(f.encryptedData, DeriveKey(password, salt), iv)
           case None => None
           case Some(json) => FromJson(json))
        case _ => None
  }

  /** A file written by export opens, with the same password, to the exported snapshot,
      and with any other password not at all. */
  lemma OpenSealedBackup(d: BackupData, password: string, salt: Bytes, iv: Bytes, attempt: string)
    ensures OpenBackup(Some(WriteFile(SealBackup(d, password, salt, iv))), attempt)
            == if attempt == password then Some(d) else None
  {
    DeriveKeyInjective(password, salt, attempt, salt);
  }

  // ---- Import: restoring a snapshot ----

  /** The folder names of a folders table. */
  function FolderNames(folders: map<int, Folder>): set<string>
  {
    set k | k in folders :: folders[k].folderName
  }

  /** `find { it.folderName == name }` over a folder listing. */
  function FindByName(folders: seq<Folder>, name: string): (r: Option<Folder>)
    ensures r.None? <==> forall i :: 0 <= i < |folders| ==> folders[i].folderName != name
    ensures r.Some? ==> r.value in folders && r.value.folderName == name
    ensures r.Some? ==> exists i :: FirstNamed(folders, name, i) && folders[i] == r.value
  {
    Find(folders, (f: Folder) => f.folderName == name)
  }

  /** `i` is the position of the first folder named `name`. */
  ghost predicate FirstNamed(folders: seq<Folder>, name: string, i: int)
  {
    0 <= i < |folders| && folders[i].folderName == name
    && forall j :: 0 <= j < i ==> folders[j].folderName != name
  }

  /** In a listing whose ties are in id order, the first folder of a name has the
      smallest id of that name in the table listed. */
  lemma FirstNamedIsSmallest(listing: seq<Folder>, name: string, f: Folder, folders: map<int, Folder>)
    requires TiesById(listing, FolderName, FolderId)
    requires forall k :: k in folders ==> folders[k] in listing && folders[k].id == k
    requires exists i :: FirstNamed(listing, name, i) && listing[i] == f
    ensures forall k :: k in folders && folders[k].folderName == name ==> f.id <= k
  {
    var i :| FirstNamed(listing, name, i) && listing[i] == f;
    forall k | k in folders && folders[k].folderName == name ensures f.id <= k {
      var j :| 0 <= j < |listing| && listing[j] == folders[k];
      assert i <= j;
      if i < j {
        assert FolderName(listing[i]) == FolderName(listing[j]);
        assert FolderId(listing[i]) < FolderId(listing[j]);
      }
    }
  }

  /** A bound on the ids of a name after an insert bounds the inserted id and the
      ids of that name before it. */
  lemma SmallestBeforeInsert(before: map<int, Folder>, after: map<int, Folder>, newId: int, name: string, c: int)
    requires newId !in before && after == before[newId := Folder(newId, name)]
    requires forall k :: k in after && after[k].folderName == name ==> c <= k
    ensures c <= newId
    ensures forall k :: k in before && before[k].folderName == name ==> c <= k
  {
    assert newId in after && after[newId].folderName == name;
    forall k | k in before && before[k].folderName == name ensures c <= k {
      assert k in after && after[k] == before[k];
    }
  }

  /** The number of snapshot folders whose name is not among `existing`: each of them
      makes the restore insert one folder, duplicates included. */
  function Unmatched(fs: seq<BackupFolder>, existing: set<string>): (n: nat)
    ensures n <= |fs|
    decreases |fs|
  {
    if fs == [] then 0
    else Unmatched(fs[..|fs| - 1], existing) + if fs[|fs| - 1].name in existing then 0 else 1
  }

  /** Into a vault without those names, every snapshot folder is inserted. */
  lemma {:induction false} UnmatchedAllNew(fs: seq<BackupFolder>, existing: set<string>)
    requires Names(fs) !! existing
    ensures Unmatched(fs, existing) == |fs|
    decreases |fs|
  {
    if fs != [] {
      var init := fs[..|fs| - 1];
      assert Names(init) <= Names(fs) by {
        forall n | n in Names(init) ensures n in Names(fs) {
          var i :| 0 <= i < |init| && init[i].name == n;
          assert fs[i].name == n;
        }
      }
      assert fs[|fs| - 1].name in Names(fs);
      UnmatchedAllNew(init, existing);
    }
  }

  /** The folder an account is restored into: `folderMap[folderName]`, or null when
      the name is null or not mapped. */
  function TargetFolder(name: Option<string>, folderMap: map<string, int>): (r: Option<int>)
    ensures r.Some? <==> name.Some? && name.value in folderMap
    ensures r.Some? ==> r.value == folderMap[name.value]
  {
    if name.Some? && name.value in folderMap then Some(folderMap[name.value]) else None
  }

  /** The `AccountModel` restored from a backup account: no id (so it is inserted),
      its six fields, and the mapped folder. */
  function RestoredModel(b: BackupAccount, folderMap: map<string, int>): AccountModel
  {
    AccountModel(Unsaved, TargetFolder(b.folderName, folderMap),
                 b.serviceName, b.username, b.email, b.password, b.url, b.notes)
  }

  /** The row `saveAccount` builds for a backup account, with the five IVs drawn
      from position `drawn` on. */
  function RestoredRow(b: BackupAccount, folderMap: map<string, int>, key: Key, rng: Entropy, drawn: nat, now: int): Account
  {
    BuildRow(RestoredModel(b, folderMap), key, IvsAt(rng, drawn), now)
  }

  /** The rows the restore saves, in order: each built under the session key with
      the five IVs its own save draws. */
  function RestoredRows(accounts: seq<BackupAccount>, folderMap: map<string, int>, key: Key,
                        rng: Entropy, start: nat, now: int): (rows: seq<Account>)
    ensures |rows| == |accounts|
  {
    seq(|accounts|, j requires 0 <= j < |accounts| =>
      RestoredRow(accounts[j], folderMap, key, rng, start + 5 * j, now))
  }

  /** Row `j` of the restore is built from backup account `j` with the five IVs
      drawn from position `start + 5 * j` on. */
  lemma RestoredRowsAt(accounts: seq<BackupAccount>, folderMap: map<string, int>, key: Key,
                       rng: Entropy, start: nat, now: int, j: int, drawn: nat)
    requires 0 <= j < |accounts| && drawn == start + 5 * j
    ensures RestoredRows(accounts, folderMap, key, rng, start, now)[j]
            == RestoredRow(accounts[j], folderMap, key, rng, drawn, now)
  {
  }

  /** The accounts table after inserting `rows` in order, as new rows, starting from
      the AUTOINCREMENT counter `counter`. */
  function Appended(table: map<int, Account>, counter: int, rows: seq<Account>): map<int, Account>
    decreases |rows|
  {
    if rows == [] then table
    else
      var n := |rows|;
      Appended(table, counter, rows[..n - 1])[counter + n := rows[n - 1].(id := counter + n)]
  }

  /** Appending rows keeps every existing row and adds keys only above `counter`. */
  lemma {:induction false} AppendedKeeps(table: map<int, Account>, counter: int, rows: seq<Account>)
    requires forall k :: k in table ==> k <= counter
    ensures forall k :: k in table ==> k in Appended(table, counter, rows) && Appended(table, counter, rows)[k] == table[k]
    ensures forall k :: k in Appended(table, counter, rows) ==> k in table || counter < k <= counter + |rows|
    decreases |rows|
  {
    if rows != [] {
      AppendedKeeps(table, counter, rows[..|rows| - 1]);
    }
  }

  /** Row `j` of the appended rows sits under id `k = counter + 1 + j`. */
  lemma {:induction false} AppendedAt(table: map<int, Account>, counter: int, rows: seq<Account>, j: int, k: int)
    requires 0 <= j < |rows| && k == counter + 1 + j
    ensures k in Appended(table, counter, rows)
    ensures Appended(table, counter, rows)[k] == rows[j].(id := k)
    decreases |rows|
  {
    var n := |rows|;
    if j < n - 1 {
      AppendedAt(table, counter, rows[..n - 1], j, k);
      assert rows[..n - 1][j] == rows[j];
    }
  }

  /** A restored row is sealed under the key it was built with, whatever id it is
      stored under. */
  lemma RestoredRowSealed(b: BackupAccount, folderMap: map<string, int>, key: Key, rng: Entropy, drawn: nat,
                          now: int, id: int)
    ensures SealedUnder(RestoredRow(b, folderMap, key, rng, drawn, now).(id := id), key)
  {
    var r := RestoredRow(b, folderMap, key, rng, drawn, now);
    assert SealedUnder(r, key);
  }

  /** Every row the account phase appends is sealed under the key it ran with. */
  lemma AppendedSealedUnder(table: map<int, Account>, counter: int, accounts: seq<BackupAccount>,
                            folderMap: map<string, int>, key: Key, rng: Entropy, start: nat, now: int)
    requires forall k :: k in table ==> k <= counter
    ensures var after := Appended(table, counter, RestoredRows(accounts, folderMap, key, rng, start, now));
            forall k :: k in after && k !in table ==> SealedUnder(after[k], key)
  {
    var rows := RestoredRows(accounts, folderMap, key, rng, start, now);
    var after := Appended(table, counter, rows);
    AppendedKeeps(table, counter, rows);
    forall k | k in after && k !in table
      ensures SealedUnder(after[k], key)
    {
      var j := k - counter - 1;
      AppendedAt(table, counter, rows, j, k);
      RestoredRowsAt(accounts, folderMap, key, rng, start, now, j, start + 5 * j);
      RestoredRowSealed(accounts[j], folderMap, key, rng, start + 5 * j, now, k);
    }
  }

  /** Restoring the snapshot of an export (same password) into a vault gives back,
      for every account whose password is not empty, its six fields; its folder is a
      folder with the same name as its original folder, or none when it had none. */
  lemma RestoredAccountMatchesExport(now: int, folders: seq<Folder>, accounts: seq<AccountModel>,
                                     folderMap: map<string, int>, after: map<int, Folder>,
                                     key: Key, rng: Entropy, start: nat, now': int, j: int)
    requires folderMap.Keys == Names(Snapshot(now, folders, accounts).folders)
    requires forall n :: n in folderMap ==> folderMap[n] in after && after[folderMap[n]].folderName == n
    requires 0 <= j < |accounts| && accounts[j].password != ""
    ensures var d := Snapshot(now, folders, accounts);
            var back := DecryptAccount(RestoredRows(d.accounts, folderMap, key, rng, start, now')[j], key);
            var a := accounts[j];
            && back.serviceName == a.serviceName && back.username == a.username && back.email == a.email
            && back.password == a.password && back.url == a.url && back.notes == a.notes
            && (back.folderId.None? <==> forall i :: 0 <= i < |folders| ==> Some(folders[i].id) != a.folderId)
            && (back.folderId.Some? ==>
                  back.folderId.value in after
                  && exists i :: 0 <= i < |folders| && Some(folders[i].id) == a.folderId
                                 && folders[i].folderName == after[back.folderId.value].folderName)
  {
    var d := Snapshot(now, folders, accounts);
    var b := d.accounts[j];
    var m := RestoredModel(b, folderMap);
    assert RestoredRows(d.accounts, folderMap, key, rng, start, now')[j] == BuildRow(m, key, IvsAt(rng, start + 5 * j), now');
    DecryptBuiltRow(m, key, IvsAt(rng, start + 5 * j), now');
    assert b.folderName == FolderNameOf(folders, accounts[j].folderId);
    if b.folderName.Some? {
      SnapshotNamesListedFolders(now, folders, accounts, j);
      assert m.folderId == Some(folderMap[b.folderName.value]);
    }
  }

  /** Restoring into an empty vault creates exactly the snapshot's folder names, and
      one folder per snapshot entry: a name listed twice gives two folders. */
  lemma RestoreIntoEmptyVault(fs: seq<BackupFolder>, folderMap: map<string, int>, after: map<int, Folder>)
    requires folderMap.Keys == Names(fs)
    requires forall n :: n in folderMap ==> folderMap[n] in after && after[folderMap[n]].folderName == n
    requires forall k :: k in after ==> after[k].folderName in Names(fs)
    requires |after| == Unmatched(fs, {})
    ensures FolderNames(after) == Names(fs)
    ensures |after| == |fs|
  {
    UnmatchedAllNew(fs, {});
    forall n | n in Names(fs) ensures n in FolderNames(after) {
      var k := folderMap[n];
      assert k in after && after[k].folderName == n;
    }
    forall n | n in FolderNames(after) ensures n in Names(fs) {
      var k :| k in after && after[k].folderName == n;
    }
  }

  /** Adding one more snapshot folder adds its name. */
  lemma NamesExtend(fs: seq<BackupFolder>, i: int)
    requires 0 <= i < |fs|
    ensures Names(fs[..i + 1]) == Names(fs[..i]) + {fs[i].name}
  {
    var a := fs[..i + 1];
    var b := fs[..i];
    forall n | n in Names(a) ensures n in Names(b) + {fs[i].name} {
      var j :| 0 <= j < |a| && a[j].name == n;
      if j < i {
        assert b[j].name == n;
      }
    }
    forall n | n in Names(b) ensures n in Names(a) {
      var j :| 0 <= j < |b| && b[j].name == n;
      assert a[j].name == n;
    }
    assert a[i].name == fs[i].name;
  }

  lemma UnmatchedExtend(fs: seq<BackupFolder>, i: int, existing: set<string>)
    requires 0 <= i < |fs|
    ensures Unmatched(fs[..i + 1], existing) == Unmatched(fs[..i], existing) + if fs[i].name in existing then 0 else 1
  {
    assert fs[..i + 1][..i] == fs[..i];
  }

  /** No folder is changed or removed. */
  ghost predicate KeepsFolders(before: map<int, Folder>, after: map<int, Folder>)
  {
    forall k :: k in before ==> k in after && after[k] == before[k]
  }

  /** Every snapshot folder name is mapped, to a folder of that name. */
  ghost predicate MapsEveryName(fs: seq<BackupFolder>, folderMap: map<string, int>, after: map<int, Folder>)
  {
    && folderMap.Keys == Names(fs)
    && forall n :: n in folderMap ==> folderMap[n] in after && after[folderMap[n]].folderName == n
  }

  /** A name that already existed is mapped to the first folder of that name in the
      listing taken before the restore. */
  ghost predicate ReusesExisting(folderMap: map<string, int>, before: map<int, Folder>, listing: seq<Folder>)
  {
    forall n :: n in folderMap && n in FolderNames(before) ==>
      FindByName(listing, n).Some? && folderMap[n] == FindByName(listing, n).value.id
  }

  /** Every new folder carries a snapshot name that did not exist before. */
  ghost predicate OnlyNewNames(fs: seq<BackupFolder>, before: map<int, Folder>, after: map<int, Folder>)
  {
    forall k :: k in after && k !in before ==>
      after[k].folderName in Names(fs) && after[k].folderName !in FolderNames(before)
  }

  /** A name that did not exist before is mapped to the folder of that name with the
      smallest id: AUTOINCREMENT ids grow, so that is the first one the restore
      created, even when the snapshot lists the name again. */
  ghost predicate MapsNewToFirst(folderMap: map<string, int>, before: map<int, Folder>, after: map<int, Folder>)
  {
    forall n, k :: n in folderMap && n !in FolderNames(before) && k in after && after[k].folderName == n ==>
      folderMap[n] <= k
  }

  /** How the folder phase of a restore of `fs` leaves the folders table `after`,
      starting from `before`, whose listing by name was `listing`: the five
      predicates above, and exactly one new folder per snapshot entry whose name
      did not exist before (so nothing is inserted for an existing name). */
  ghost predicate RestoredFolders(fs: seq<BackupFolder>, folderMap: map<string, int>,
                                  before: map<int, Folder>, after: map<int, Folder>, listing: seq<Folder>)
  {
    && KeepsFolders(before, after)
    && MapsEveryName(fs, folderMap, after)
    && ReusesExisting(folderMap, before, listing)
    && OnlyNewNames(fs, before, after)
    && MapsNewToFirst(folderMap, before, after)
    && |after| == |before| + Unmatched(fs, FolderNames(before))
  }

  /** The size of the table after appending: one new row per appended row. */
  lemma {:induction false} AppendedSize(table: map<int, Account>, counter: int, rows: seq<Account>)
    requires forall k :: k in table ==> k <= counter
    ensures |Appended(table, counter, rows)| == |table| + |rows|
    decreases |rows|
  {
    if rows != [] {
      var n := |rows|;
      AppendedSize(table, counter, rows[..n - 1]);
      AppendedKeeps(table, counter, rows[..n - 1]);
      assert counter + n !in Appended(table, counter, rows[..n - 1]);
    }
  }

  /** Appending one more row. */
  lemma AppendedExtend(table: map<int, Account>, counter: int, rows: seq<Account>, i: int)
    requires 0 <= i < |rows|
    ensures Appended(table, counter, rows[..i + 1])
            == Appended(table, counter, rows[..i])[counter + i + 1 := rows[i].(id := counter + i + 1)]
  {
    assert rows[..i + 1][..i] == rows[..i];
  }

  /** Inserting row `i` as the next new row extends the table holding the first
      `i` rows to the table holding the first `i + 1`. */
  lemma AppendedStep(before: map<int, Account>, counter: int, rows: seq<Account>, i: int,
                     table: map<int, Account>, row: Account, id: int, next: map<int, Account>)
    requires 0 <= i < |rows| && row == rows[i] && id == counter + i + 1
    requires table == Appended(before, counter, rows[..i])
    requires next == table[id := row.(id := id)]
    ensures next == Appended(before, counter, rows[..i + 1])
  {
    AppendedExtend(before, counter, rows, i);
  }

  /** The account loop after `i` saves: with no key nothing has been saved (and the
      first save throws); with a key the first `i` restored rows have been appended
      and have drawn five IVs each. */
  ghost predicate Saved(accounts: seq<BackupAccount>, folderMap: map<string, int>, key: Option<Key>, rng: Entropy,
                        start: nat, now: int, before: map<int, Account>, counter: int, i: int,
                        table: map<int, Account>, seqValue: int, draws: int)
  {
    && 0 <= i <= |accounts|
    && (key.None? ==> i == 0 && table == before && seqValue == counter && draws == start)
    && (key.Some? ==>
          && table == Appended(before, counter, RestoredRows(accounts, folderMap, key.value, rng, start, now)[..i])
          && seqValue == counter + i && draws == start + 5 * i)
  }

  /** One save with a key moves the loop from `i` to `i + 1`. */
  lemma SavedStep(accounts: seq<BackupAccount>, folderMap: map<string, int>, key: Key, rng: Entropy,
                  start: nat, now: int, before: map<int, Account>, counter: int, i: int,
                  table: map<int, Account>, seqValue: int, draws: int, next: map<int, Account>)
    requires Saved(accounts, folderMap, Some(key), rng, start, now, before, counter, i, table, seqValue, draws)
    requires i < |accounts|
    requires next == table[seqValue + 1 := RestoredRow(accounts[i], folderMap, key, rng, draws, now).(id := seqValue + 1)]
    ensures Saved(accounts, folderMap, Some(key), rng, start, now, before, counter, i + 1, next, seqValue + 1, draws + 5)
  {
    var rows := RestoredRows(accounts, folderMap, key, rng, start, now);
    RestoredRowsAt(accounts, folderMap, key, rng, start, now, i, draws);
    AppendedStep(before, counter, rows, i, table, RestoredRow(accounts[i], folderMap, key, rng, draws, now),
                 seqValue + 1, next);
  }

  /** A loop that stops on a throw has written nothing. */
  lemma SavedNone(accounts: seq<BackupAccount>, folderMap: map<string, int>, key: Option<Key>, rng: Entropy,
                  start: nat, now: int, before: map<int, Account>, counter: int, i: int,
                  table: map<int, Account>, seqValue: int, draws: int)
    requires Saved(accounts, folderMap, key, rng, start, now, before, counter, i, table, seqValue, draws)
    requires key.None? && accounts != []
    ensures RestoredAccounts(accounts, folderMap, Fail(NoSession), before, counter, table, key, rng, start, now)
    ensures draws == start
  {
  }

  /** A loop that saved every account has appended all the restored rows. */
  lemma SavedAll(accounts: seq<BackupAccount>, folderMap: map<string, int>, key: Option<Key>, rng: Entropy,
                 start: nat, now: int, before: map<int, Account>, counter: int,
                 table: map<int, Account>, seqValue: int, draws: int)
    requires Saved(accounts, folderMap, key, rng, start, now, before, counter, |accounts|, table, seqValue, draws)
    ensures RestoredAccounts(accounts, folderMap, Pass, before, counter, table, key, rng, start, now)
    ensures draws == start + 5 * |accounts|
  {
    if key.Some? {
      var rows := RestoredRows(accounts, folderMap, key.value, rng, start, now);
      assert rows[..|accounts|] == rows;
    }
  }

  /** How the account phase of a restore leaves the accounts table `after`, given
      the table `before`, its AUTOINCREMENT counter and the key the session yields:
      nothing to restore, nothing written; no key, a throw before any write;
      otherwise every backup account appended as a new row, in order. */
  ghost predicate RestoredAccounts(accounts: seq<BackupAccount>, folderMap: map<string, int>, r: Outcome,
                                   before: map<int, Account>, counter: int, after: map<int, Account>,
                                   key: Option<Key>, rng: Entropy, start: nat, now: int)
  {
    && (accounts == [] ==> r == Pass && after == before)
    && (accounts != [] && key.None? ==> r == Fail(NoSession) && after == before)
    && (accounts != [] && key.Some? ==>
          r == Pass && after == Appended(before, counter, RestoredRows(accounts, folderMap, key.value, rng, start, now)))
  }

  /** A restore of `d` ran to the outcome `ok`: some name-to-folder mapping made the
      folders table `RestoredFolders` and the accounts table `RestoredAccounts`. */
  ghost predicate RestoredBackup(d: BackupData, ok: bool,
                                 foldersBefore: map<int, Folder>, foldersAfter: map<int, Folder>, listing: seq<Folder>,
                                 accountsBefore: map<int, Account>, counter: int, accountsAfter: map<int, Account>,
                                 key: Option<Key>, rng: Entropy, start: nat, now: int)
  {
    exists folderMap: map<string, int>, r: Outcome ::
      && ok == r.Pass?
      && RestoredFolders(d.folders, folderMap, foldersBefore, foldersAfter, listing)
      && RestoredAccounts(d.accounts, folderMap, r, accountsBefore, counter, accountsAfter, key, rng, start, now)
  }

  /** The account phase merges: it never changes or removes an existing account, it
      completes exactly when there is nothing to restore or the session has a key,
      and then it adds one account per backup account; when it throws, it has
      written nothing. */
  lemma RestoredAccountsMerge(accounts: seq<BackupAccount>, folderMap: map<string, int>, r: Outcome,
                              before: map<int, Account>, counter: int, after: map<int, Account>,
                              key: Option<Key>, rng: Entropy, start: nat, now: int)
    requires RestoredAccounts(accounts, folderMap, r, before, counter, after, key, rng, start, now)
    requires forall k :: k in before ==> k <= counter
    ensures r.Pass? <==> accounts == [] || key.Some?
    ensures forall k :: k in before ==> k in after && after[k] == before[k]
    ensures r.Pass? ==> |after| == |before| + |accounts|
    ensures r.Fail? ==> after == before
    ensures key.Some? ==> forall k :: k in after && k !in before ==> SealedUnder(after[k], key.value)
  {
    if accounts != [] && key.Some? {
      var rows := RestoredRows(accounts, folderMap, key.value, rng, start, now);
      AppendedKeeps(before, counter, rows);
      AppendedSize(before, counter, rows);
      AppendedSealedUnder(before, counter, accounts, folderMap, key.value, rng, start, now);
    }
  }

  /** The listing taken before the folder loop holds exactly the existing folders, so
      a name is found in it iff some existing folder has that name. */
  lemma FoundIffExisting(listing: seq<Folder>, before: map<int, Folder>, name: string)
    requires forall k :: k in before ==> before[k] in listing
    requires forall f :: f in listing ==> f.id in before && before[f.id] == f
    ensures FindByName(listing, name).Some? <==> name in FolderNames(before)
  {
    if name in FolderNames(before) {
      var k :| k in before && before[k].folderName == name;
      assert before[k] in listing;
    }
    if FindByName(listing, name).Some? {
      var f := FindByName(listing, name).value;
      assert before[f.id].folderName == name;
    }
  }

  /** One step of the folder loop for a name that already exists: map it to the
      folder found in the listing, insert nothing. */
  lemma FoldersStepReuse(fs: seq<BackupFolder>, i: int, folderMap: map<string, int>,
                         before: map<int, Folder>, after: map<int, Folder>, listing: seq<Folder>)
    requires 0 <= i < |fs|
    requires RestoredFolders(fs[..i], folderMap, before, after, listing)
    requires forall f :: f in listing ==> f.id in before && before[f.id] == f
    requires fs[i].name in FolderNames(before) && FindByName(listing, fs[i].name).Some?
    ensures RestoredFolders(fs[..i + 1], folderMap[fs[i].name := FindByName(listing, fs[i].name).value.id],
                            before, after, listing)
  {
    var f := FindByName(listing, fs[i].name).value;
    assert f.id in before && before[f.id] == f;
    MapsStep(fs, i, folderMap, after, f.id);
    ReusesStep(folderMap, before, listing, fs[i].name, f.id);
    OnlyNewNamesStep(fs, i, before, after);
    UnmatchedExtend(fs, i, FolderNames(before));
    FirstStepReuse(folderMap, before, after, fs[i].name, f.id);
  }

  /** One step of the folder loop for a new name: one folder `newId` is inserted with
      that name, and the name is mapped to a folder of that name. */
  lemma FoldersStepInsert(fs: seq<BackupFolder>, i: int, folderMap: map<string, int>,
                          before: map<int, Folder>, after: map<int, Folder>, listing: seq<Folder>,
                          newId: int, createdId: int)
    requires 0 <= i < |fs|
    requires RestoredFolders(fs[..i], folderMap, before, after, listing)
    requires fs[i].name !in FolderNames(before)
    requires newId !in after
    requires createdId in after[newId := Folder(newId, fs[i].name)]
    requires after[newId := Folder(newId, fs[i].name)][createdId].folderName == fs[i].name
    requires createdId <= newId
    requires forall k :: k in after && after[k].folderName == fs[i].name ==> createdId <= k
    ensures RestoredFolders(fs[..i + 1], folderMap[fs[i].name := createdId], before,
                            after[newId := Folder(newId, fs[i].name)], listing)
  {
    var after' := after[newId := Folder(newId, fs[i].name)];
    KeepsStep(before, after, newId, Folder(newId, fs[i].name));
    MapsGrow(fs[..i], folderMap, after, newId, Folder(newId, fs[i].name));
    MapsStep(fs, i, folderMap, after', createdId);
    ReusesStep(folderMap, before, listing, fs[i].name, createdId);
    OnlyNewNamesStep(fs, i, before, after);
    OnlyNewNamesInsert(fs[..i + 1], before, after, newId, fs[i].name);
    UnmatchedExtend(fs, i, FolderNames(before));
    FirstStepInsert(folderMap, before, after, newId, fs[i].name, createdId);
    assert |after'| == |after| + 1;
  }

  /** Inserting a folder named `name` and mapping `name` to the smallest id of that
      name keeps every new name mapped to its first folder. */
  lemma FirstStepInsert(folderMap: map<string, int>, before: map<int, Folder>, after: map<int, Folder>,
                        newId: int, name: string, createdId: int)
    requires MapsNewToFirst(folderMap, before, after)
    requires createdId <= newId
    requires forall k :: k in after && after[k].folderName == name ==> createdId <= k
    ensures MapsNewToFirst(folderMap[name := createdId], before, after[newId := Folder(newId, name)])
  {
  }

  /** Mapping a name that already existed leaves the new names' mapping alone. */
  lemma FirstStepReuse(folderMap: map<string, int>, before: map<int, Folder>, after: map<int, Folder>,
                       name: string, id: int)
    requires MapsNewToFirst(folderMap, before, after)
    requires name in FolderNames(before)
    ensures MapsNewToFirst(folderMap[name := id], before, after)
  {
  }

  lemma KeepsStep(before: map<int, Folder>, after: map<int, Folder>, newId: int, f: Folder)
    requires KeepsFolders(before, after) && newId !in after
    ensures KeepsFolders(before, after[newId := f])
  {
  }

  /** Inserting a folder under a fresh id keeps every mapped name valid. */
  lemma MapsGrow(fs: seq<BackupFolder>, folderMap: map<string, int>, after: map<int, Folder>, newId: int, f: Folder)
    requires MapsEveryName(fs, folderMap, after) && newId !in after
    ensures forall n :: n in folderMap ==>
              folderMap[n] in after[newId := f] && after[newId := f][folderMap[n]].folderName == n
  {
    forall n | n in folderMap
      ensures folderMap[n] in after[newId := f] && after[newId := f][folderMap[n]].folderName == n
    {
      assert folderMap[n] in after;
    }
  }

  lemma MapsStep(fs: seq<BackupFolder>, i: int, folderMap: map<string, int>, after: map<int, Folder>, id: int)
    requires 0 <= i < |fs|
    requires folderMap.Keys == Names(fs[..i])
    requires forall n :: n in folderMap ==> folderMap[n] in after && after[folderMap[n]].folderName == n
    requires id in after && after[id].folderName == fs[i].name
    ensures MapsEveryName(fs[..i + 1], folderMap[fs[i].name := id], after)
  {
    NamesExtend(fs, i);
  }

  lemma ReusesStep(folderMap: map<string, int>, before: map<int, Folder>, listing: seq<Folder>, name: string, id: int)
    requires ReusesExisting(folderMap, before, listing)
    requires name in FolderNames(before) ==> FindByName(listing, name).Some? && id == FindByName(listing, name).value.id
    ensures ReusesExisting(folderMap[name := id], before, listing)
  {
  }

  lemma OnlyNewNamesStep(fs: seq<BackupFolder>, i: int, before: map<int, Folder>, after: map<int, Folder>)
    requires 0 <= i < |fs|
    requires OnlyNewNames(fs[..i], before, after)
    ensures OnlyNewNames(fs[..i + 1], before, after)
  {
    NamesExtend(fs, i);
  }

  lemma OnlyNewNamesInsert(fs: seq<BackupFolder>, before: map<int, Folder>, after: map<int, Folder>, newId: int, name: string)
    requires OnlyNewNames(fs, before, after)
    requires name in Names(fs) && name !in FolderNames(before)
    requires newId !in after && KeepsFolders(before, after)
    ensures OnlyNewNames(fs, before, after[newId := Folder(newId, name)])
  {
    var after' := after[newId := Folder(newId, name)];
    forall k | k in after' && k !in before
      ensures after'[k].folderName in Names(fs) && after'[k].folderName !in FolderNames(before)
    {
      if k != newId {
        assert k in after;
      }
    }
  }

  /** `BackupManager` over the repository (whose randomness source also draws the
      backup's salt and IV). */
  class BackupManager {
    const repo: PasswordRepository

    constructor(repo: PasswordRepository)
      ensures this.repo == repo
    {
      this.repo := repo;
    }

    /** `exportBackup`: lists folders and (decrypting, so needing the session) every
        account, builds the snapshot, draws a salt then an IV, and writes the
        sealed container. Without a session key and with accounts to list it throws
        before drawing anything. */
    method ExportBackup(password: string, now: int) returns (r: Result<FileText>)
      requires repo.db.Valid()
      modifies repo.session, repo.rng
      ensures var listed := ListResult(old(repo.Listing(None)), old(repo.session.State()), now);
              && (listed.Failure? ==> r == Failure(listed.error) && repo.rng.draws == old(repo.rng.draws))
              && (listed.Ok? ==>
                    && repo.rng.draws == old(repo.rng.draws) + 2
                    && r == Ok(WriteFile(SealBackup(Snapshot(now, old(repo.AllFolders()), listed.value), password,
                                                    repo.rng.salts(old(repo.rng.draws)),
                                                    repo.rng.gcmIvs(old(repo.rng.draws) + 1)))))
      ensures repo.session.State() == if old(repo.Listing(None)) == [] then old(repo.session.State())
                                      else Read(old(repo.session.State()), now).1
    {
      var folders := repo.AllFolders();
      var accounts := repo.GetAccounts(None, now);
      if accounts.Failure? {
        return Failure(accounts.error);
      }
      var backupData := Snapshot(now, folders, accounts.value);
      var fileContent := Seal(backupData, password);
      r := Ok(fileContent);
    }

    /** The second half of `exportBackup`: draw a salt, then an IV, derive the key
        from the password and that salt, encrypt the snapshot's JSON and serialise
        the container. */
    method Seal(backupData: BackupData, password: string) returns (fileContent: FileText)
      modifies repo.rng
      ensures repo.rng.draws == old(repo.rng.draws) + 2
      ensures fileContent == WriteFile(SealBackup(backupData, password, repo.rng.salts(old(repo.rng.draws)),
                                                  repo.rng.gcmIvs(old(repo.rng.draws) + 1)))
    {
      var salt := repo.rng.GenerateSalt();
      var iv := repo.rng.GenerateIv();
      var paxxFile := SealBackup(backupData, password, salt, iv);
      fileContent := WriteFile(paxxFile);
    }

    /** `importBackup`: `false`, with nothing written, when the file cannot be opened
        with this password; otherwise the restore, and `true` iff it completes. A
        restore that throws part-way leaves what it already wrote. */
    method ImportBackup(content: Option<FileText>, password: string, now: int) returns (ok: bool)
      requires repo.db.Valid()
      modifies repo.db, repo.session, repo.rng
      ensures repo.db.Valid()
      ensures OpenBackup(content, password).None? ==>
                && !ok && repo.db.accounts == old(repo.db.accounts) && repo.db.folders == old(repo.db.folders)
                && repo.session.State() == old(repo.session.State()) && repo.rng.draws == old(repo.rng.draws)
      ensures OpenBackup(content, password).Some? ==>
                var d := OpenBackup(content, password).value;
                && (ok <==> d.accounts == [] || Read(old(repo.session.State()), now).0.Some?)
                && (forall k :: k in old(repo.db.accounts) ==>
                      k in repo.db.accounts && repo.db.accounts[k] == old(repo.db.accounts)[k])
                && (forall k :: k in old(repo.db.folders) ==>
                      k in repo.db.folders && repo.db.folders[k] == old(repo.db.folders)[k])
                && (ok ==> |repo.db.accounts| == |old(repo.db.accounts)| + |d.accounts|)
                && (!ok ==> repo.db.accounts == old(repo.db.accounts))
      ensures Read(old(repo.session.State()), now).0.Some? ==>
                forall k :: k in repo.db.accounts && k !in old(repo.db.accounts) ==>
                  SealedUnder(repo.db.accounts[k], Read(old(repo.session.State()), now).0.value)
      ensures repo.db.users == old(repo.db.users)
      ensures OpenBackup(content, password).Some? ==>
                var d := OpenBackup(content, password).value;
                && repo.session.State() == (if d.accounts == [] then old(repo.session.State())
                                            else Read(old(repo.session.State()), now).1)
                && repo.rng.draws == old(repo.rng.draws) + if ok then 5 * |d.accounts| else 0
      ensures OpenBackup(content, password).Some? ==>
                RestoredBackup(OpenBackup(content, password).value, ok,
                               old(repo.db.folders), repo.db.folders, old(repo.db.AllFolders()),
                               old(repo.db.accounts), old(repo.db.accountSeq), repo.db.accounts,
                               Read(old(repo.session.State()), now).0, repo.rng, old(repo.rng.draws), now)
    {
      var data := OpenBackup(content, password);
      if data.None? {
        return false;
      }
      ghost var s0 := repo.session.State();
      var r, folderMap := RestoreDataToRepository(data.value, now);
      RestoredAccountsMerge(data.value.accounts, folderMap, r, old(repo.db.accounts), old(repo.db.accountSeq),
                            repo.db.accounts, Read(s0, now).0, repo.rng, old(repo.rng.draws), now);
      ok := r.Pass?;
      assert RestoredBackup(data.value, ok, old(repo.db.folders), repo.db.folders, old(repo.db.AllFolders()),
                            old(repo.db.accounts), old(repo.db.accountSeq), repo.db.accounts,
                            Read(s0, now).0, repo.rng, old(repo.rng.draws), now) by {
        assert ok == r.Pass?;
      }
    }

    /** `restoreDataToRepository`: folders first, then accounts. The local `folderMap`
        is returned so that callers can state where the accounts went. */
    method RestoreDataToRepository(data: BackupData, now: int) returns (r: Outcome, folderMap: map<string, int>)
      requires repo.db.Valid()
      modifies repo.db, repo.session, repo.rng
      ensures repo.db.Valid()
      ensures repo.db.users == old(repo.db.users)
      ensures RestoredFolders(data.folders, folderMap, old(repo.db.folders), repo.db.folders, old(repo.db.AllFolders()))
      ensures RestoredAccounts(data.accounts, folderMap, r, old(repo.db.accounts), old(repo.db.accountSeq),
                               repo.db.accounts, Read(old(repo.session.State()), now).0, repo.rng, old(repo.rng.draws), now)
      ensures repo.session.State() == if data.accounts == [] then old(repo.session.State())
                                      else Read(old(repo.session.State()), now).1
      ensures repo.rng.draws == old(repo.rng.draws) + if r.Pass? then 5 * |data.accounts| else 0
    {
      folderMap := RestoreFolders(data.folders);
      r := RestoreAccounts(data.accounts, folderMap, now);
    }

    /** The second `forEach` of the restore: every backup account is saved as a new
        account in its mapped folder. The first save needs the session key; without
        it the restore throws before writing any account. */
    method RestoreAccounts(accounts: seq<BackupAccount>, folderMap: map<string, int>, now: int) returns (r: Outcome)
      requires repo.db.Valid()
      requires forall n :: n in folderMap ==> folderMap[n] in repo.db.folders
      modifies repo.db, repo.session, repo.rng
      ensures repo.db.Valid()
      ensures repo.db.folders == old(repo.db.folders) && repo.db.users == old(repo.db.users)
      ensures RestoredAccounts(accounts, folderMap, r, old(repo.db.accounts), old(repo.db.accountSeq),
                               repo.db.accounts, Read(old(repo.session.State()), now).0, repo.rng, old(repo.rng.draws), now)
      ensures repo.session.State() == if accounts == [] then old(repo.session.State())
                                      else Read(old(repo.session.State()), now).1
      ensures repo.rng.draws == old(repo.rng.draws) + if r.Pass? then 5 * |accounts| else 0
    {
      ghost var s0 := repo.session.State();
      ghost var key0 := Read(s0, now).0;
      ghost var a0 := repo.db.accounts;
      ghost var c0 := repo.db.accountSeq;
      ghost var d0 := repo.rng.draws;
      ghost var f0 := repo.db.folders;
      if key0.Some? {
        ReadTwiceSameInstant(s0, now);
      }
      var i := 0;
      while i < |accounts|
        invariant 0 <= i <= |accounts|
        invariant repo.db.Valid()
        invariant repo.db.folders == f0 && repo.db.users == old(repo.db.users)
        invariant repo.session.State() == if i == 0 then s0 else Read(s0, now).1
        invariant Read(repo.session.State(), now).0 == key0
        invariant Saved(accounts, folderMap, key0, repo.rng, d0, now, a0, c0, i,
                        repo.db.accounts, repo.db.accountSeq, repo.rng.draws)
      {
        r := RestoreNext(accounts, i, folderMap, now, key0, d0, a0, c0);
        if r.Fail? {
          SavedNone(accounts, folderMap, key0, repo.rng, d0, now, a0, c0, i, repo.db.accounts, repo.db.accountSeq, repo.rng.draws);
          return;
        }
        i := i + 1;
      }
      r := Pass;
      SavedAll(accounts, folderMap, key0, repo.rng, d0, now, a0, c0, repo.db.accounts, repo.db.accountSeq, repo.rng.draws);
    }

    /** The `i`-th save of the account loop: without a key it throws and writes
        nothing; with one it appends row `i` of the restored rows. */
    method RestoreNext(accounts: seq<BackupAccount>, i: int, folderMap: map<string, int>, now: int,
                       ghost key: Option<Key>, ghost start: nat, ghost before: map<int, Account>, ghost counter: int)
      returns (r: Outcome)
      requires 0 <= i < |accounts|
      requires repo.db.Valid()
      requires forall n :: n in folderMap ==> folderMap[n] in repo.db.folders
      requires key == Read(repo.session.State(), now).0
      requires Saved(accounts, folderMap, key, repo.rng, start, now, before, counter, i,
                     repo.db.accounts, repo.db.accountSeq, repo.rng.draws)
      modifies repo.db, repo.session, repo.rng
      ensures repo.db.Valid()
      ensures repo.db.folders == old(repo.db.folders) && repo.db.users == old(repo.db.users)
      ensures repo.session.State() == Read(old(repo.session.State()), now).1
      ensures r.Fail? <==> key.None?
      ensures r.Fail? ==> r == Fail(NoSession)
      ensures Saved(accounts, folderMap, key, repo.rng, start, now, before, counter, if r.Pass? then i + 1 else i,
                    repo.db.accounts, repo.db.accountSeq, repo.rng.draws)
    {
      ghost var table, seqValue, draws := repo.db.accounts, repo.db.accountSeq, repo.rng.draws;
      r := SaveRestored(accounts[i], folderMap, now, key);
      if key.Some? {
        SavedStep(accounts, folderMap, key.value, repo.rng, start, now, before, counter, i, table, seqValue, draws,
                  repo.db.accounts);
      }
    }

    /** One iteration of the account loop: `saveAccount` of the restored model, which
        with a key always inserts, since every mapped folder exists. */
    method SaveRestored(b: BackupAccount, folderMap: map<string, int>, now: int, ghost key: Option<Key>)
      returns (r: Outcome)
      requires repo.db.Valid()
      requires forall n :: n in folderMap ==> folderMap[n] in repo.db.folders
      requires key == Read(repo.session.State(), now).0
      modifies repo.db, repo.session, repo.rng
      ensures repo.db.Valid()
      ensures repo.db.folders == old(repo.db.folders) && repo.db.users == old(repo.db.users)
      ensures repo.session.State() == Read(old(repo.session.State()), now).1
      ensures key.None? ==>
                && r == Fail(NoSession) && repo.db.accounts == old(repo.db.accounts)
                && repo.db.accountSeq == old(repo.db.accountSeq) && repo.rng.draws == old(repo.rng.draws)
      ensures key.Some? ==>
                && r == Pass && repo.rng.draws == old(repo.rng.draws) + 5
                && repo.db.accountSeq == old(repo.db.accountSeq) + 1
                && repo.db.accounts == old(repo.db.accounts)[old(repo.db.accountSeq) + 1 :=
                     RestoredRow(b, folderMap, key.value, repo.rng, old(repo.rng.draws), now).(id := old(repo.db.accountSeq) + 1)]
    {
      var newAccount := RestoredModel(b, folderMap);
      r := repo.SaveAccount(newAccount, now);
    }

    /** The first `forEach` of the restore: each snapshot folder is mapped to the
        first folder of that name in the listing taken before the loop, or else
        inserted and then looked up by name in a fresh listing. */
    method RestoreFolders(fs: seq<BackupFolder>) returns (folderMap: map<string, int>)
      requires repo.db.Valid()
      modifies repo.db
      ensures repo.db.Valid()
      ensures repo.db.accounts == old(repo.db.accounts) && repo.db.accountSeq == old(repo.db.accountSeq)
      ensures repo.db.users == old(repo.db.users)
      ensures RestoredFolders(fs, folderMap, old(repo.db.folders), repo.db.folders, old(repo.db.AllFolders()))
    {
      var currentFolders := repo.AllFolders();
      ghost var before := repo.db.folders;
      folderMap := map[];
      var i := 0;
      while i < |fs|
        invariant 0 <= i <= |fs|
        invariant repo.db.Valid()
        invariant repo.db.accounts == old(repo.db.accounts) && repo.db.accountSeq == old(repo.db.accountSeq)
        invariant repo.db.users == old(repo.db.users)
        invariant RestoredFolders(fs[..i], folderMap, before, repo.db.folders, currentFolders)
        invariant forall k :: k in before ==> before[k] in currentFolders
        invariant forall f :: f in currentFolders ==> f.id in before && before[f.id] == f
      {
        folderMap := RestoreFolder(fs, i, folderMap, currentFolders, before);
        i := i + 1;
      }
      assert fs[..i] == fs;
    }

    /** One iteration of the folder loop: reuse the folder of that name found in the
        listing taken before the loop, or insert one. */
    method RestoreFolder(fs: seq<BackupFolder>, i: int, folderMap: map<string, int>, currentFolders: seq<Folder>,
                         ghost before: map<int, Folder>)
      returns (folderMap': map<string, int>)
      requires 0 <= i < |fs|
      requires repo.db.Valid()
      requires RestoredFolders(fs[..i], folderMap, before, repo.db.folders, currentFolders)
      requires forall k :: k in before ==> before[k] in currentFolders
      requires forall f :: f in currentFolders ==> f.id in before && before[f.id] == f
      modifies repo.db
      ensures repo.db.Valid()
      ensures repo.db.accounts == old(repo.db.accounts) && repo.db.accountSeq == old(repo.db.accountSeq)
      ensures repo.db.users == old(repo.db.users)
      ensures RestoredFolders(fs[..i + 1], folderMap', before, repo.db.folders, currentFolders)
    {
      var bFolder := fs[i];
      var existing := FindByName(currentFolders, bFolder.name);
      FoundIffExisting(currentFolders, before, bFolder.name);
      if existing.Some? {
        FoldersStepReuse(fs, i, folderMap, before, repo.db.folders, currentFolders);
        folderMap' := folderMap[bFolder.name := existing.value.id];
      } else {
        ghost var mid := repo.db.folders;
        var createdId, newId := InsertAndLookUp(bFolder.name);
        FoldersStepInsert(fs, i, folderMap, before, mid, currentFolders, newId, createdId.value);
        folderMap' := folderMap[bFolder.name := createdId.value];
      }
    }

    /** The `else` branch of the folder loop: `insertFolder(Folder(folderName = name))`,
        then the id of the first folder of that name in a fresh listing, which is
        never null since a folder of that name was just inserted. `newId` is the id
        the insert assigned, which the source ignores. */
    method InsertAndLookUp(name: string) returns (createdId: Option<int>, ghost newId: int)
      requires repo.db.Valid()
      modifies repo.db
      ensures repo.db.Valid()
      ensures repo.db.accounts == old(repo.db.accounts) && repo.db.accountSeq == old(repo.db.accountSeq)
      ensures repo.db.users == old(repo.db.users)
      ensures newId !in old(repo.db.folders)
      ensures repo.db.folders == old(repo.db.folders)[newId := Folder(newId, name)]
      ensures createdId.Some? && createdId.value in repo.db.folders
      ensures repo.db.folders[createdId.value].folderName == name
      ensures forall k :: k in repo.db.folders && repo.db.folders[k].folderName == name ==> createdId.value <= k
      ensures createdId.value <= newId
      ensures forall k :: k in old(repo.db.folders) && old(repo.db.folders)[k].folderName == name ==>
                createdId.value <= k
    {
      ghost var mid := repo.db.folders;
      newId := repo.InsertFolder(Folder(Unsaved, name));
      var updatedFolders := repo.AllFolders();
      assert repo.db.folders[newId] in updatedFolders;
      var created := FindByName(updatedFolders, name);
      createdId := if created.Some? then Some(created.value.id) else None;
      FirstNamedIsSmallest(updatedFolders, name, created.value, repo.db.folders);
      SmallestBeforeInsert(mid, repo.db.folders, newId, name, createdId.value);
    }
  }
}

=== FILE: backup_models.dfy ===
/**
 * The backup file format: an encrypted JSON snapshot of the vault inside a small
 * JSON container. JSON text (RFC 8259) is modelled as a term recording the value
 * it encodes, or as text that does not parse; Gson's encoder and decoder are the
 * two functions over it, and they round-trip by construction.
 */
module BackupModels {
  import opened Wrappers
  import opened Crypto

  /** JSON text: the encoding of a value, or text that does not parse as one. */
  datatype JsonText<T> = Json(value: T) | Unparsable(raw: string)

  /** `gson.toJson`. */
  function ToJson<T>(v: T): JsonText<T>
  {
    Json(v)
  }

  /** `gson.fromJson`; `None` is a thrown `JsonSyntaxException` or a null result. */
  function FromJson<T>(t: JsonText<T>): Option<T>
  {
    match t
    case Json(v) => Some(v)
    case Unparsable(_) => None
  }

  lemma JsonRoundTrip<T>(v: T)
    ensures FromJson(ToJson(v)) == Some(v)
  {
  }

  /** A folder of the snapshot. */
  datatype BackupFolder = BackupFolder(id: int, name: string)

  /** An account of the snapshot, decrypted. It names its folder by NAME, not id;
      only that name may be null. */
  datatype BackupAccount = BackupAccount(
    serviceName: string,
    username: string,
    email: string,
    password: string,
    url: string,
    notes: string,
    folderName: Option<string>)

  /** The snapshot that is serialised and encrypted. */
  datatype BackupData = BackupData(timestamp: int, folders: seq<BackupFolder>, accounts: seq<BackupAccount>)

  /** The `version` a new container gets. */
  const DefaultVersion := 1

  /** `PaxxBackupFile`: version, salt (base64), IV (base64) and the encrypted JSON of
      the snapshot (base64). */
  datatype PaxxBackupFile = PaxxBackupFile(
    version: int,
    saltBase64: Base64,
    ivBase64: Base64,
    encryptedData: Sealed<JsonText<BackupData>>)

  /** `PaxxBackupFile(saltBase64 = …, ivBase64 = …, encryptedData = …)`: the version
      takes its default. */
  function NewBackupFile(salt: Base64, iv: Base64, data: Sealed<JsonText<BackupData>>): (f: PaxxBackupFile)
    ensures f.version == DefaultVersion
    ensures f.saltBase64 == salt && f.ivBase64 == iv && f.encryptedData == data
  {
    PaxxBackupFile(DefaultVersion, salt, iv, data)
  }

  /** A member value of the container object: a number, or a string that is base64
      of some bytes or of a ciphertext. */
  datatype JsonValue =
    | Number(n: int)
    | BytesString(b: Base64)
    | CiphertextString(c: Sealed<JsonText<BackupData>>)

  /** The `@SerializedName`s of the container's fields. */
  const VersionName := "v"
  const SaltName := "s"
  const IvName := "iv"
  const DataName := "d"

  /** The members Gson writes for a container. */
  function Members(f: PaxxBackupFile): (m: map<string, JsonValue>)
    ensures m.Keys == {"v", "s", "iv", "d"}
    ensures m["v"] == Number(f.version) && m["d"] == CiphertextString(f.encryptedData)
    ensures m["s"] == BytesString(f.saltBase64) && m["iv"] == BytesString(f.ivBase64)
  {
    map[VersionName := Number(f.version), SaltName := BytesString(f.saltBase64),
        IvName := BytesString(f.ivBase64), DataName := CiphertextString(f.encryptedData)]
  }

  /** The container Gson reads from an object's members. A missing or ill-typed `s`,
      `iv` or `d` is `None`: Gson would leave the field null and the first use of it
      throws. A missing `v` reads as 0, since Gson allocates the object without
      running its constructor and so without its default. */
  function FromMembers(m: map<string, JsonValue>): (r: Option<PaxxBackupFile>)
    ensures r.Some? <==> SaltName in m && m[SaltName].BytesString? && IvName in m && m[IvName].BytesString?
                         && DataName in m && m[DataName].CiphertextString?
    ensures r.Some? ==> r.value.saltBase64 == m[SaltName].b && r.value.ivBase64 == m[IvName].b
                        && r.value.encryptedData == m[DataName].c
  {
    if SaltName in m && m[SaltName].BytesString? && IvName in m && m[IvName].BytesString?
       && DataName in m && m[DataName].CiphertextString?
    then
      var version := if VersionName in m && m[VersionName].Number? then m[VersionName].n else 0;
      Some(PaxxBackupFile(version, m[SaltName].b, m[IvName].b, m[DataName].c))
    else None
  }

  /** The container serialises without loss under its four names. */
  lemma MembersRoundTrip(f: PaxxBackupFile)
    ensures FromMembers(Members(f)) == Some(f)
  {
  }

  /** Two containers with the same members are the same container. */
  lemma MembersInjective(f: PaxxBackupFile, g: PaxxBackupFile)
    requires Members(f) == Members(g)
    ensures f == g
  {
    MembersRoundTrip(f);
    MembersRoundTrip(g);
  }

  /** The content of a backup file: the JSON text of the container's members. */
  type FileText = JsonText<map<string, JsonValue>>

  /** `gson.fromJson(jsonContent, PaxxBackupFile::class.java)`. */
  function ParseFile(t: FileText): (r: Option<PaxxBackupFile>)
    ensures r.Some? <==> t.Json? && SaltName in t.value && t.value[SaltName].BytesString?
                         && IvName in t.value && t.value[IvName].BytesString?
                         && DataName in t.value && t.value[DataName].CiphertextString?
    ensures r.Some? ==> r.value.saltBase64 == t.value[SaltName].b && r.value.ivBase64 == t.value[IvName].b
                        && r.value.encryptedData == t.value[DataName].c
    ensures r.Some? && VersionName !in t.value ==> r.value.version == 0
  {
    match FromJson(t)
    case None => None
    case Some(m) => FromMembers(m)
  }

  /** `gson.toJson(paxxFile)`. */
  function WriteFile(f: PaxxBackupFile): (t: FileText)
    ensures ParseFile(t) == Some(f)
  {
    MembersRoundTrip(f);
    ToJson(Members(f))
  }
}

=== FILE: collections.dfy ===
/**
 * The list operations the DAOs' queries and the view models' Kotlin collection
 * calls rely on: rows in primary-key order, `ORDER BY <text column> ASC`,
 * `filter` and `find`.
 */
module Collections {
  import opened Wrappers
  import opened Text

  predicate Increasing(s: seq<int>)
  {
    forall i, j :: 0 <= i < j < |s| ==> s[i] < s[j]
  }

  lemma {:induction false} MinimumExists(s: set<int>)
    requires s != {}
    ensures exists m :: m in s && forall y :: y in s ==> m <= y
  {
    if forall y :: y !in s {
      assert false;
    }
    var x :| x in s;
    var rest := s - {x};
    if forall y :: y in rest ==> x <= y {
      forall y | y in s ensures x <= y {
        if y != x { assert y in rest; }
      }
    } else {
      var z :| z in rest && z < x;
      MinimumExists(rest);
      var m :| m in rest && forall y :: y in rest ==> m <= y;
      forall y | y in s ensures m <= y {
        if y != x { assert y in rest; } else { assert m <= z; }
      }
      assert m in s;
    }
  }

  /** The smallest key of a non-empty table. */
  function Minimum(s: set<int>): (m: int)
    requires s != {}
    ensures m in s && forall y :: y in s ==> m <= y
  {
    MinimumExists(s);
    var m :| m in s && forall y :: y in s ==> m <= y;
    m
  }

  /** Putting the least key of `s` in front of the rest of `s`, in order, gives
      all of `s`, in order. */
  lemma PrependMinimum(s: set<int>, m: int, rest: seq<int>)
    requires m in s && forall y :: y in s ==> m <= y
    requires |rest| == |s - {m}| && (forall x :: x in rest <==> x in s - {m}) && Increasing(rest)
    ensures |[m] + rest| == |s|
    ensures forall x :: x in [m] + rest <==> x in s
    ensures Increasing([m] + rest)
  {
    assert |s - {m}| == |s| - 1;
    forall j | 0 <= j < |rest| ensures m < rest[j] {
      assert rest[j] in rest;
      assert rest[j] in s - {m};
    }
    var r := [m] + rest;
    forall i, j | 0 <= i < j < |r| ensures r[i] < r[j] {
      assert r[j] == rest[j - 1];
      if i > 0 {
        assert r[i] == rest[i - 1];
      }
    }
  }

  /** The primary keys of a table in ascending order: the order the model takes for
      a table scan, which SQLite does not specify. */
  function SortedKeys(s: set<int>): (r: seq<int>)
    ensures |r| == |s|
    ensures forall x :: x in r <==> x in s
    ensures Increasing(r)
    decreases |s|
  {
    if s == {} then []
    else
      var m := Minimum(s);
      var rest := SortedKeys(s - {m});
      PrependMinimum(s, m, rest);
      [m] + rest
  }

  /** A table whose every row is stored under its own primary key `id`. */
  ghost predicate Keyed<T>(m: map<int, T>, id: T -> int)
  {
    forall k :: k in m ==> id(m[k]) == k
  }

  /** Rows read off a table along a complete list of its keys are exactly the
      table's rows. */
  lemma RowsAlongKeys<T>(m: map<int, T>, id: T -> int, keys: seq<int>, r: seq<T>)
    requires Keyed(m, id)
    requires |keys| == |m| && forall x :: x in keys <==> x in m
    requires |r| == |keys| && forall i :: 0 <= i < |keys| ==> keys[i] in m && r[i] == m[keys[i]]
    ensures forall k :: k in m ==> m[k] in r
    ensures forall x :: x in r ==> id(x) in m && m[id(x)] == x
  {
    forall k | k in m ensures m[k] in r {
      var i :| 0 <= i < |keys| && keys[i] == k;
      assert r[i] == m[k];
    }
    forall x | x in r ensures id(x) in m && m[id(x)] == x {
      var i :| 0 <= i < |r| && r[i] == x;
      assert keys[i] in m && x == m[keys[i]];
      assert id(m[keys[i]]) == keys[i];
    }
  }

  /** Rows read along ascending keys come in ascending `id` order. */
  lemma RowsAlongIncreasingKeys<T>(m: map<int, T>, id: T -> int, keys: seq<int>, r: seq<T>)
    requires Keyed(m, id) && Increasing(keys)
    requires |r| == |keys| && forall i :: 0 <= i < |keys| ==> keys[i] in m && r[i] == m[keys[i]]
    ensures forall i, j :: 0 <= i < j < |r| ==> id(r[i]) < id(r[j])
  {
    forall i | 0 <= i < |r| ensures id(r[i]) == keys[i] {
      assert id(m[keys[i]]) == keys[i];
    }
  }

  /** The rows of a table, in key order (the model's scan order). */
  function RowsInKeyOrder<T>(m: map<int, T>, id: T -> int): (r: seq<T>)
    requires Keyed(m, id)
    ensures |r| == |m|
    ensures forall k :: k in m ==> m[k] in r
    ensures forall x :: x in r ==> id(x) in m && m[id(x)] == x
  {
    var keys := SortedKeys(m.Keys);
    var r := seq(|keys|, i requires 0 <= i < |keys| => m[keys[i]]);
    RowsAlongKeys(m, id, keys, r);
    r
  }

  /** The scan visits rows in ascending primary-key order. */
  lemma RowsInKeyOrderIncreasing<T>(m: map<int, T>, id: T -> int)
    requires Keyed(m, id)
    ensures forall i, j :: 0 <= i < j < |RowsInKeyOrder(m, id)| ==>
              id(RowsInKeyOrder(m, id)[i]) < id(RowsInKeyOrder(m, id)[j])
  {
    var keys := SortedKeys(m.Keys);
    var r := seq(|keys|, i requires 0 <= i < |keys| => m[keys[i]]);
    assert RowsInKeyOrder(m, id) == r;
    RowsAlongIncreasingKeys(m, id, keys, r);
  }

  /** A list sorted ascending on a text column, as `ORDER BY column ASC` returns it. */
  ghost predicate SortedBy<T>(s: seq<T>, key: T -> string)
  {
    forall i, j :: 0 <= i < j < |s| ==> LexLe(key(s[i]), key(s[j]))
  }

  /** Inserts `x` before the first element whose key is not smaller. */
  function InsertByKey<T>(x: T, s: seq<T>, key: T -> string): seq<T>
  {
    if s == [] then [x]
    else if LexLe(key(x), key(s[0])) then [x] + s
    else [s[0]] + InsertByKey(x, s[1..], key)
  }

  /** A stable insertion sort on a text column: `ORDER BY column ASC` over rows
      read in key order. Ties keep key order; SQLite leaves the order of ties
      unspecified, and this is the model's choice. */
  function SortByKey<T>(s: seq<T>, key: T -> string): seq<T>
  {
    if s == [] then [] else InsertByKey(s[0], SortByKey(s[1..], key), key)
  }

  /** Rows of equal key appear in ascending `id` order. */
  ghost predicate TiesById<T>(s: seq<T>, key: T -> string, id: T -> int)
  {
    forall i, j :: 0 <= i < j < |s| && key(s[i]) == key(s[j]) ==> id(s[i]) < id(s[j])
  }

  lemma {:induction false} InsertByKeyPermutes<T>(x: T, s: seq<T>, key: T -> string)
    ensures multiset(InsertByKey(x, s, key)) == multiset(s) + multiset{x}
  {
    if s != [] && !LexLe(key(x), key(s[0])) {
      InsertByKeyPermutes(x, s[1..], key);
      assert s == [s[0]] + s[1..];
    }
  }

  /** A lower bound on the keys of `x` and of every element of `s` bounds every
      key after the insertion. */
  lemma {:induction false} InsertByKeyBounded<T>(x: T, s: seq<T>, key: T -> string, b: string)
    requires LexLe(b, key(x)) && forall j :: 0 <= j < |s| ==> LexLe(b, key(s[j]))
    ensures forall j :: 0 <= j < |InsertByKey(x, s, key)| ==> LexLe(b, key(InsertByKey(x, s, key)[j]))
  {
    if s != [] && !LexLe(key(x), key(s[0])) {
      InsertByKeyBounded(x, s[1..], key, b);
      var rest := InsertByKey(x, s[1..], key);
      assert InsertByKey(x, s, key) == [s[0]] + rest;
      forall j | 0 <= j < |[s[0]] + rest| ensures LexLe(b, key(([s[0]] + rest)[j])) {
        if j > 0 {
          assert ([s[0]] + rest)[j] == rest[j - 1];
        }
      }
    }
  }

  lemma {:induction false} InsertByKeySorted<T>(x: T, s: seq<T>, key: T -> string)
    requires SortedBy(s, key)
    ensures SortedBy(InsertByKey(x, s, key), key)
  {
    if s == [] {
    } else if LexLe(key(x), key(s[0])) {
      forall j | 0 <= j < |s| ensures LexLe(key(x), key(s[j])) {
        if j > 0 {
          LexLeTransitive(key(x), key(s[0]), key(s[j]));
        }
      }
    } else {
      LexLeTotal(key(x), key(s[0]));
      var rest := InsertByKey(x, s[1..], key);
      InsertByKeySorted(x, s[1..], key);
      forall j | 0 <= j < |s[1..]| ensures LexLe(key(s[0]), key(s[1..][j])) {
        assert s[1..][j] == s[j + 1];
      }
      InsertByKeyBounded(x, s[1..], key, key(s[0]));
      var r := [s[0]] + rest;
      forall i, j | 0 <= i < j < |r| ensures LexLe(key(r[i]), key(r[j])) {
        assert r[j] == rest[j - 1];
        if i > 0 {
          assert r[i] == rest[i - 1];
        }
      }
    }
  }

  /** Inserting `x` before every row of equal key keeps ties in `id` order when
      `x` has the smallest `id` among them. */
  lemma {:induction false} InsertByKeyStable<T>(x: T, s: seq<T>, key: T -> string, id: T -> int)
    requires TiesById(s, key, id)
    requires forall j :: 0 <= j < |s| && key(s[j]) == key(x) ==> id(x) < id(s[j])
    ensures TiesById(InsertByKey(x, s, key), key, id)
  {
    if s == [] {
    } else if LexLe(key(x), key(s[0])) {
      var r := [x] + s;
      forall i, j | 0 <= i < j < |r| && key(r[i]) == key(r[j]) ensures id(r[i]) < id(r[j]) {
        assert r[j] == s[j - 1];
        if i > 0 {
          assert r[i] == s[i - 1];
        }
      }
    } else {
      LexLeReflexive(key(x));
      var rest := InsertByKey(x, s[1..], key);
      forall j | 0 <= j < |s[1..]| && key(s[1..][j]) == key(x) ensures id(x) < id(s[1..][j]) {
        assert s[1..][j] == s[j + 1];
      }
      TiesByIdTail(s, key, id);
      InsertByKeyStable(x, s[1..], key, id);
      InsertByKeyMembers(x, s[1..], key);
      var r := [s[0]] + rest;
      forall i, j | 0 <= i < j < |r| && key(r[i]) == key(r[j]) ensures id(r[i]) < id(r[j]) {
        assert r[j] == rest[j - 1];
        if i > 0 {
          assert r[i] == rest[i - 1];
        } else if r[j] != x {
          assert rest[j - 1] in rest;
          var m :| 0 <= m < |s[1..]| && s[1..][m] == r[j];
          assert s[m + 1] == r[j];
        }
      }
    }
  }

  lemma TiesByIdTail<T>(s: seq<T>, key: T -> string, id: T -> int)
    requires s != [] && TiesById(s, key, id)
    ensures TiesById(s[1..], key, id)
  {
    forall i, j | 0 <= i < j < |s[1..]| && key(s[1..][i]) == key(s[1..][j])
      ensures id(s[1..][i]) < id(s[1..][j])
    {
      assert s[1..][i] == s[i + 1] && s[1..][j] == s[j + 1];
    }
  }

  /** Every element after an insertion is the inserted one or was already there. */
  lemma InsertByKeyMembers<T>(x: T, s: seq<T>, key: T -> string)
    ensures forall e :: e in InsertByKey(x, s, key) ==> e == x || e in s
  {
    InsertByKeyPermutes(x, s, key);
    forall e | e in InsertByKey(x, s, key) ensures e == x || e in s {
      assert e in multiset(InsertByKey(x, s, key));
    }
  }

  /** The insertion sort is stable: rows given in ascending `id` order leave ties
      in that order. */
  lemma {:induction false} SortByKeyStable<T>(s: seq<T>, key: T -> string, id: T -> int)
    requires forall i, j :: 0 <= i < j < |s| ==> id(s[i]) < id(s[j])
    ensures TiesById(SortByKey(s, key), key, id)
  {
    if s != [] {
      forall i, j | 0 <= i < j < |s[1..]| ensures id(s[1..][i]) < id(s[1..][j]) {
        assert s[1..][i] == s[i + 1] && s[1..][j] == s[j + 1];
      }
      SortByKeyStable(s[1..], key, id);
      var sorted := SortByKey(s[1..], key);
      SortByKeyKeepsMembers(s[1..], key);
      forall j | 0 <= j < |sorted| ensures id(s[0]) < id(sorted[j]) {
        var m :| 0 <= m < |s[1..]| && s[1..][m] == sorted[j];
        assert s[m + 1] == sorted[j];
      }
      InsertByKeyStable(s[0], sorted, key, id);
    }
  }

  /** `ORDER BY` returns the same rows, ascending on the column. */
  lemma {:induction false} SortByKeySortsAndPermutes<T>(s: seq<T>, key: T -> string)
    ensures SortedBy(SortByKey(s, key), key)
    ensures multiset(SortByKey(s, key)) == multiset(s)
  {
    if s != [] {
      SortByKeySortsAndPermutes(s[1..], key);
      InsertByKeySorted(s[0], SortByKey(s[1..], key), key);
      InsertByKeyPermutes(s[0], SortByKey(s[1..], key), key);
      assert s == [s[0]] + s[1..];
    }
  }

  /** Two lists holding the same elements as often hold the same elements. */
  lemma SameMultisetSameMembers<T>(a: seq<T>, b: seq<T>)
    requires multiset(a) == multiset(b)
    ensures |a| == |b|
    ensures forall x :: x in a <==> x in b
  {
    assert |a| == |multiset(a)| == |multiset(b)| == |b|;
    forall x ensures x in a <==> x in b {
      assert x in a <==> x in multiset(a);
      assert x in b <==> x in multiset(b);
    }
  }

  /** Sorting keeps exactly the elements it was given. */
  lemma SortByKeyKeepsMembers<T>(s: seq<T>, key: T -> string)
    ensures |SortByKey(s, key)| == |s|
    ensures forall i :: 0 <= i < |s| ==> s[i] in SortByKey(s, key)
    ensures forall i :: 0 <= i < |SortByKey(s, key)| ==> SortByKey(s, key)[i] in s
  {
    var r := SortByKey(s, key);
    SortByKeySortsAndPermutes(s, key);
    SameMultisetSameMembers(r, s);
    forall i | 0 <= i < |r| ensures r[i] in s {
      assert r[i] in r;
      assert multiset(r) == multiset(s);
      assert r[i] in multiset(r);
      assert r[i] in multiset(s);
    }
    forall i | 0 <= i < |s| ensures s[i] in r {
      assert s[i] in s;
    }
  }

  /** `SELECT * FROM t ORDER BY column ASC`: every row of the table once, ascending. */
  function SortedRows<T>(m: map<int, T>, id: T -> int, key: T -> string): (r: seq<T>)
    requires Keyed(m, id)
    ensures |r| == |m|
    ensures forall k :: k in m ==> m[k] in r
    ensures forall x :: x in r ==> id(x) in m && m[id(x)] == x
    ensures SortedBy(r, key)
    ensures TiesById(r, key, id)
  {
    RowsInKeyOrderIncreasing(m, id);
    SortByKeyStable(RowsInKeyOrder(m, id), key, id);
    SortedRowsSorted(m, id, key);
    SortedRowsComplete(m, id, key);
    SortedRowsFromTable(m, id, key);
    SortByKey(RowsInKeyOrder(m, id), key)
  }

  lemma SortedRowsSorted<T>(m: map<int, T>, id: T -> int, key: T -> string)
    requires Keyed(m, id)
    ensures |SortByKey(RowsInKeyOrder(m, id), key)| == |m|
    ensures SortedBy(SortByKey(RowsInKeyOrder(m, id), key), key)
  {
    SortByKeyKeepsMembers(RowsInKeyOrder(m, id), key);
    SortByKeySortsAndPermutes(RowsInKeyOrder(m, id), key);
  }

  lemma SortedRowsComplete<T>(m: map<int, T>, id: T -> int, key: T -> string)
    requires Keyed(m, id)
    ensures forall k :: k in m ==> m[k] in SortByKey(RowsInKeyOrder(m, id), key)
  {
    var rows := RowsInKeyOrder(m, id);
    SortByKeyKeepsMembers(rows, key);
    forall k | k in m ensures m[k] in SortByKey(rows, key) {
      assert m[k] in rows;
      var i :| 0 <= i < |rows| && rows[i] == m[k];
    }
  }

  lemma SortedRowsFromTable<T>(m: map<int, T>, id: T -> int, key: T -> string)
    requires Keyed(m, id)
    ensures forall x :: x in SortByKey(RowsInKeyOrder(m, id), key) ==> id(x) in m && m[id(x)] == x
  {
    var rows := RowsInKeyOrder(m, id);
    SortByKeyKeepsMembers(rows, key);
    forall x | x in SortByKey(rows, key) ensures id(x) in m && m[id(x)] == x {
      var i :| 0 <= i < |SortByKey(rows, key)| && SortByKey(rows, key)[i] == x;
      assert x in rows;
    }
  }

  /** Kotlin's `filter`: the elements satisfying `p`, in their original order. */
  function Filter<T>(s: seq<T>, p: T -> bool): (r: seq<T>)
    ensures |r| <= |s|
    ensures forall i :: 0 <= i < |r| ==> r[i] in s && p(r[i])
    ensures forall i :: 0 <= i < |s| && p(s[i]) ==> s[i] in r
  {
    if s == [] then []
    else
      var rest := Filter(s[1..], p);
      assert forall i :: 1 <= i < |s| ==> s[i] == s[1..][i - 1];
      if p(s[0]) then [s[0]] + rest else rest
  }

  /** `filter` keeps order: filtering a concatenation concatenates the filtered parts. */
  lemma {:induction false} FilterAppend<T>(s: seq<T>, t: seq<T>, p: T -> bool)
    ensures Filter(s + t, p) == Filter(s, p) + Filter(t, p)
  {
    if s != [] {
      FilterAppend(s[1..], t, p);
      assert (s + t)[1..] == s[1..] + t;
    } else {
      assert s + t == t;
    }
  }

  /** Filtering twice by the same predicate is filtering once. */
  lemma {:induction false} FilterIdempotent<T>(s: seq<T>, p: T -> bool)
    ensures Filter(Filter(s, p), p) == Filter(s, p)
  {
    if s != [] {
      FilterIdempotent(s[1..], p);
      if p(s[0]) {
        var r := Filter(s, p);
        assert r[0] == s[0] && r[1..] == Filter(s[1..], p);
      }
    }
  }

  /** Kotlin's `find`: the first element satisfying `p`, or null. */
  function Find<T>(s: seq<T>, p: T -> bool): (r: Option<T>)
    ensures r.None? <==> forall i :: 0 <= i < |s| ==> !p(s[i])
    ensures r.Some? ==> exists i :: 0 <= i < |s| && s[i] == r.value && p(s[i])
                                   && forall j :: 0 <= j < i ==> !p(s[j])
  {
    if s == [] then None
    else if p(s[0]) then Some(s[0])
    else
      var r := Find(s[1..], p);
      assert r.Some? ==> exists i :: 1 <= i < |s| && s[i] == r.value && p(s[i])
                                     && forall j :: 0 <= j < i ==> !p(s[j]) by {
        if r.Some? {
          var i :| 0 <= i < |s[1..]| && s[1..][i] == r.value && p(s[1..][i])
                   && forall j :: 0 <= j < i ==> !p(s[1..][j]);
          assert s[i + 1] == r.value;
          assert forall j :: 0 <= j < i + 1 ==> !p(s[j]) by {
            forall j | 0 <= j < i + 1 ensures !p(s[j]) {
              if j > 0 { assert s[j] == s[1..][j - 1]; }
            }
          }
        }
      }
      r
  }
}

=== FILE: crypto.dfy ===
/**
 * The cryptographic primitives the vault engine calls (`CryptoManager`,
 * `KeyDerivationUtil`, `android.util.Base64`, `SecureRandom`), modelled
 * symbolically. A string these primitives produce is represented by a term
 * that records how it was made, and every other string by an `Opaque` or
 * `Malformed` term, so the idealised assumptions hold by construction:
 *
 *  - PBKDF2-HMAC-SHA256 (section 5.2 of RFC 8018) is deterministic and
 *    collision free: a key is the term `Pbkdf2(password, salt, iterations, bits)`;
 *  - AES-GCM (NIST SP 800-38D, 12-byte IV, 128-bit tag) is an ideal AEAD:
 *    decryption returns the plaintext exactly when key and IV are the ones
 *    used to encrypt, and fails otherwise, including on any text not made by
 *    encryption;
 *  - AES-CBC (NIST SP 800-38A, section 6.2), used by the older code, is NOT
 *    authenticated: with the right key and IV it returns the plaintext, and
 *    otherwise whatever an explicit `CbcNoise` oracle says (garbage or a
 *    padding failure), about which the model claims nothing;
 *  - Base64 (section 4 of RFC 4648) round-trips.
 */
module Crypto {
  import opened Wrappers

  type Byte = bv8
  type Bytes = seq<Byte>

  /** `KeyDerivationUtil.generateSalt` draws 16 bytes. */
  const SaltLength: nat := 16
  /** `CryptoManager.IV_LENGTH` for AES-GCM. */
  const GcmIvLength: nat := 12
  /** The older `CryptoManager` draws a 16-byte AES-CBC IV. */
  const CbcIvLength: nat := 16
  /** `CryptoManager.TAG_LENGTH_BITS`. */
  const TagLengthBits: nat := 128
  /** `KeyDerivationUtil.KEY_LENGTH`: AES-256. */
  const KeyLengthBits: nat := 256
  /** PBKDF2 iteration count of the current key derivation. */
  const Iterations: nat := 600000
  /** PBKDF2 iteration count of the older key derivation. */
  const LegacyIterations: nat := 10000

  type Salt = b: Bytes | |b| == SaltLength
    witness [0, 0, 0, 0, 0, 0, 0, 0, 0, 0, 0, 0, 0, 0, 0, 0]
  type GcmIv = b: Bytes | |b| == GcmIvLength
    witness [0, 0, 0, 0, 0, 0, 0, 0, 0, 0, 0, 0]
  type CbcIv = b: Bytes | |b| == CbcIvLength
    witness [0, 0, 0, 0, 0, 0, 0, 0, 0, 0, 0, 0, 0, 0, 0, 0]

  /** A `SecretKeySpec` produced by PBKDF2WithHmacSHA256. */
  datatype Key = Pbkdf2(password: string, salt: Bytes, iterations: nat, lengthBits: nat)

  /** `KeyDerivationUtil.deriveKey` of the current code: PBKDF2WithHmacSHA256 with
      600 000 iterations and a 256-bit AES key, fixed by the password and the salt. */
  function DeriveKey(password: string, salt: Bytes): (k: Key)
    ensures k.iterations == Iterations && k.lengthBits == KeyLengthBits
    ensures k.password == password && k.salt == salt
  {
    Pbkdf2(password, salt, Iterations, KeyLengthBits)
  }

  /** `KeyDerivationUtil.deriveKey` of the older code. */
  function LegacyDeriveKey(password: string, salt: Bytes): Key
  {
    Pbkdf2(password, salt, LegacyIterations, KeyLengthBits)
  }

  /** A key derived twice from the same password and salt is the same key, and
      different passwords or salts give different keys. */
  lemma DeriveKeyInjective(p: string, s: Bytes, p': string, s': Bytes)
    ensures DeriveKey(p, s) == DeriveKey(p', s') <==> p == p' && s == s'
  {
  }

  /** The current and the older derivations never agree on a key. */
  lemma DerivationsDisagree(p: string, s: Bytes, p': string, s': Bytes)
    ensures DeriveKey(p, s) != LegacyDeriveKey(p', s')
  {
  }

  datatype Mode = Gcm | Cbc

  /** A base64 ciphertext string as stored: either made by encryption, or any
      other text. */
  datatype Sealed<P> =
    | Ciphertext(mode: Mode, plain: P, key: Key, iv: Bytes)
    | Opaque(text: string)

  /** `CryptoManager.encrypt` (AES-GCM): the ciphertext opens under its own key and
      IV, to the plaintext, and under no other. */
  function Encrypt<P>(plain: P, key: Key, iv: Bytes): (c: Sealed<P>)
    ensures Decrypt(c, key, iv) == Some(plain)
    ensures forall k, v :: Decrypt(c, k, v).Some? ==> k == key && v == iv
  {
    Ciphertext(Gcm, plain, key, iv)
  }

  /** `CryptoManager.decrypt` (AES-GCM); `None` is the thrown `AEADBadTagException`.
      Only a GCM ciphertext made under this key and IV opens, and to its plaintext. */
  function Decrypt<P>(c: Sealed<P>, key: Key, iv: Bytes): (r: Option<P>)
    ensures r.Some? <==> c.Ciphertext? && c.mode == Gcm && c.key == key && c.iv == iv
    ensures r.Some? ==> r.value == c.plain
  {
    match c
    case Ciphertext(mode, p, k, v) => if mode == Gcm && k == key && v == iv then Some(p) else None
    case Opaque(_) => None
  }

  /** The AEAD assumption: decryption recovers the plaintext iff key and IV match. */
  lemma DecryptEncrypt<P>(p: P, k: Key, iv: Bytes, k': Key, iv': Bytes)
    ensures Decrypt(Encrypt(p, k, iv), k', iv') == if k' == k && iv' == iv then Some(p) else None
  {
  }

  /** What unauthenticated AES-CBC decryption yields for a key or IV it was not made
      with: some text, or a padding failure (`None`). */
  type CbcNoise = (Sealed<string>, Key, Bytes) -> Option<string>

  /** The older `CryptoManager.encrypt` (AES-CBC, PKCS#5 padding). */
  function CbcEncrypt(plain: string, key: Key, iv: Bytes): Sealed<string>
  {
    Ciphertext(Cbc, plain, key, iv)
  }

  /** The older `CryptoManager.decrypt` (AES-CBC); `None` is a thrown `BadPaddingException`.
      A CBC ciphertext made under this key and IV yields its plaintext; anything else
      yields whatever the noise says. */
  function CbcDecrypt(c: Sealed<string>, key: Key, iv: Bytes, noise: CbcNoise): (r: Option<string>)
    ensures forall p :: c == CbcEncrypt(p, key, iv) ==> r == Some(p)
    ensures (forall p :: c != CbcEncrypt(p, key, iv)) ==> r == noise(c, key, iv)
  {
    if c.Ciphertext? && c.mode == Cbc && c.key == key && c.iv == iv then Some(c.plain)
    else noise(c, key, iv)
  }

  /** With its own key and IV, AES-CBC recovers the plaintext whatever the noise. */
  lemma CbcDecryptEncrypt(p: string, k: Key, iv: Bytes, noise: CbcNoise)
    ensures CbcDecrypt(CbcEncrypt(p, k, iv), k, iv, noise) == Some(p)
  {
  }

  /** AES-CBC is not authenticated: a wrong key can yield any text at all. */
  lemma CbcWrongKeyCanYieldAnything(p: string, k: Key, iv: Bytes, k': Key, forged: string)
    requires k' != k
    ensures exists noise: CbcNoise :: CbcDecrypt(CbcEncrypt(p, k, iv), k', iv, noise) == Some(forged)
  {
    var noise: CbcNoise := (c, key, v) => Some(forged);
    assert CbcDecrypt(CbcEncrypt(p, k, iv), k', iv, noise) == Some(forged);
  }

  /** Base64 text (NO_WRAP): the encoding of some bytes, or text that does not decode. */
  datatype Base64 = Encoded(bytes: Bytes) | Malformed(text: string)

  /** `CryptoManager.bytesToBase64`. */
  function BytesToBase64(b: Bytes): Base64
  {
    Encoded(b)
  }

  /** `CryptoManager.base64ToBytes`; `None` is the thrown `IllegalArgumentException`. */
  function Base64ToBytes(t: Base64): Option<Bytes>
  {
    match t
    case Encoded(b) => Some(b)
    case Malformed(_) => None
  }

  lemma Base64RoundTrip(b: Bytes)
    ensures Base64ToBytes(BytesToBase64(b)) == Some(b)
  {
  }

  /**
   * `SecureRandom`, as an oracle: three fixed streams of values, and a counter of
   * the draws made so far. Every draw consumes one position, so two draws never
   * read the same position; whether the values themselves repeat is up to the
   * streams (see `Fresh`).
   */
  class Entropy {
    const salts: nat -> Salt
    const gcmIvs: nat -> GcmIv
    const cbcIvs: nat -> CbcIv
    var draws: nat

    constructor(salts: nat -> Salt, gcmIvs: nat -> GcmIv, cbcIvs: nat -> CbcIv)
      ensures this.salts == salts && this.gcmIvs == gcmIvs && this.cbcIvs == cbcIvs
      ensures draws == 0
    {
      this.salts := salts;
      this.gcmIvs := gcmIvs;
      this.cbcIvs := cbcIvs;
      draws := 0;
    }

    /** The idealised freshness assumption: no stream ever repeats a value. */
    ghost predicate Fresh()
      reads this
    {
      && (forall i: nat, j: nat :: i != j ==> salts(i) != salts(j))
      && (forall i: nat, j: nat :: i != j ==> gcmIvs(i) != gcmIvs(j))
      && (forall i: nat, j: nat :: i != j ==> cbcIvs(i) != cbcIvs(j))
    }

    /** `KeyDerivationUtil.generateSalt`. */
    method GenerateSalt() returns (s: Salt)
      modifies this
      ensures s == salts(old(draws)) && draws == old(draws) + 1
    {
      s := salts(draws);
      draws := draws + 1;
    }

    /** `CryptoManager.generateIv` (12 bytes, AES-GCM). */
    method GenerateIv() returns (iv: GcmIv)
      modifies this
      ensures iv == gcmIvs(old(draws)) && draws == old(draws) + 1
    {
      iv := gcmIvs(draws);
      draws := draws + 1;
    }

    /** The older `CryptoManager.generateIv` (16 bytes, AES-CBC). */
    method GenerateCbcIv() returns (iv: CbcIv)
      modifies this
      ensures iv == cbcIvs(old(draws)) && draws == old(draws) + 1
    {
      iv := cbcIvs(draws);
      draws := draws + 1;
    }
  }
}

=== FILE: database.dfy ===
/**
 * The Room database behind the vault: the `accounts`, `folders` and `app_user`
 * tables with the operations of `AccountDao`, `FolderDao` and `UserDao`.
 *
 * Each table is a map from primary key to row, plus the AUTOINCREMENT counter
 * SQLite keeps for it (`sqlite_sequence`): a row inserted with id 0 gets the
 * counter plus one, and an explicit id raises the counter to at least that id.
 * Foreign keys are enforced, as Room enables them: an account may only name an
 * existing folder, and deleting a folder sets its accounts' folder to null.
 */
module Storage {
  import opened Wrappers
  import opened Text
  import opened Collections
  import opened Entities

  /** The message SQLite gives a foreign-key violation. */
  const ForeignKeyFailed := "FOREIGN KEY constraint failed"

  /** The id a row is stored under: its own, or a fresh one when it is `Unsaved`. */
  function AssignedId(id: int, counter: int): (r: int)
    ensures id != Unsaved ==> r == id
    ensures id == Unsaved ==> r > counter
  {
    if id == Unsaved then counter + 1 else id
  }

  function Max(a: int, b: int): (r: int)
    ensures r >= a && r >= b && (r == a || r == b)
  {
    if a < b then b else a
  }

  function AccountId(a: Account): int { a.id }
  function FolderId(f: Folder): int { f.id }
  function ServiceName(a: Account): string { a.serviceName }
  function FolderName(f: Folder): string { f.folderName }

  /** `SELECT * FROM app_user LIMIT 1`: null for an empty table; otherwise the row
      with the smallest id, the model's choice of the row SQLite leaves unspecified. */
  function FirstUser(users: map<int, User>): (r: Option<User>)
    ensures r.None? <==> users == map[]
    ensures r.Some? ==> exists k :: k in users && users[k] == r.value && forall j :: j in users ==> k <= j
  {
    if users == map[] then None
    else
      assert |users.Keys| == |users| > 0;
      var k := Minimum(users.Keys);
      Some(users[k])
  }

  /** With a single user row, that row is the app user. */
  lemma SingleUserIsAppUser(id: int, u: User)
    ensures FirstUser(map[id := u]) == Some(u)
  {
    var m := map[id := u];
    assert id in m;
  }

  /** The user table holds one row, `u`, under whatever id the database gave it. */
  ghost predicate SoleUser(users: map<int, User>, u: User)
  {
    exists id :: users == map[id := u.(id := id)]
  }

  /** When the table holds `u` alone, `getAppUser` returns `u` under its stored id. */
  lemma SoleUserIsAppUser(users: map<int, User>, u: User)
    requires SoleUser(users, u)
    ensures FirstUser(users).Some?
    ensures FirstUser(users).value == u.(id := FirstUser(users).value.id)
  {
    var id :| users == map[id := u.(id := id)];
    SingleUserIsAppUser(id, u.(id := id));
  }

  class Database {
    var accounts: map<int, Account>
    var accountSeq: int
    var folders: map<int, Folder>
    var folderSeq: int
    var users: map<int, User>
    var userSeq: int

    /** Every row is stored under its own id, no id exceeds its table's counter, and
        every account's folder exists. */
    ghost predicate Valid()
      reads this
    {
      && (forall k :: k in accounts ==> accounts[k].id == k && k <= accountSeq && FolderExists(accounts[k].folderId))
      && (forall k :: k in folders ==> folders[k].id == k && k <= folderSeq)
      && (forall k :: k in users ==> users[k].id == k && k <= userSeq)
    }

    /** The foreign key of `accounts.folder_id`: null, or the id of a folder. */
    predicate FolderExists(folderId: Option<int>)
      reads this
    {
      folderId.Some? ==> folderId.value in folders
    }

    /** An empty database. */
    constructor()
      ensures Valid()
      ensures accounts == map[] && folders == map[] && users == map[]
    {
      accounts := map[];
      accountSeq := 0;
      folders := map[];
      folderSeq := 0;
      users := map[];
      userSeq := 0;
    }

    // ---- AccountDao ----

    /** `AccountDao.insert` (`OnConflictStrategy.REPLACE`): stores the row under its
        id, overwriting any row with that id, or under a fresh id when it is 0;
        returns the id. Fails, changing nothing, if the folder does not exist. */
    method InsertAccount(a: Account) returns (r: Result<int>)
      requires Valid()
      modifies this
      ensures Valid()
      ensures folders == old(folders) && folderSeq == old(folderSeq)
      ensures users == old(users) && userSeq == old(userSeq)
      ensures !old(FolderExists(a.folderId)) ==>
                r == Failure(SQLiteConstraintException(ForeignKeyFailed))
                && accounts == old(accounts) && accountSeq == old(accountSeq)
      ensures old(FolderExists(a.folderId)) ==>
                var id := AssignedId(a.id, old(accountSeq));
                && r == Ok(id)
                && accounts == old(accounts)[id := a.(id := id)]
                && accountSeq == Max(old(accountSeq), id)
    {
      if !FolderExists(a.folderId) {
        return Failure(SQLiteConstraintException(ForeignKeyFailed));
      }
      var id := AssignedId(a.id, accountSeq);
      accounts := accounts[id := a.(id := id)];
      accountSeq := Max(accountSeq, id);
      r := Ok(id);
    }

    /** `AccountDao.update`: replaces the row with the same id; no such row, no change.
        Fails, changing nothing, if the new folder does not exist. */
    method UpdateAccount(a: Account) returns (r: Outcome)
      requires Valid()
      modifies this
      ensures Valid()
      ensures folders == old(folders) && folderSeq == old(folderSeq)
      ensures users == old(users) && userSeq == old(userSeq)
      ensures accountSeq == old(accountSeq)
      ensures a.id !in old(accounts) ==> r == Pass && accounts == old(accounts)
      ensures a.id in old(accounts) && !old(FolderExists(a.folderId)) ==>
                r == Fail(SQLiteConstraintException(ForeignKeyFailed)) && accounts == old(accounts)
      ensures a.id in old(accounts) && old(FolderExists(a.folderId)) ==>
                r == Pass && accounts == old(accounts)[a.id := a]
    {
      if a.id !in accounts {
        return Pass;
      }
      if !FolderExists(a.folderId) {
        return Fail(SQLiteConstraintException(ForeignKeyFailed));
      }
      accounts := accounts[a.id := a];
      r := Pass;
    }

    /** `AccountDao.delete`: removes the row with that id, and only that row. */
    method DeleteAccount(a: Account)
      requires Valid()
      modifies this
      ensures Valid()
      ensures accounts == old(accounts) - {a.id}
      ensures accountSeq == old(accountSeq)
      ensures folders == old(folders) && folderSeq == old(folderSeq)
      ensures users == old(users) && userSeq == old(userSeq)
    {
      accounts := accounts - {a.id};
    }

    /** `getAllAccounts`: every row, ascending by service name (`ORDER BY service_name ASC`). */
    function AllAccounts(): (r: seq<Account>)
      requires Valid()
      reads this
      ensures |r| == |accounts|
      ensures forall k :: k in accounts ==> accounts[k] in r
      ensures forall a :: a in r ==> a.id in accounts && accounts[a.id] == a
      ensures SortedBy(r, ServiceName)
    {
      SortedRows(accounts, AccountId, ServiceName)
    }

    /** `getAccountsForFolder(f)`: exactly the rows whose folder is `f`, in id order. */
    function AccountsForFolder(f: int): (r: seq<Account>)
      requires Valid()
      reads this
      ensures forall a :: a in r ==> a.id in accounts && accounts[a.id] == a && a.folderId == Some(f)
      ensures forall k :: k in accounts && accounts[k].folderId == Some(f) ==> accounts[k] in r
    {
      Filter(RowsInKeyOrder(accounts, AccountId), (a: Account) => a.folderId == Some(f))
    }

    /** `getAccountsWithoutFolder`: exactly the rows with a null folder, in id order. */
    function AccountsWithoutFolder(): (r: seq<Account>)
      requires Valid()
      reads this
      ensures forall a :: a in r ==> a.id in accounts && accounts[a.id] == a && a.folderId == None
      ensures forall k :: k in accounts && accounts[k].folderId == None ==> accounts[k] in r
    {
      Filter(RowsInKeyOrder(accounts, AccountId), (a: Account) => a.folderId == None)
    }

    /** `getAccountById`: the row with that id, or null. */
    function AccountById(id: int): (r: Option<Account>)
      reads this
      ensures r.None? <==> id !in accounts
      ensures r.Some? ==> id in accounts && r.value == accounts[id]
    {
      if id in accounts then Some(accounts[id]) else None
    }

    // ---- FolderDao ----

    /** `FolderDao.insert` (`OnConflictStrategy.IGNORE`): an id already present changes
        nothing and returns -1; otherwise the folder is stored, under a fresh id when
        its id is 0, and that id is returned. */
    method InsertFolder(f: Folder) returns (id: int)
      requires Valid()
      modifies this
      ensures Valid()
      ensures accounts == old(accounts) && accountSeq == old(accountSeq)
      ensures users == old(users) && userSeq == old(userSeq)
      ensures f.id != Unsaved && f.id in old(folders) ==>
                id == -1 && folders == old(folders) && folderSeq == old(folderSeq)
      ensures !(f.id != Unsaved && f.id in old(folders)) ==>
                && id == AssignedId(f.id, old(folderSeq))
                && id !in old(folders)
                && folders == old(folders)[id := f.(id := id)]
                && folderSeq == Max(old(folderSeq), id)
    {
      if f.id != Unsaved && f.id in folders {
        return -1;
      }
      id := AssignedId(f.id, folderSeq);
      folders := folders[id := f.(id := id)];
      folderSeq := Max(folderSeq, id);
    }

    /** `FolderDao.update`: replaces the folder with the same id; no such folder, no change. */
    method UpdateFolder(f: Folder)
      requires Valid()
      modifies this
      ensures Valid()
      ensures folders == if f.id in old(folders) then old(folders)[f.id := f] else old(folders)
      ensures folderSeq == old(folderSeq)
      ensures accounts == old(accounts) && accountSeq == old(accountSeq)
      ensures users == old(users) && userSeq == old(userSeq)
    {
      if f.id in folders {
        folders := folders[f.id := f];
      }
    }

    /** `FolderDao.delete`: removes that folder only; its accounts stay, with a null
        folder (`ON DELETE SET NULL`). */
    method DeleteFolder(f: Folder)
      requires Valid()
      modifies this
      ensures Valid()
      ensures folders == old(folders) - {f.id} && folderSeq == old(folderSeq)
      ensures accounts.Keys == old(accounts).Keys && accountSeq == old(accountSeq)
      ensures forall k :: k in accounts ==>
                accounts[k] == if old(accounts)[k].folderId == Some(f.id)
                               then old(accounts)[k].(folderId := None)
                               else old(accounts)[k]
      ensures users == old(users) && userSeq == old(userSeq)
    {
      folders := folders - {f.id};
      accounts := map k | k in accounts ::
        if accounts[k].folderId == Some(f.id) then accounts[k].(folderId := None) else accounts[k];
    }

    /** `getAllFolders`: every folder, ascending by name (`ORDER BY folder_name ASC`). */
    function AllFolders(): (r: seq<Folder>)
      requires Valid()
      reads this
      ensures |r| == |folders|
      ensures forall k :: k in folders ==> folders[k] in r
      ensures forall f :: f in r ==> f.id in folders && folders[f.id] == f
      ensures SortedBy(r, FolderName)
      ensures TiesById(r, FolderName, FolderId)
    {
      SortedRows(folders, FolderId, FolderName)
    }

    /** `getFolderById`: that folder, or null. */
    function FolderById(id: int): (r: Option<Folder>)
      reads this
      ensures r.None? <==> id !in folders
      ensures r.Some? ==> id in folders && r.value == folders[id]
    {
      if id in folders then Some(folders[id]) else None
    }

    // ---- UserDao ----

    /** `UserDao.insertUser` (`OnConflictStrategy.REPLACE`): stores the user under its
        id, overwriting, or under a fresh id when it is 0; returns the id. */
    method InsertUser(u: User) returns (id: int)
      requires Valid()
      modifies this
      ensures Valid()
      ensures id == AssignedId(u.id, old(userSeq))
      ensures users == old(users)[id := u.(id := id)] && userSeq == Max(old(userSeq), id)
      ensures accounts == old(accounts) && accountSeq == old(accountSeq)
      ensures folders == old(folders) && folderSeq == old(folderSeq)
    {
      id := AssignedId(u.id, userSeq);
      users := users[id := u.(id := id)];
      userSeq := Max(userSeq, id);
    }

    /** `getAppUser`. */
    function AppUser(): (r: Option<User>)
      reads this
      ensures r.None? <==> users == map[]
      ensures r.Some? ==> r.value in users.Values
    {
      FirstUser(users)
    }

    /** `deleteAllUsers`: the user table is emptied (the counter is kept). */
    method DeleteAllUsers()
      requires Valid()
      modifies this
      ensures Valid()
      ensures users == map[] && userSeq == old(userSeq)
      ensures accounts == old(accounts) && accountSeq == old(accountSeq)
      ensures folders == old(folders) && folderSeq == old(folderSeq)
    {
      users := map[];
    }
  }
}

=== FILE: entities.dfy ===
/**
 * The stored rows (`Account`, `User`, `Folder`) and the decrypted account the
 * rest of the app works with (`AccountModel`). A Kotlin `Long` is an `int`,
 * a `String?` an `Option<string>`; a ciphertext column holds a `Sealed` term
 * and an IV column a `Base64` term.
 */
module Entities {
  import opened Wrappers
  import opened Crypto

  /** The id of a row not yet inserted: `autoGenerate = true` replaces it with a fresh id. */
  const Unsaved: int := 0

  /** The `folders` table. */
  datatype Folder = Folder(id: int, folderName: string)

  /**
   * The `accounts` table. The service name is plaintext; the password pair is
   * non-null; the email, username, URL and notes pairs are nullable. `folderId`
   * refers to `folders.id`, `ON DELETE SET NULL`.
   */
  datatype Account = Account(
    id: int,
    folderId: Option<int>,
    serviceName: string,
    encryptedEmail: Option<Sealed<string>>,
    ivEmail: Option<Base64>,
    encryptedUsername: Option<Sealed<string>>,
    ivUsername: Option<Base64>,
    encryptedPassword: Sealed<string>,
    ivPassword: Base64,
    encryptedUrl: Option<Sealed<string>>,
    ivUrl: Option<Base64>,
    encryptedNotes: Option<Sealed<string>>,
    ivNotes: Option<Base64>,
    lastModified: int)

  /** The `app_user` table: the salt (base64) and the encrypted verification phrase
      with its IV, from which a candidate master password is checked. */
  datatype User = User(
    id: int,
    userEmail: string,
    userSalt: Base64,
    encryptedVerificationValue: Sealed<string>,
    ivVerificationValue: Base64)

  /** A decrypted account; every text field defaults to "". */
  datatype AccountModel = AccountModel(
    id: int,
    folderId: Option<int>,
    serviceName: string,
    username: string,
    email: string,
    password: string,
    url: string,
    notes: string)

  /** `AccountModel(serviceName = name)` with every other field at its default. */
  function NewAccountModel(folderId: Option<int>, serviceName: string): AccountModel
  {
    AccountModel(Unsaved, folderId, serviceName, "", "", "", "", "")
  }
}

=== FILE: legacy_auth.dfy ===
/**
 * The older `AuthViewModel`: the same sign-up and login scheme as the current
 * one, but over the older primitives (PBKDF2 with 10000 iterations, AES-CBC with
 * a 16-byte IV) and with the error messages as literal strings.
 *
 * AES-CBC is not authenticated, so whether a wrong password is rejected depends
 * on what decryption under the wrong key happens to yield: the `noise` oracle.
 */
module LegacyAuth {
  import opened Wrappers
  import opened Crypto
  import opened Session
  import opened Entities
  import opened Storage
  import opened Text

  datatype LegacyAuthState = Idle | Loading | Success | Error(message: string)

  const LegacyVerificationPhrase := "PAXXWORD_VERIFIED_USER"
  const LegacyUserEmail := "usuario_local"

  /** The messages of the failures. */
  const RegisterErrorPrefix := "Error al registrar: "
  const NoUserMessage := "No hay usuario registrado. Reinstala la app."
  const IncorrectPasswordMessage := "Contraseña incorrecta"

  /** The user row the older sign-up builds: salt and IV in base64, the phrase
      encrypted with AES-CBC. */
  function LegacyNewUser(salt: Bytes, iv: Bytes, key: Key): (u: User)
    ensures u.id == Unsaved && u.userEmail == LegacyUserEmail
    ensures Base64ToBytes(u.userSalt) == Some(salt) && Base64ToBytes(u.ivVerificationValue) == Some(iv)
    ensures forall noise: CbcNoise :: CbcDecrypt(u.encryptedVerificationValue, key, iv, noise) == Some(LegacyVerificationPhrase)
  {
    User(Unsaved, LegacyUserEmail, BytesToBase64(salt), CbcEncrypt(LegacyVerificationPhrase, key, iv), BytesToBase64(iv))
  }

  /** The check inside the older `login`: the candidate key when the stored phrase
      decrypts to the verification phrase under it; null when it does not or when
      decoding or decryption throws. */
  function LegacyLoginKey(user: User, password: string, noise: CbcNoise): (r: Option<Key>)
    ensures r.Some? <==>
              && user.userSalt.Encoded? && user.ivVerificationValue.Encoded?
              && CbcDecrypt(user.encryptedVerificationValue, LegacyDeriveKey(password, user.userSalt.bytes),
                            user.ivVerificationValue.bytes, noise) == Some(LegacyVerificationPhrase)
    ensures r.Some? ==> r.value == LegacyDeriveKey(password, user.userSalt.bytes)
  {
    match Base64ToBytes(user.userSalt)
    case None => None
    case Some(salt) =>
      var candidate := LegacyDeriveKey(password, salt);
      match Base64ToBytes(user.ivVerificationValue)
      case None => None
      case Some(iv) =>
        if CbcDecrypt(user.encryptedVerificationValue, candidate, iv, noise) == Some(LegacyVerificationPhrase)
        then Some(candidate) else None
  }

  /** The right password always logs in, whatever the cipher does on wrong keys. */
  lemma LegacyRightPasswordLogsIn(salt: Bytes, iv: Bytes, password: string, id: int, noise: CbcNoise)
    ensures LegacyLoginKey(LegacyNewUser(salt, iv, LegacyDeriveKey(password, salt)).(id := id), password, noise)
            == Some(LegacyDeriveKey(password, salt))
  {
    CbcDecryptEncrypt(LegacyVerificationPhrase, LegacyDeriveKey(password, salt), iv, noise);
  }

  /** Without authentication nothing rules out a wrong password: for some outcome of
      decryption under the wrong key, a different password logs in and its (wrong)
      key would go into the session. */
  lemma LegacyWrongPasswordMayLogIn(salt: Bytes, iv: Bytes, password: string, id: int, attempt: string)
    requires attempt != password
    ensures exists noise: CbcNoise ::
              LegacyLoginKey(LegacyNewUser(salt, iv, LegacyDeriveKey(password, salt)).(id := id), attempt, noise)
              == Some(LegacyDeriveKey(attempt, salt))
  {
    var noise: CbcNoise := (c, k, v) => Some(LegacyVerificationPhrase);
    assert LegacyDeriveKey(attempt, salt) != LegacyDeriveKey(password, salt);
    assert LegacyLoginKey(LegacyNewUser(salt, iv, LegacyDeriveKey(password, salt)).(id := id), attempt, noise)
           == Some(LegacyDeriveKey(attempt, salt));
  }

  /** When decryption under a wrong key never happens to yield the phrase, the check
      admits exactly the registered password. */
  lemma LegacyLoginExactWithoutCollision(salt: Bytes, iv: Bytes, password: string, id: int, attempt: string,
                                         noise: CbcNoise)
    requires forall c, k, v :: noise(c, k, v) != Some(LegacyVerificationPhrase)
    ensures LegacyLoginKey(LegacyNewUser(salt, iv, LegacyDeriveKey(password, salt)).(id := id), attempt, noise)
            == if attempt == password then Some(LegacyDeriveKey(password, salt)) else None
  {
    var u := LegacyNewUser(salt, iv, LegacyDeriveKey(password, salt)).(id := id);
    if attempt != password {
      assert LegacyDeriveKey(attempt, salt) != LegacyDeriveKey(password, salt);
      assert CbcDecrypt(u.encryptedVerificationValue, LegacyDeriveKey(attempt, salt), iv, noise)
             == noise(u.encryptedVerificationValue, LegacyDeriveKey(attempt, salt), iv);
    }
  }

  /** The older `AuthViewModel` over the user table, the session and the randomness. */
  class LegacyAuthViewModel {
    const db: Database
    const session: SessionManager
    const rng: Entropy
    var state: LegacyAuthState

    constructor(db: Database, session: SessionManager, rng: Entropy)
      ensures this.db == db && this.session == session && this.rng == rng && state == Idle
    {
      this.db := db;
      this.session := session;
      this.rng := rng;
      state := Idle;
    }

    /** The older `register`: a blank password is ignored; otherwise draw a salt and
        a CBC IV, replace every user by the new one, set the session key and succeed.
        `insertFault` is the exception the insert throws, if any: the old users are
        then gone, no key is set, and the error shows the exception's message. */
    method Register(password: string, now: int, insertFault: Option<Exception>)
      requires db.Valid()
      modifies this, db, session, rng
      ensures db.Valid()
      ensures db.accounts == old(db.accounts) && db.folders == old(db.folders)
      ensures IsBlank(password) ==>
                && state == old(state) && db.users == old(db.users)
                && session.State() == old(session.State()) && rng.draws == old(rng.draws)
      ensures !IsBlank(password) ==>
                var salt := rng.salts(old(rng.draws));
                var key := LegacyDeriveKey(password, salt);
                && rng.draws == old(rng.draws) + 2
                && (insertFault.Some? ==>
                      && state == Error(RegisterErrorPrefix + Interpolate(insertFault.value.Message()))
                      && db.users == map[] && session.State() == old(session.State()))
                && (insertFault.None? ==>
                      && state == Success && session.State() == WithKey(key, now)
                      && SoleUser(db.users, LegacyNewUser(salt, rng.cbcIvs(old(rng.draws) + 1), key))
                      && db.AppUser().Some?
                      && forall noise :: LegacyLoginKey(db.AppUser().value, password, noise) == Some(key))
    {
      if IsBlank(password) {
        return;
      }
      var salt := rng.GenerateSalt();
      var key := LegacyDeriveKey(password, salt);
      var iv := rng.GenerateCbcIv();
      var user := LegacyNewUser(salt, iv, key);
      db.DeleteAllUsers();
      if insertFault.Some? {
        state := Error(RegisterErrorPrefix + Interpolate(insertFault.value.Message()));
        return;
      }
      var id := db.InsertUser(user);
      assert db.users == map[id := user.(id := id)];
      SoleUserIsAppUser(db.users, user);
      forall noise: CbcNoise {
        LegacyRightPasswordLogsIn(salt, iv, password, db.AppUser().value.id, noise);
      }
      session.SetKey(key, now);
      state := Success;
    }

    /** The older `login`: a blank password is ignored; with no user, the no-user
        message; otherwise the candidate key goes into the session when the phrase
        comes back, and any failure shows the incorrect-password message with the
        session untouched. `noise` is what AES-CBC yields under a wrong key or IV. */
    method Login(password: string, now: int, noise: CbcNoise)
      requires db.Valid()
      modifies this, session
      ensures IsBlank(password) ==> state == old(state) && session.State() == old(session.State())
      ensures !IsBlank(password) && db.AppUser().None? ==>
                state == Error(NoUserMessage) && session.State() == old(session.State())
      ensures !IsBlank(password) && db.AppUser().Some? ==>
                match LegacyLoginKey(db.AppUser().value, password, noise)
                case Some(key) => state == Success && session.State() == WithKey(key, now)
                case None => state == Error(IncorrectPasswordMessage) && session.State() == old(session.State())
    {
      if IsBlank(password) {
        return;
      }
      var user := db.AppUser();
      if user.None? {
        state := Error(NoUserMessage);
        return;
      }
      var key := LegacyLoginKey(user.value, password, noise);
      if key.Some? {
        session.SetKey(key.value, now);
        state := Success;
      } else {
        state := Error(IncorrectPasswordMessage);
      }
    }
  }
}

=== FILE: legacy_repository.dfy ===
/**
 * The older `PasswordRepositoryImpl` (package `myapplication`): the same row
 * layout as the current one, but AES-CBC with 16-byte IVs, and a `getKey` that
 * never fails: without a session key it falls back to a development key
 * derived from a build-time password and an all-zero salt. Every row it
 * writes without a session is therefore readable by anyone who knows that
 * password.
 */
module LegacyRepository {
  import opened Wrappers
  import opened Crypto
  import opened Session
  import opened Entities
  import opened Storage
  import Repository

  /** `BuildConfig.DEV_KEY_PASS` when `local.properties` does not set it. */
  const DefaultDevKeyPass := "123456"

  /** The fixed salt of the development key: sixteen zero bytes. */
  const ZeroSalt: Salt := [0, 0, 0, 0, 0, 0, 0, 0, 0, 0, 0, 0, 0, 0, 0, 0]

  /** `devKey`: derived once from the build-time password and the zero salt. */
  function DevKey(devKeyPass: string): (k: Key)
    ensures k == LegacyDeriveKey(devKeyPass, ZeroSalt)
    ensures k.salt == ZeroSalt && k.iterations == LegacyIterations
  {
    Pbkdf2(devKeyPass, ZeroSalt, LegacyIterations, KeyLengthBits)
  }

  /** `getKey`: the session key, else the development key. */
  function KeyOrDevKey(k: Option<Key>, devKey: Key): (r: Key)
    ensures k.Some? ==> r == k.value
    ensures k.None? ==> r == devKey
  {
    match k
    case Some(key) => key
    case None => devKey
  }

  /** The five IVs of one save (16 bytes each), in the order they are drawn. */
  datatype CbcIvs = CbcIvs(user: CbcIv, email: CbcIv, pass: CbcIv, url: CbcIv, notes: CbcIv)

  /** The IVs drawn from `rng` starting at position `start`. */
  function CbcIvsAt(rng: Entropy, start: nat): CbcIvs
  {
    CbcIvs(rng.cbcIvs(start), rng.cbcIvs(start + 1), rng.cbcIvs(start + 2),
           rng.cbcIvs(start + 3), rng.cbcIvs(start + 4))
  }

  /** An optional field: absent when empty, else its AES-CBC ciphertext. */
  function OptionalCbc(text: string, key: Key, iv: Bytes): Option<Sealed<string>>
  {
    if text != "" then Some(CbcEncrypt(text, key, iv)) else None
  }

  /** The row `saveAccount` builds. Unlike the current code, the password is
      always encrypted, even when empty. */
  function BuildRow(m: AccountModel, key: Key, ivs: CbcIvs, now: int): (r: Account)
    ensures r.id == m.id && r.folderId == m.folderId && r.serviceName == m.serviceName
    ensures r.lastModified == now
    ensures Repository.PairFollowsText(m.username, r.encryptedUsername, r.ivUsername)
    ensures Repository.PairFollowsText(m.email, r.encryptedEmail, r.ivEmail)
    ensures Repository.PairFollowsText(m.url, r.encryptedUrl, r.ivUrl)
    ensures Repository.PairFollowsText(m.notes, r.encryptedNotes, r.ivNotes)
    ensures r.encryptedPassword.Ciphertext? && r.ivPassword == BytesToBase64(ivs.pass)
  {
    Account(
      id := m.id,
      folderId := m.folderId,
      serviceName := m.serviceName,
      encryptedEmail := OptionalCbc(m.email, key, ivs.email),
      ivEmail := Repository.OptionalIv(m.email, ivs.email),
      encryptedUsername := OptionalCbc(m.username, key, ivs.user),
      ivUsername := Repository.OptionalIv(m.username, ivs.user),
      encryptedPassword := CbcEncrypt(m.password, key, ivs.pass),
      ivPassword := BytesToBase64(ivs.pass),
      encryptedUrl := OptionalCbc(m.url, key, ivs.url),
      ivUrl := Repository.OptionalIv(m.url, ivs.url),
      encryptedNotes := OptionalCbc(m.notes, key, ivs.notes),
      ivNotes := Repository.OptionalIv(m.notes, ivs.notes),
      lastModified := now)
  }

  /** `safeDecrypt`: "" when the ciphertext or the IV is null, "Error" when the IV is
      not base64 or decryption throws, else whatever AES-CBC yields. */
  function SafeDecrypt(enc: Option<Sealed<string>>, iv: Option<Base64>, key: Key, noise: CbcNoise): (r: string)
    ensures enc.None? || iv.None? ==> r == ""
    ensures enc.Some? && iv.Some? && iv.value.Malformed? ==> r == Repository.DecryptFailed
    ensures (enc.Some? && enc.value.Ciphertext? && iv.Some? && iv.value.Encoded?
             && enc.value == CbcEncrypt(enc.value.plain, key, iv.value.bytes)) ==> r == enc.value.plain
  {
    if enc.None? || iv.None? then ""
    else match Base64ToBytes(iv.value)
      case None => Repository.DecryptFailed
      case Some(ivBytes) =>
        match CbcDecrypt(enc.value, key, ivBytes, noise)
        case None => Repository.DecryptFailed
        case Some(p) => p
  }

  /** `decryptAccount`. */
  function DecryptAccount(row: Account, key: Key, noise: CbcNoise): (m: AccountModel)
    ensures m.id == row.id && m.folderId == row.folderId && m.serviceName == row.serviceName
    ensures row.encryptedUsername.None? || row.ivUsername.None? ==> m.username == ""
    ensures row.encryptedEmail.None? || row.ivEmail.None? ==> m.email == ""
    ensures row.encryptedUrl.None? || row.ivUrl.None? ==> m.url == ""
    ensures row.encryptedNotes.None? || row.ivNotes.None? ==> m.notes == ""
    ensures row.ivPassword.Malformed? ==> m.password == Repository.DecryptFailed
    ensures row.ivPassword.Encoded? && row.encryptedPassword.Ciphertext?
            && row.encryptedPassword == CbcEncrypt(row.encryptedPassword.plain, key, row.ivPassword.bytes)
            ==> m.password == row.encryptedPassword.plain
  {
    AccountModel(
      id := row.id,
      folderId := row.folderId,
      serviceName := row.serviceName,
      username := SafeDecrypt(row.encryptedUsername, row.ivUsername, key, noise),
      email := SafeDecrypt(row.encryptedEmail, row.ivEmail, key, noise),
      password := SafeDecrypt(Some(row.encryptedPassword), Some(row.ivPassword), key, noise),
      url := SafeDecrypt(row.encryptedUrl, row.ivUrl, key, noise),
      notes := SafeDecrypt(row.encryptedNotes, row.ivNotes, key, noise))
  }

  function DecryptAll(rows: seq<Account>, key: Key, noise: CbcNoise): seq<AccountModel>
  {
    seq(|rows|, i requires 0 <= i < |rows| => DecryptAccount(rows[i], key, noise))
  }

  lemma DecryptAllExtend(rows: seq<Account>, i: nat, key: Key, noise: CbcNoise)
    requires i < |rows|
    ensures DecryptAll(rows[..i], key, noise) + [DecryptAccount(rows[i], key, noise)]
            == DecryptAll(rows[..i + 1], key, noise)
  {
    var a := DecryptAll(rows[..i], key, noise) + [DecryptAccount(rows[i], key, noise)];
    var b := DecryptAll(rows[..i + 1], key, noise);
    assert |a| == |b|;
    forall j | 0 <= j < |a| ensures a[j] == b[j] {
      if j < i {
        assert rows[..i][j] == rows[..i + 1][j];
      }
    }
  }

  /** With the older code every field round-trips, the empty password included:
      AES-CBC with padding encrypts the empty text like any other. Whatever the
      noise, since only the matching key and IV are used. */
  lemma DecryptBuiltRow(m: AccountModel, key: Key, ivs: CbcIvs, now: int, noise: CbcNoise)
    ensures DecryptAccount(BuildRow(m, key, ivs, now), key, noise) == m
  {
  }

  /** A row saved without a session is readable by anyone who knows the default
      development password: the key depends on nothing secret or random. */
  lemma DevKeyRowsReadableByAnyone(m: AccountModel, ivs: CbcIvs, now: int, noise: CbcNoise)
    ensures DecryptAccount(BuildRow(m, DevKey(DefaultDevKeyPass), ivs, now),
                           LegacyDeriveKey("123456", ZeroSalt), noise) == m
  {
    DecryptBuiltRow(m, DevKey(DefaultDevKeyPass), ivs, now, noise);
  }

  /** AES-CBC is not authenticated: under a wrong key the password may read back as
      any text at all, with no "Error" to tell the user. */
  lemma WrongKeyMayReadGarbage(m: AccountModel, key: Key, other: Key, ivs: CbcIvs, now: int, forged: string)
    requires other != key
    ensures exists noise: CbcNoise :: DecryptAccount(BuildRow(m, key, ivs, now), other, noise).password == forged
  {
    var noise: CbcNoise := (c, k, v) => Some(forged);
    assert DecryptAccount(BuildRow(m, key, ivs, now), other, noise).password == forged;
  }

  /** The session state after `n` reads at the same instant. */
  function ReadsAt(s: SessionState, now: int, n: nat): SessionState
    decreases n
  {
    if n == 0 then s else Read(ReadsAt(s, now, n - 1), now).1
  }

  /** Repeated reads at one instant after the first agree with it: if it found a
      live key the state no longer moves, and if it found none no later read finds one. */
  lemma {:induction false} ReadsAtSettle(s: SessionState, now: int, n: nat)
    requires n >= 1
    ensures ReadsAt(s, now, n).key == Read(s, now).0
    ensures Read(s, now).0.Some? ==> ReadsAt(s, now, n) == Read(s, now).1
    decreases n
  {
    if n > 1 {
      ReadsAtSettle(s, now, n - 1);
    }
  }

  /** The `n + 1`-th read at one instant returns what the first returned. */
  lemma ReadsAgree(s: SessionState, now: int, n: nat)
    ensures Read(ReadsAt(s, now, n), now).0 == Read(s, now).0
  {
    if n >= 1 {
      ReadsAtSettle(s, now, n);
    }
  }

  /** The older `PasswordRepositoryImpl`. `devKeyPass` is `BuildConfig.DEV_KEY_PASS`;
      `noise` is what AES-CBC yields for a wrong key or IV. */
  class LegacyPasswordRepository {
    const db: Database
    const session: SessionManager
    const rng: Entropy
    const devKeyPass: string
    const noise: CbcNoise

    constructor(db: Database, session: SessionManager, rng: Entropy, devKeyPass: string, noise: CbcNoise)
      ensures this.db == db && this.session == session && this.rng == rng
      ensures this.devKeyPass == devKeyPass && this.noise == noise
    {
      this.db := db;
      this.session := session;
      this.rng := rng;
      this.devKeyPass := devKeyPass;
      this.noise := noise;
    }

    /** `getKey`: never fails; the development key when the session has none. */
    method GetKey(now: int) returns (key: Key)
      modifies session
      ensures session.State() == Read(old(session.State()), now).1
      ensures key == KeyOrDevKey(Read(old(session.State()), now).0, DevKey(devKeyPass))
    {
      var k := session.GetKey(now);
      key := KeyOrDevKey(k, DevKey(devKeyPass));
    }

    /** `getAccounts(null)` lists only the accounts WITHOUT a folder (the current
        code lists every account); `getAccounts(f)` those of folder `f`. */
    function Listing(folderId: Option<int>): (rows: seq<Account>)
      requires db.Valid()
      reads db
    {
      match folderId
      case None => db.AccountsWithoutFolder()
      case Some(f) => db.AccountsForFolder(f)
    }

    lemma ListingIsExact(folderId: Option<int>)
      requires db.Valid()
      ensures forall a :: a in Listing(folderId) ==> a.id in db.accounts && db.accounts[a.id] == a
      ensures forall a :: a in Listing(folderId) ==> a.folderId == folderId
      ensures forall k :: k in db.accounts && db.accounts[k].folderId == folderId
                ==> db.accounts[k] in Listing(folderId)
    {
    }

    /** `getAccounts`: each row decrypted under the key of one `getKey` per row. */
    method GetAccounts(folderId: Option<int>, now: int) returns (r: seq<AccountModel>)
      requires db.Valid()
      modifies session
      ensures r == DecryptAll(Listing(folderId),
                              KeyOrDevKey(Read(old(session.State()), now).0, DevKey(devKeyPass)), noise)
      ensures session.State() == ReadsAt(old(session.State()), now, |Listing(folderId)|)
    {
      var rows := Listing(folderId);
      r := DecryptRows(rows, now);
    }

    /** The `map { decryptAccount(it) }` of a listing. Every row reads the session
        again; all the reads return what the first one did, so every row is
        decrypted under the same key. */
    method DecryptRows(rows: seq<Account>, now: int) returns (r: seq<AccountModel>)
      modifies session
      ensures r == DecryptAll(rows, KeyOrDevKey(Read(old(session.State()), now).0, DevKey(devKeyPass)), noise)
      ensures session.State() == ReadsAt(old(session.State()), now, |rows|)
    {
      ghost var s0 := session.State();
      ghost var key0 := KeyOrDevKey(Read(s0, now).0, DevKey(devKeyPass));
      r := [];
      var i := 0;
      while i < |rows|
        invariant 0 <= i <= |rows|
        invariant session.State() == ReadsAt(s0, now, i)
        invariant r == DecryptAll(rows[..i], key0, noise)
      {
        ReadsAgree(s0, now, i);
        var key := GetKey(now);
        DecryptAllExtend(rows, i, key, noise);
        r := r + [DecryptAccount(rows[i], key, noise)];
        i := i + 1;
      }
      assert rows[..i] == rows;
    }

    /** `getAccountById`: null for an unknown id, else the decrypted row. */
    method GetAccountById(id: int, now: int) returns (r: Option<AccountModel>)
      requires db.Valid()
      modifies session
      ensures id !in db.accounts ==> r == None && session.State() == old(session.State())
      ensures id in db.accounts ==>
                && session.State() == Read(old(session.State()), now).1
                && r == Some(DecryptAccount(db.accounts[id],
                          KeyOrDevKey(Read(old(session.State()), now).0, DevKey(devKeyPass)), noise))
    {
      var entity := db.AccountById(id);
      if entity.None? {
        return None;
      }
      var key := GetKey(now);
      r := Some(DecryptAccount(entity.value, key, noise));
    }

    /** `saveAccount`: never refused; the row is built under the session key or the
        development key, then inserted (id 0) or updated. */
    method SaveAccount(m: AccountModel, now: int) returns (r: Outcome)
      requires db.Valid()
      modifies db, session, rng
      ensures db.Valid()
      ensures session.State() == Read(old(session.State()), now).1
      ensures db.folders == old(db.folders) && db.users == old(db.users)
      ensures rng.draws == old(rng.draws) + 5
      ensures (r, db.accounts) == Repository.SaveEffect(old(db.accounts), old(db.accountSeq), old(db.folders),
                BuildRow(m, KeyOrDevKey(Read(old(session.State()), now).0, DevKey(devKeyPass)),
                         CbcIvsAt(rng, old(rng.draws)), now))
    {
      var key := GetKey(now);
      var ivs := DrawCbcIvs();
      var entity := BuildRow(m, key, ivs, now);
      r := Repository.Store(db, entity);
    }

    /** The five `generateIv` calls of `saveAccount`: username, email, password, URL, notes. */
    method DrawCbcIvs() returns (ivs: CbcIvs)
      modifies rng
      ensures ivs == CbcIvsAt(rng, old(rng.draws)) && rng.draws == old(rng.draws) + 5
    {
      var ivUser := rng.GenerateCbcIv();
      var ivEmail := rng.GenerateCbcIv();
      var ivPass := rng.GenerateCbcIv();
      var ivUrl := rng.GenerateCbcIv();
      var ivNotes := rng.GenerateCbcIv();
      ivs := CbcIvs(ivUser, ivEmail, ivPass, ivUrl, ivNotes);
    }

    /** `deleteAccount`. */
    method DeleteAccount(id: int)
      requires db.Valid()
      modifies db
      ensures db.Valid()
      ensures db.accounts == old(db.accounts) - {id}
      ensures db.folders == old(db.folders) && db.users == old(db.users)
    {
      Repository.DeleteById(db, id);
    }
  }
}

=== FILE: locale.dfy ===
/**
 * The language setting and the locale code it selects (`LocaleManager`).
 */
module Locale {
  import opened Wrappers

  /** The language the user picks in the settings; `System` follows the device. */
  datatype AppLanguage = System | English | Spanish

  /** `getLanguageCode`: the two-letter code of a chosen language, none when the
      device's language is to be kept. */
  function LanguageCode(language: AppLanguage): (r: Option<string>)
    ensures r.None? <==> language == System
    ensures r.Some? ==> |r.value| == 2
    ensures r == Some("en") <==> language == English
    ensures r == Some("es") <==> language == Spanish
  {
    match language
    case English => Some("en")
    case Spanish => Some("es")
    case System => None
  }

  /** Two languages with a code never share it: the code determines the language. */
  lemma LanguageCodeInjective(a: AppLanguage, b: AppLanguage)
    requires LanguageCode(a).Some? && LanguageCode(a) == LanguageCode(b)
    ensures a == b
  {
  }
}

=== FILE: repository.dfy ===
/**
 * `PasswordRepositoryImpl` of the current code: the codec between decrypted
 * accounts and stored rows (AES-GCM, one fresh IV per sensitive field), and
 * the repository operations over the database and the session. Every
 * encryption and decryption needs the live session key; without one the
 * repository throws `IllegalStateException` (it fails closed).
 */
module Repository {
  import opened Wrappers
  import opened Crypto
  import opened Session
  import opened Entities
  import opened Storage
  import opened Collections

  /** The message of the `IllegalStateException` thrown without a session key. */
  const NoSessionMessage := "¡ERROR CRÍTICO! Intento de acceso a datos sin sesión activa."

  /** What a field that fails to decrypt reads back as. */
  const DecryptFailed := "Error"

  /** The exception `getKey` throws when the session holds no key. */
  const NoSession := IllegalStateException(NoSessionMessage)

  /** `getKey`'s result for what the session returned. */
  function KeyOrThrow(k: Option<Key>): (r: Result<Key>)
    ensures r.Ok? <==> k.Some?
    ensures k.Some? ==> r.value == k.value
    ensures k.None? ==> r.error == NoSession
  {
    match k
    case Some(key) => Ok(key)
    case None => Failure(NoSession)
  }

  // ---- The field codec ----

  /** The local `encryptField`: "" for an empty text, otherwise the AES-GCM ciphertext. */
  function EncryptField(text: string, key: Key, iv: Bytes): (c: Sealed<string>)
    ensures text == "" ==> c == Opaque("")
    ensures text != "" ==> Decrypt(c, key, iv) == Some(text)
    ensures forall k, v :: (k, v) != (key, iv) ==> Decrypt(c, k, v) == None
  {
    if text == "" then Opaque("") else Encrypt(text, key, iv)
  }

  /** The IVs one save draws, in the order they are drawn. */
  datatype FieldIvs = FieldIvs(user: GcmIv, email: GcmIv, pass: GcmIv, url: GcmIv, notes: GcmIv)

  /** A nullable ciphertext/IV pair: (null, null) exactly when the text is empty. */
  predicate PairFollowsText(text: string, enc: Option<Sealed<string>>, iv: Option<Base64>)
  {
    (text == "" ==> enc.None? && iv.None?) && (text != "" ==> enc.Some? && iv.Some?)
  }

  /** An optional field: absent when empty, else its ciphertext and its IV in base64. */
  function OptionalCiphertext(text: string, key: Key, iv: Bytes): (r: Option<Sealed<string>>)
  {
    if text != "" then Some(EncryptField(text, key, iv)) else None
  }

  function OptionalIv(text: string, iv: Bytes): (r: Option<Base64>)
  {
    if text != "" then Some(BytesToBase64(iv)) else None
  }

  /** A stored text that, if it was made by encryption at all, was made with `key`. */
  predicate FieldSealedUnder(c: Sealed<string>, key: Key)
  {
    c.Ciphertext? ==> c.key == key
  }

  /** Every ciphertext a row holds was made with `key`. */
  predicate SealedUnder(row: Account, key: Key)
  {
    && (row.encryptedUsername.Some? ==> FieldSealedUnder(row.encryptedUsername.value, key))
    && (row.encryptedEmail.Some? ==> FieldSealedUnder(row.encryptedEmail.value, key))
    && FieldSealedUnder(row.encryptedPassword, key)
    && (row.encryptedUrl.Some? ==> FieldSealedUnder(row.encryptedUrl.value, key))
    && (row.encryptedNotes.Some? ==> FieldSealedUnder(row.encryptedNotes.value, key))
  }

  /** The `Account` row `saveAccount` builds from a model, the key and the drawn IVs. */
  function BuildRow(m: AccountModel, key: Key, ivs: FieldIvs, now: int): (r: Account)
    ensures r.id == m.id && r.folderId == m.folderId && r.serviceName == m.serviceName
    ensures r.lastModified == now
    ensures PairFollowsText(m.username, r.encryptedUsername, r.ivUsername)
    ensures PairFollowsText(m.email, r.encryptedEmail, r.ivEmail)
    ensures PairFollowsText(m.url, r.encryptedUrl, r.ivUrl)
    ensures PairFollowsText(m.notes, r.encryptedNotes, r.ivNotes)
    ensures r.ivPassword == BytesToBase64(ivs.pass)
    ensures m.password == "" <==> r.encryptedPassword == Opaque("")
    ensures SealedUnder(r, key)
  {
    Account(
      id := m.id,
      folderId := m.folderId,
      serviceName := m.serviceName,
      encryptedEmail := OptionalCiphertext(m.email, key, ivs.email),
      ivEmail := OptionalIv(m.email, ivs.email),
      encryptedUsername := OptionalCiphertext(m.username, key, ivs.user),
      ivUsername := OptionalIv(m.username, ivs.user),
      encryptedPassword := EncryptField(m.password, key, ivs.pass),
      ivPassword := BytesToBase64(ivs.pass),
      encryptedUrl := OptionalCiphertext(m.url, key, ivs.url),
      ivUrl := OptionalIv(m.url, ivs.url),
      encryptedNotes := OptionalCiphertext(m.notes, key, ivs.notes),
      ivNotes := OptionalIv(m.notes, ivs.notes),
      lastModified := now)
  }

  /** `safeDecrypt`: "" when the ciphertext or the IV is null, "Error" when the IV is
      not base64 or decryption fails, else the plaintext. */
  function SafeDecrypt(enc: Option<Sealed<string>>, iv: Option<Base64>, key: Key): (r: string)
    ensures enc.None? || iv.None? ==> r == ""
    ensures r != "" && r != DecryptFailed ==>
              enc.Some? && enc.value.Ciphertext? && enc.value.key == key && enc.value.plain == r
    ensures enc.Some? && iv.Some? && Base64ToBytes(iv.value).None? ==> r == DecryptFailed
    ensures enc.Some? && iv.Some? && Base64ToBytes(iv.value).Some? ==>
              match Decrypt(enc.value, key, Base64ToBytes(iv.value).value)
              case None => r == DecryptFailed
              case Some(p) => r == p
  {
    if enc.None? || iv.None? then ""
    else match Base64ToBytes(iv.value)
      case None => DecryptFailed
      case Some(ivBytes) =>
        match Decrypt(enc.value, key, ivBytes)
        case None => DecryptFailed
        case Some(p) => p
  }

  /** A decrypted field shows text only when its column holds that text sealed
      under this key; anything else reads as "" or "Error". */
  predicate ShownOnlyUnder(text: string, enc: Option<Sealed<string>>, key: Key)
  {
    text != "" && text != DecryptFailed ==>
      enc.Some? && enc.value.Ciphertext? && enc.value.key == key && enc.value.plain == text
  }

  /** `decryptAccount`: id, folder and service name copied, the five fields decrypted
      one by one. */
  function DecryptAccount(row: Account, key: Key): (m: AccountModel)
    ensures m.id == row.id && m.folderId == row.folderId && m.serviceName == row.serviceName
    ensures row.encryptedUsername.None? || row.ivUsername.None? ==> m.username == ""
    ensures row.encryptedEmail.None? || row.ivEmail.None? ==> m.email == ""
    ensures row.encryptedUrl.None? || row.ivUrl.None? ==> m.url == ""
    ensures row.encryptedNotes.None? || row.ivNotes.None? ==> m.notes == ""
    ensures ShownOnlyUnder(m.username, row.encryptedUsername, key) && ShownOnlyUnder(m.email, row.encryptedEmail, key)
    ensures ShownOnlyUnder(m.password, Some(row.encryptedPassword), key)
    ensures ShownOnlyUnder(m.url, row.encryptedUrl, key) && ShownOnlyUnder(m.notes, row.encryptedNotes, key)
  {
    AccountModel(
      id := row.id,
      folderId := row.folderId,
      serviceName := row.serviceName,
      username := SafeDecrypt(row.encryptedUsername, row.ivUsername, key),
      email := SafeDecrypt(row.encryptedEmail, row.ivEmail, key),
      password := SafeDecrypt(Some(row.encryptedPassword), Some(row.ivPassword), key),
      url := SafeDecrypt(row.encryptedUrl, row.ivUrl, key),
      notes := SafeDecrypt(row.encryptedNotes, row.ivNotes, key))
  }

  /** The rows of a listing, each decrypted under the same key. */
  function DecryptAll(rows: seq<Account>, key: Key): seq<AccountModel>
  {
    seq(|rows|, i requires 0 <= i < |rows| => DecryptAccount(rows[i], key))
  }

  /** Decrypting one more row extends the decrypted listing by that row. */
  lemma DecryptAllExtend(rows: seq<Account>, i: nat, key: Key)
    requires i < |rows|
    ensures DecryptAll(rows[..i], key) + [DecryptAccount(rows[i], key)] == DecryptAll(rows[..i + 1], key)
  {
    var a := DecryptAll(rows[..i], key) + [DecryptAccount(rows[i], key)];
    var b := DecryptAll(rows[..i + 1], key);
    assert |a| == |b|;
    forall j | 0 <= j < |a| ensures a[j] == b[j] {
      if j < i {
        assert rows[..i][j] == rows[..i + 1][j];
      }
    }
  }

  // ---- Properties of the codec ----

  /** Reading back a saved row under the same key gives the model back, except that
      an empty password reads back as "Error" (see `EmptyPasswordReadsBackAsError`). */
  lemma DecryptBuiltRow(m: AccountModel, key: Key, ivs: FieldIvs, now: int)
    requires m.password != ""
    ensures DecryptAccount(BuildRow(m, key, ivs, now), key) == m
  {
  }

  /** The one field that does not round-trip: an empty password is stored as the
      ciphertext "", which is not a valid AES-GCM ciphertext. */
  lemma EmptyPasswordReadsBackAsError(m: AccountModel, key: Key, ivs: FieldIvs, now: int)
    requires m.password == ""
    ensures DecryptAccount(BuildRow(m, key, ivs, now), key) == m.(password := DecryptFailed)
  {
  }

  /** Under any other key every stored field reads back as "Error" and every empty
      optional field as "": nothing encrypted under one key is readable under another. */
  lemma DecryptUnderOtherKey(m: AccountModel, key: Key, other: Key, ivs: FieldIvs, now: int)
    requires other != key
    ensures var d := DecryptAccount(BuildRow(m, key, ivs, now), other);
      && d.id == m.id && d.folderId == m.folderId && d.serviceName == m.serviceName
      && d.password == DecryptFailed
      && d.username == (if m.username == "" then "" else DecryptFailed)
      && d.email == (if m.email == "" then "" else DecryptFailed)
      && d.url == (if m.url == "" then "" else DecryptFailed)
      && d.notes == (if m.notes == "" then "" else DecryptFailed)
  {
  }

  /** A row sealed under one key reads back, under any other key, as nothing but ""
      and "Error": the five text fields of an account never leak across keys. */
  lemma SealedRowUnreadableUnderOtherKey(row: Account, key: Key, other: Key)
    requires SealedUnder(row, key) && other != key
    ensures var d := DecryptAccount(row, other);
      && d.username in {"", DecryptFailed} && d.email in {"", DecryptFailed}
      && d.password in {"", DecryptFailed} && d.url in {"", DecryptFailed} && d.notes in {"", DecryptFailed}
  {
  }

  /** One field's stored pair affects that field only: replacing the email pair of a
      row (by a damaged one, say) changes the decrypted email and nothing else. The
      same holds for each of the five fields, by the same argument. */
  lemma FieldsDecryptIndependently(row: Account, key: Key, enc: Option<Sealed<string>>, iv: Option<Base64>)
    ensures DecryptAccount(row.(encryptedEmail := enc, ivEmail := iv), key)
            == DecryptAccount(row, key).(email := SafeDecrypt(enc, iv, key))
    ensures DecryptAccount(row.(encryptedUsername := enc, ivUsername := iv), key)
            == DecryptAccount(row, key).(username := SafeDecrypt(enc, iv, key))
    ensures DecryptAccount(row.(encryptedUrl := enc, ivUrl := iv), key)
            == DecryptAccount(row, key).(url := SafeDecrypt(enc, iv, key))
    ensures DecryptAccount(row.(encryptedNotes := enc, ivNotes := iv), key)
            == DecryptAccount(row, key).(notes := SafeDecrypt(enc, iv, key))
  {
  }

  /** The IVs drawn from `rng` starting at position `start`, in draw order. */
  function IvsAt(rng: Entropy, start: nat): FieldIvs
  {
    FieldIvs(rng.gcmIvs(start), rng.gcmIvs(start + 1), rng.gcmIvs(start + 2),
             rng.gcmIvs(start + 3), rng.gcmIvs(start + 4))
  }

  /** With fresh randomness, the five IVs of one save are pairwise distinct. */
  lemma SaveIvsDistinct(rng: Entropy, start: nat)
    requires rng.Fresh()
    ensures var v := IvsAt(rng, start);
      && v.user != v.email && v.user != v.pass && v.user != v.url && v.user != v.notes
      && v.email != v.pass && v.email != v.url && v.email != v.notes
      && v.pass != v.url && v.pass != v.notes && v.url != v.notes
  {
  }

  /** What saving a built row does to the accounts table, given the AUTOINCREMENT
      counter and the folders: an `Unsaved` row is inserted under a fresh id, any
      other row replaces the row with its id if there is one; a row naming a missing
      folder fails the foreign key and changes nothing. */
  function SaveEffect(accounts: map<int, Account>, counter: int, folders: map<int, Folder>, row: Account)
    : (r: (Outcome, map<int, Account>))
    ensures var missingFolder := row.folderId.Some? && row.folderId.value !in folders;
            r.0.Fail? <==> missingFolder && (row.id == Unsaved || row.id in accounts)
    ensures r.0.Fail? ==> r.1 == accounts
    ensures r.0.Pass? && row.id == Unsaved ==>
              counter + 1 in r.1 && r.1[counter + 1] == row.(id := counter + 1) && r.1.Keys == accounts.Keys + {counter + 1}
    ensures r.0.Pass? && row.id != Unsaved ==>
              r.1 == if row.id in accounts then accounts[row.id := row] else accounts
  {
    var folderOk := row.folderId.None? || row.folderId.value in folders;
    if row.id == Unsaved then
      if folderOk then (Pass, accounts[counter + 1 := row.(id := counter + 1)])
      else (Fail(SQLiteConstraintException(ForeignKeyFailed)), accounts)
    else if row.id !in accounts then (Pass, accounts)
    else if folderOk then (Pass, accounts[row.id := row])
    else (Fail(SQLiteConstraintException(ForeignKeyFailed)), accounts)
  }

  /** Saving never deletes a row and changes at most the row it is about: every other
      row is kept as it was. A new row gets an id no existing row has. */
  lemma SaveEffectIsLocal(accounts: map<int, Account>, counter: int, folders: map<int, Folder>, row: Account)
    requires forall k :: k in accounts ==> k <= counter
    ensures var (_, after) := SaveEffect(accounts, counter, folders, row);
      && accounts.Keys <= after.Keys
      && (row.id == Unsaved ==> counter + 1 !in accounts && after.Keys <= accounts.Keys + {counter + 1})
      && (row.id != Unsaved ==> after.Keys == accounts.Keys)
      && forall k :: k in accounts && k != row.id && k != counter + 1 ==> after[k] == accounts[k]
  {
  }

  /** The last step of `saveAccount`: `insert` when the id is 0, else `update`. */
  method Store(db: Database, row: Account) returns (r: Outcome)
    requires db.Valid()
    modifies db
    ensures db.Valid()
    ensures db.folders == old(db.folders) && db.users == old(db.users)
    ensures (r, db.accounts) == SaveEffect(old(db.accounts), old(db.accountSeq), old(db.folders), row)
    ensures db.accountSeq == if row.id == Unsaved && r.Pass? then old(db.accountSeq) + 1 else old(db.accountSeq)
  {
    if row.id == Unsaved {
      var inserted := db.InsertAccount(row);
      r := if inserted.Ok? then Pass else Fail(inserted.error);
    } else {
      r := db.UpdateAccount(row);
    }
  }

  /** `deleteAccount` (both repositories): removes the row with that id if there is
      one; needs no key. */
  method DeleteById(db: Database, id: int)
    requires db.Valid()
    modifies db
    ensures db.Valid()
    ensures db.accounts == old(db.accounts) - {id}
    ensures db.folders == old(db.folders) && db.users == old(db.users)
  {
    var entity := db.AccountById(id);
    if entity.Some? {
      db.DeleteAccount(entity.value);
    }
  }

  /** The result of a listing: with no rows no key is needed; otherwise the session
      must yield a key, under which every row is decrypted. */
  function ListResult(rows: seq<Account>, s: SessionState, now: int): Result<seq<AccountModel>>
  {
    if rows == [] then Ok([])
    else match Read(s, now).0
      case None => Failure(NoSession)
      case Some(k) => Ok(DecryptAll(rows, k))
  }

  /** `PasswordRepositoryImpl` over its database, the session and the randomness source. */
  class PasswordRepository {
    const db: Database
    const session: SessionManager
    const rng: Entropy

    constructor(db: Database, session: SessionManager, rng: Entropy)
      ensures this.db == db && this.session == session && this.rng == rng
    {
      this.db := db;
      this.session := session;
      this.rng := rng;
    }

    /** `getKey`: the session key, or `IllegalStateException`; there is no fallback. */
    method GetKey(now: int) returns (r: Result<Key>)
      modifies session
      ensures session.State() == Read(old(session.State()), now).1
      ensures r == KeyOrThrow(Read(old(session.State()), now).0)
    {
      var k := session.GetKey(now);
      r := KeyOrThrow(k);
    }

    /** The rows `getAccounts` lists: every account when no folder is given (sorted by
        service name), else the accounts of that folder. */
    function Listing(folderId: Option<int>): (rows: seq<Account>)
      requires db.Valid()
      reads db
    {
      match folderId
      case None => db.AllAccounts()
      case Some(f) => db.AccountsForFolder(f)
    }

    /** `getAccounts(null)` lists every account; `getAccounts(f)` exactly the accounts
        of folder `f`; every listed row is a stored row. */
    lemma ListingIsExact(folderId: Option<int>)
      requires db.Valid()
      ensures forall a :: a in Listing(folderId) ==> a.id in db.accounts && db.accounts[a.id] == a
      ensures folderId.Some? ==> forall a :: a in Listing(folderId) ==> a.folderId == folderId
      ensures forall k :: k in db.accounts && (folderId.None? || db.accounts[k].folderId == folderId)
                ==> db.accounts[k] in Listing(folderId)
    {
    }

    /** `getAccounts`: the listing, each row decrypted (see `DecryptRows`). */
    method GetAccounts(folderId: Option<int>, now: int) returns (r: Result<seq<AccountModel>>)
      requires db.Valid()
      modifies session
      ensures r == ListResult(Listing(folderId), old(session.State()), now)
      ensures session.State() ==
                if Listing(folderId) == [] then old(session.State()) else Read(old(session.State()), now).1
    {
      var rows := Listing(folderId);
      r := DecryptRows(rows, now);
    }

    /** The `map { decryptAccount(it) }` of a listing: each row fetches the key from the
        session again, so a session without a key fails on the first row. */
    method DecryptRows(rows: seq<Account>, now: int) returns (r: Result<seq<AccountModel>>)
      modifies session
      ensures r == ListResult(rows, old(session.State()), now)
      ensures session.State() == if rows == [] then old(session.State()) else Read(old(session.State()), now).1
    {
      ghost var s0 := session.State();
      ghost var first := Read(s0, now);
      var out: seq<AccountModel> := [];
      var i := 0;
      while i < |rows|
        invariant 0 <= i <= |rows|
        invariant i == 0 ==> session.State() == s0 && out == []
        invariant i > 0 ==> first.0.Some? && session.State() == first.1
        invariant i > 0 ==> out == DecryptAll(rows[..i], first.0.value)
      {
        if i > 0 {
          ReadTwiceSameInstant(s0, now);
        }
        var key := GetKey(now);
        if key.Failure? {
          return Failure(key.error);
        }
        DecryptAllExtend(rows, i, key.value);
        out := out + [DecryptAccount(rows[i], key.value)];
        i := i + 1;
      }
      assert rows[..i] == rows;
      r := Ok(out);
    }

    /** `getAccountById`: null for an unknown id (no key needed), else the decrypted row. */
    method GetAccountById(id: int, now: int) returns (r: Result<Option<AccountModel>>)
      requires db.Valid()
      modifies session
      ensures id !in db.accounts ==> r == Ok(None) && session.State() == old(session.State())
      ensures id in db.accounts ==>
                && session.State() == Read(old(session.State()), now).1
                && r == match Read(old(session.State()), now).0
                        case None => Failure(NoSession)
                        case Some(k) => Ok(Some(DecryptAccount(db.accounts[id], k)))
    {
      var entity := db.AccountById(id);
      if entity.None? {
        return Ok(None);
      }
      var key := GetKey(now);
      if key.Failure? {
        return Failure(key.error);
      }
      r := Ok(Some(DecryptAccount(entity.value, key.value)));
    }

    /** `saveAccount`: fetch the key (or throw), draw five IVs, build the row, then
        insert it when the id is 0 and update it otherwise. */
    method SaveAccount(m: AccountModel, now: int) returns (r: Outcome)
      requires db.Valid()
      modifies db, session, rng
      ensures db.Valid()
      ensures session.State() == Read(old(session.State()), now).1
      ensures db.folders == old(db.folders) && db.users == old(db.users)
      ensures Read(old(session.State()), now).0.None? ==>
                r == Fail(NoSession) && db.accounts == old(db.accounts) && rng.draws == old(rng.draws)
                && db.accountSeq == old(db.accountSeq)
      ensures Read(old(session.State()), now).0.Some? ==>
                && rng.draws == old(rng.draws) + 5
                && (r, db.accounts) == SaveEffect(old(db.accounts), old(db.accountSeq), old(db.folders),
                     BuildRow(m, Read(old(session.State()), now).0.value, IvsAt(rng, old(rng.draws)), now))
                && db.accountSeq == if m.id == Unsaved && r.Pass? then old(db.accountSeq) + 1 else old(db.accountSeq)
    {
      var key := GetKey(now);
      if key.Failure? {
        return Fail(key.error);
      }
      var ivs := DrawFieldIvs();
      var entity := BuildRow(m, key.value, ivs, now);
      r := Store(db, entity);
    }

    /** The five `generateIv` calls of `saveAccount`, in order: username, email,
        password, URL, notes. */
    method DrawFieldIvs() returns (ivs: FieldIvs)
      modifies rng
      ensures ivs == IvsAt(rng, old(rng.draws)) && rng.draws == old(rng.draws) + 5
    {
      var ivUser := rng.GenerateIv();
      var ivEmail := rng.GenerateIv();
      var ivPass := rng.GenerateIv();
      var ivUrl := rng.GenerateIv();
      var ivNotes := rng.GenerateIv();
      ivs := FieldIvs(ivUser, ivEmail, ivPass, ivUrl, ivNotes);
    }

    /** `deleteAccount`: removes the row with that id if there is one; needs no key. */
    method DeleteAccount(id: int)
      requires db.Valid()
      modifies db
      ensures db.Valid()
      ensures db.accounts == old(db.accounts) - {id}
      ensures db.folders == old(db.folders) && db.users == old(db.users)
    {
      DeleteById(db, id);
    }

    /** `getAllFolders`. */
    function AllFolders(): (r: seq<Folder>)
      requires db.Valid()
      reads db
      ensures |r| == |db.folders|
      ensures forall k :: k in db.folders ==> db.folders[k] in r
      ensures forall f :: f in r ==> f.id in db.folders && db.folders[f.id] == f
      ensures SortedBy(r, FolderName)
      ensures TiesById(r, FolderName, FolderId)
    {
      db.AllFolders()
    }

    /** `insertFolder`. */
    method InsertFolder(f: Folder) returns (id: int)
      requires db.Valid()
      modifies db
      ensures db.Valid()
      ensures db.accounts == old(db.accounts) && db.accountSeq == old(db.accountSeq) && db.users == old(db.users)
      ensures f.id != Unsaved && f.id in old(db.folders) ==> id == -1 && db.folders == old(db.folders)
      ensures !(f.id != Unsaved && f.id in old(db.folders)) ==>
                id !in old(db.folders) && db.folders == old(db.folders)[id := f.(id := id)]
    {
      id := db.InsertFolder(f);
    }

    /** `deleteFolder`: the folder goes; its accounts stay, without a folder. */
    method DeleteFolder(f: Folder)
      requires db.Valid()
      modifies db
      ensures db.Valid()
      ensures db.folders == old(db.folders) - {f.id}
      ensures db.accounts.Keys == old(db.accounts).Keys
      ensures forall k :: k in db.accounts ==>
                db.accounts[k] == if old(db.accounts)[k].folderId == Some(f.id)
                                  then old(db.accounts)[k].(folderId := None)
                                  else old(db.accounts)[k]
      ensures db.users == old(db.users)
    {
      db.DeleteFolder(f);
    }
  }
}

=== FILE: session.dfy ===
/**
 * `SessionManager`: the in-memory holder of the master key. The key lives until
 * it is cleared or until it goes unread for more than three days; every read
 * inside that window slides the window forward. The wall clock is the `now`
 * parameter of each operation.
 */
module Session {
  import opened Wrappers
  import opened Crypto

  /** `SESSION_TIMEOUT_MS`: three days in milliseconds. */
  const SessionTimeoutMs: int := 3 * 24 * 60 * 60 * 1000

  /** The two fields of the holder. */
  datatype SessionState = SessionState(key: Option<Key>, lastActivity: int)

  /** At start-up and after `clearSession`: no key, last activity 0. */
  const Initial := SessionState(None, 0)

  /** `isSessionExpired`: strictly more than the timeout since the last activity. */
  predicate Expired(s: SessionState, now: int)
    ensures Expired(s, now) <==> now > s.lastActivity + 259_200_000
    ensures now <= s.lastActivity ==> !Expired(s, now)
  {
    now - s.lastActivity > SessionTimeoutMs
  }

  /** The state `setKey(key)` leaves at time `now`. */
  function WithKey(key: Key, now: int): SessionState
  {
    SessionState(Some(key), now)
  }

  /** `getKey` at time `now`: what it returns and the state it leaves. */
  function Read(s: SessionState, now: int): (r: (Option<Key>, SessionState))
    ensures r.0 == r.1.key
    ensures r.0.Some? ==> r.0 == s.key && r.1 == s.(lastActivity := now)
    ensures r.0.None? ==> r.1 == Initial || (s.key.None? && r.1.lastActivity == now)
    ensures Expired(s, now) ==> r.0.None? && r.1 == Initial
  {
    if Expired(s, now) then (None, Initial)
    else (s.key, s.(lastActivity := now))
  }

  /** `getKey` at each of the given times in turn: the keys returned, and the final state. */
  function ReadAll(s: SessionState, times: seq<int>): (r: (seq<Option<Key>>, SessionState))
    ensures |r.0| == |times|
    decreases |times|
  {
    if times == [] then ([], s)
    else
      var (k, s') := Read(s, times[0]);
      var (ks, s'') := ReadAll(s', times[1..]);
      ([k] + ks, s'')
  }

  /** Before any `setKey`, `getKey` returns null whatever the time. */
  lemma InitialReadIsNull(now: int)
    ensures Read(Initial, now).0 == None
    ensures Read(Initial, now).1.key == None
  {
  }

  /** The sliding window: a read within the timeout of the last activity returns the
      key and moves the last activity to the time of the read. */
  lemma ReadWithinWindow(s: SessionState, now: int)
    requires now - s.lastActivity <= SessionTimeoutMs
    ensures Read(s, now) == (s.key, SessionState(s.key, now))
  {
  }

  /** After `setKey(k)` at `t`, a read at `t'` no later than `t + timeout` returns `k`. */
  lemma KeyReadableAfterSet(k: Key, t: int, t': int)
    requires t' - t <= SessionTimeoutMs
    ensures Read(WithKey(k, t), t') == (Some(k), WithKey(k, t'))
  {
  }

  /** Expiry is strict: exactly the timeout after the last activity the key is still
      there; one millisecond later it is gone and the state is the initial one. */
  lemma ExpiryIsStrict(s: SessionState)
    ensures Read(s, s.lastActivity + SessionTimeoutMs) == (s.key, s.(lastActivity := s.lastActivity + SessionTimeoutMs))
    ensures Read(s, s.lastActivity + SessionTimeoutMs + 1) == (None, Initial)
  {
  }

  /** Two reads at the same instant agree, unless the first one expired the session:
      a repeated `getKey` inside one operation sees the same key. */
  lemma ReadTwiceSameInstant(s: SessionState, now: int)
    requires !Expired(s, now)
    ensures Read(Read(s, now).1, now) == Read(s, now)
  {
  }

  /** With no key held, reads return null forever, at any times: an expired session
      stays cleared until the next `setKey`. */
  lemma {:induction false} NoKeyStaysNoKey(s: SessionState, times: seq<int>)
    requires s.key == None
    ensures forall i :: 0 <= i < |times| ==> ReadAll(s, times).0[i] == None
    ensures ReadAll(s, times).1.key == None
    decreases |times|
  {
    if times != [] {
      var (k, s') := Read(s, times[0]);
      NoKeyStaysNoKey(s', times[1..]);
    }
  }

  /** After an expired read, every later read returns null. */
  lemma ExpiredStaysCleared(s: SessionState, now: int, later: seq<int>)
    requires Expired(s, now)
    ensures forall i :: 0 <= i < |later| ==> ReadAll(Read(s, now).1, later).0[i] == None
  {
    NoKeyStaysNoKey(Initial, later);
  }

  /** Times at which each read comes within the timeout of the one before. */
  predicate Active(start: int, times: seq<int>)
  {
    (|times| > 0 ==> times[0] - start <= SessionTimeoutMs)
    && forall i :: 0 < i < |times| ==> times[i] - times[i - 1] <= SessionTimeoutMs
  }

  /** A key that is used at least once every three days is never lost. */
  lemma {:induction false} ActiveUseKeepsKey(k: Key, t: int, times: seq<int>)
    requires Active(t, times)
    ensures forall i :: 0 <= i < |times| ==> ReadAll(WithKey(k, t), times).0[i] == Some(k)
    ensures times != [] ==> ReadAll(WithKey(k, t), times).1 == WithKey(k, times[|times| - 1])
    decreases |times|
  {
    if times != [] {
      assert Read(WithKey(k, t), times[0]) == (Some(k), WithKey(k, times[0]));
      assert Active(times[0], times[1..]) by {
        forall i | 0 < i < |times[1..]|
          ensures times[1..][i] - times[1..][i - 1] <= SessionTimeoutMs
        {
          assert times[1..][i] == times[i + 1] && times[1..][i - 1] == times[i];
        }
      }
      ActiveUseKeepsKey(k, times[0], times[1..]);
    }
  }

  /** `SessionManager`, with its two private fields. */
  class SessionManager {
    var encryptionKey: Option<Key>
    var lastActivityTime: int

    function State(): SessionState
      reads this
    {
      SessionState(encryptionKey, lastActivityTime)
    }

    constructor()
      ensures State() == Initial
    {
      encryptionKey := None;
      lastActivityTime := 0;
    }

    /** `setKey`: stores the key and records the time as the last activity. */
    method SetKey(key: Key, now: int)
      modifies this
      ensures State() == WithKey(key, now)
    {
      encryptionKey := Some(key);
      lastActivityTime := now;
    }

    /** `getKey`: clears an expired session and returns null, otherwise refreshes
        the last activity and returns the key held. */
    method GetKey(now: int) returns (key: Option<Key>)
      modifies this
      ensures (key, State()) == Read(old(State()), now)
    {
      if now - lastActivityTime > SessionTimeoutMs {
        ClearSession();
        return None;
      }
      lastActivityTime := now;
      key := encryptionKey;
    }

    /** `clearSession`: whatever the state, back to no key and activity 0. */
    method ClearSession()
      modifies this
      ensures State() == Initial
    {
      encryptionKey := None;
      lastActivityTime := 0;
    }

    /** `isUserLoggedIn`: `getKey() != null`, with the same refresh or clear. */
    method IsUserLoggedIn(now: int) returns (loggedIn: bool)
      modifies this
      ensures loggedIn <==> Read(old(State()), now).0.Some?
      ensures State() == Read(old(State()), now).1
    {
      var key := GetKey(now);
      loggedIn := key.Some?;
    }
  }
}

=== FILE: settings.dfy ===
/**
 * The backup half of `SettingsViewModel`: export gated on re-entering the master
 * password, import, and the state the settings screen shows for them.
 *
 * The document at the export URI is modelled by what it holds: the empty file
 * the picker created, the container written to it, or nothing once deleted.
 * Whether the output stream opens, is missing (`openOutputStream` returned null)
 * or fails while writing is a parameter of the export.
 */
module Settings {
  import opened Wrappers
  import opened Crypto
  import opened Session
  import opened Entities
  import opened Storage
  import opened Repository
  import opened BackupModels
  import opened Backup
  import Auth

  datatype BackupState = Idle | Loading | Success(msg: string) | Error(msg: string)

  const ExportDoneMessage := "Exportación completada y cifrada con tu Contraseña Maestra."
  const WriteErrorMessage := "Error al escribir el archivo."
  const WrongMasterPasswordMessage := "Contraseña incorrecta. Debes usar tu Contraseña Maestra actual."
  const ImportDoneMessage := "Importación exitosa"
  const ImportFailedMessage := "Contraseña del archivo incorrecta o archivo dañado."

  /** The document at the export URI. */
  datatype Document = Created | Written(content: FileText) | Deleted

  /** What `openOutputStream(uri)` gives: a stream that takes the write, null, or a
      stream whose write throws. */
  datatype OutputStream = StreamOk | StreamNull | StreamThrows

  /** `verifyMasterPassword`: false without a user; otherwise whether the stored
      phrase decrypts under the key derived from the password and the stored salt,
      every exception counting as false. It is the check `login` makes. */
  function VerifyMasterPassword(user: Option<User>, password: string): (r: bool)
    ensures r <==>
              && user.Some? && user.value.userSalt.Encoded? && user.value.ivVerificationValue.Encoded?
              && Decrypt(user.value.encryptedVerificationValue, DeriveKey(password, user.value.userSalt.bytes),
                         user.value.ivVerificationValue.bytes) == Some(Auth.VerificationPhrase)
  {
    user.Some? && Auth.LoginKey(user.value, password).Some?
  }

  /** After a sign-up (or a restore) the settings screen accepts exactly the
      password that was used for it. */
  lemma VerifyAfterRegister(users: map<int, User>, email: string, salt: Bytes, iv: Bytes, password: string,
                            attempt: string)
    requires SoleUser(users, Auth.NewUser(email, salt, iv, DeriveKey(password, salt)))
    ensures VerifyMasterPassword(FirstUser(users), attempt) <==> attempt == password
  {
    Auth.SoleUserAdmits(users, email, salt, iv, password);
  }

  /** A backup document that opens with `password`, to the snapshot `d`, and with
      no other password. */
  ghost predicate OpensOnlyWith(content: FileText, password: string, d: BackupData)
  {
    forall attempt :: OpenBackup(Some(content), attempt) == if attempt == password then Some(d) else None
  }

  /** What export writes opens only with the password it was given. */
  lemma ExportedOpensOnlyWith(d: BackupData, password: string, salt: Bytes, iv: Bytes)
    ensures OpensOnlyWith(WriteFile(SealBackup(d, password, salt, iv)), password, d)
  {
    forall attempt {
      OpenSealedBackup(d, password, salt, iv, attempt);
    }
  }

  /** The backup part of `SettingsViewModel`, over the user table and the backup
      manager, whose repository works on the same database. */
  class SettingsViewModel {
    const db: Database
    const backup: BackupManager
    var backupState: BackupState
    var document: Document

    predicate Wired()
    {
      backup.repo.db == db
    }

    constructor(db: Database, backup: BackupManager)
      requires backup.repo.db == db
      ensures this.db == db && this.backup == backup && Wired()
      ensures backupState == Idle && document == Created
    {
      this.db := db;
      this.backup := backup;
      backupState := Idle;
      document := Created;
    }

    /** `exportVault`: the export runs only when the password is the master password.
        A rejected password deletes the document without exporting; a failing export
        or write deletes it too. A missing stream writes nothing yet reports success. */
    method ExportVault(password: string, now: int, stream: OutputStream)
      requires Wired() && db.Valid()
      modifies this, backup.repo.session, backup.repo.rng
      ensures !VerifyMasterPassword(old(db.AppUser()), password) ==>
                && backupState == Error(WrongMasterPasswordMessage) && document == Deleted
                && backup.repo.session.State() == old(backup.repo.session.State())
                && backup.repo.rng.draws == old(backup.repo.rng.draws)
      ensures VerifyMasterPassword(old(db.AppUser()), password) ==>
                var listed := ListResult(old(backup.repo.Listing(None)), old(backup.repo.session.State()), now);
                && backup.repo.session.State() ==
                     (if old(backup.repo.Listing(None)) == [] then old(backup.repo.session.State())
                      else Read(old(backup.repo.session.State()), now).1)
                && backup.repo.rng.draws == old(backup.repo.rng.draws) + (if listed.Ok? then 2 else 0)
                && (listed.Failure? || stream == StreamThrows ==>
                      backupState == Error(WriteErrorMessage) && document == Deleted)
                && (listed.Ok? && stream == StreamNull ==>
                      backupState == Success(ExportDoneMessage) && document == old(document))
                && (listed.Ok? && stream == StreamOk ==>
                      && backupState == Success(ExportDoneMessage) && document.Written?
                      && OpensOnlyWith(document.content, password, Snapshot(now, old(backup.repo.AllFolders()), listed.value)))
    {
      var isValid := VerifyMasterPassword(db.AppUser(), password);
      if !isValid {
        document := Deleted;
        backupState := Error(WrongMasterPasswordMessage);
        return;
      }
      document, backupState := ExportAndWrite(password, now, stream, document);
    }

    /** The export and the write, once the password has been accepted: the new
        document (`current` before it) and the state the screen shows. */
    method ExportAndWrite(password: string, now: int, stream: OutputStream, current: Document)
      returns (doc: Document, st: BackupState)
      requires Wired() && db.Valid()
      modifies backup.repo.session, backup.repo.rng
      ensures backup.repo.session.State() ==
                if old(backup.repo.Listing(None)) == [] then old(backup.repo.session.State())
                else Read(old(backup.repo.session.State()), now).1
      ensures var listed := ListResult(old(backup.repo.Listing(None)), old(backup.repo.session.State()), now);
              backup.repo.rng.draws == old(backup.repo.rng.draws) + if listed.Ok? then 2 else 0
      ensures var listed := ListResult(old(backup.repo.Listing(None)), old(backup.repo.session.State()), now);
              listed.Failure? || stream == StreamThrows ==> st == Error(WriteErrorMessage) && doc == Deleted
      ensures var listed := ListResult(old(backup.repo.Listing(None)), old(backup.repo.session.State()), now);
              listed.Ok? && stream == StreamNull ==> st == Success(ExportDoneMessage) && doc == current
      ensures var listed := ListResult(old(backup.repo.Listing(None)), old(backup.repo.session.State()), now);
              listed.Ok? && stream == StreamOk ==>
                && st == Success(ExportDoneMessage) && doc.Written?
                && OpensOnlyWith(doc.content, password, Snapshot(now, old(backup.repo.AllFolders()), listed.value))
    {
      ghost var drawn := backup.repo.rng.draws;
      ghost var folders := backup.repo.AllFolders();
      ghost var listed := ListResult(backup.repo.Listing(None), backup.repo.session.State(), now);
      var exported := backup.ExportBackup(password, now);
      doc, st := current, Success(ExportDoneMessage);
      if exported.Failure? || stream == StreamThrows {
        doc, st := Deleted, Error(WriteErrorMessage);
      } else if stream == StreamOk {
        ExportedOpensOnlyWith(Snapshot(now, folders, listed.value), password,
                              backup.repo.rng.salts(drawn), backup.repo.rng.gcmIvs(drawn + 1));
        doc := Written(exported.value);
      }
    }

    /** `importVault`: success exactly when `importBackup` returns true. */
    method ImportVault(content: Option<FileText>, password: string, now: int)
      requires Wired() && db.Valid()
      modifies this, db, backup.repo.session, backup.repo.rng
      ensures db.Valid()
      ensures var d := OpenBackup(content, password);
              backupState ==
                if d.Some? && (d.value.accounts == [] || Read(old(backup.repo.session.State()), now).0.Some?)
                then Success(ImportDoneMessage)
                else Error(ImportFailedMessage)
      ensures forall k :: k in old(db.accounts) ==> k in db.accounts && db.accounts[k] == old(db.accounts)[k]
      ensures forall k :: k in old(db.folders) ==> k in db.folders && db.folders[k] == old(db.folders)[k]
      ensures db.users == old(db.users) && document == old(document)
      ensures OpenBackup(content, password).None? ==>
                && db.accounts == old(db.accounts) && db.folders == old(db.folders)
                && backup.repo.session.State() == old(backup.repo.session.State())
                && backup.repo.rng.draws == old(backup.repo.rng.draws)
      ensures Read(old(backup.repo.session.State()), now).0.Some? ==>
                forall k :: k in db.accounts && k !in old(db.accounts) ==>
                  SealedUnder(db.accounts[k], Read(old(backup.repo.session.State()), now).0.value)
      ensures OpenBackup(content, password).Some? ==>
                var d := OpenBackup(content, password).value;
                && backup.repo.session.State() == (if d.accounts == [] then old(backup.repo.session.State())
                                                   else Read(old(backup.repo.session.State()), now).1)
                && RestoredBackup(d, backupState == Success(ImportDoneMessage),
                                  old(db.folders), db.folders, old(db.AllFolders()),
                                  old(db.accounts), old(db.accountSeq), db.accounts,
                                  Read(old(backup.repo.session.State()), now).0, backup.repo.rng,
                                  old(backup.repo.rng.draws), now)
    {
      var result := backup.ImportBackup(content, password, now);
      if result {
        backupState := Success(ImportDoneMessage);
      } else {
        backupState := Error(ImportFailedMessage);
      }
    }

    /** `resetBackupState`. */
    method ResetBackupState()
      modifies this
      ensures backupState == Idle && document == old(document)
    {
      backupState := Idle;
    }
  }
}

=== FILE: text.dfy ===
/**
 * The Kotlin string and character predicates the vault engine relies on:
 * `isBlank`, `isDigit`, `isLetterOrDigit`, `contains(…, ignoreCase = true)`,
 * and the BINARY collation SQLite uses for `ORDER BY`.
 */
module Text {

  /** `Char.isWhitespace()`: the Unicode space separators plus the ASCII and
      information-separator controls Java counts as whitespace. */
  predicate IsWhitespace(c: char)
  {
    || c == ' ' || c == '\t' || c == '\n' || c == '\r'
    || c == '\U{000B}' || c == '\U{000C}'
    || ('\U{001C}' <= c <= '\U{001F}')
    || c == '\U{00A0}' || c == '\U{1680}'
    || ('\U{2000}' <= c <= '\U{200A}')
    || c == '\U{2028}' || c == '\U{2029}' || c == '\U{202F}' || c == '\U{205F}' || c == '\U{3000}'
  }

  /** `String.isBlank()`: empty, or whitespace only. */
  predicate IsBlank(s: string)
    ensures s == "" ==> IsBlank(s)
    ensures IsBlank(s) <==> forall c :: c in s ==> IsWhitespace(c)
  {
    forall i :: 0 <= i < |s| ==> IsWhitespace(s[i])
  }

  /** `Char.isDigit()`, restricted to the ASCII digits. */
  predicate IsDigit(c: char)
    ensures IsDigit(c) <==> c in "0123456789"
  {
    '0' <= c <= '9'
  }

  /** `Char.isLetter()`, restricted to the ASCII letters: no letter is a digit or
      whitespace. */
  predicate IsLetter(c: char)
    ensures IsLetter(c) ==> !IsDigit(c) && !IsWhitespace(c)
  {
    ('a' <= c <= 'z') || ('A' <= c <= 'Z')
  }

  predicate IsLetterOrDigit(c: char)
  {
    IsLetter(c) || IsDigit(c)
  }

  /** `Char.lowercaseChar()` on ASCII letters; every other character is its own case. */
  function LowerAscii(c: char): (r: char)
    ensures IsLetter(c) ==> IsLetter(r) && 'a' <= r <= 'z'
    ensures !IsLetter(c) ==> r == c
    ensures 'A' <= c <= 'Z' ==> r as int - 'a' as int == c as int - 'A' as int
    ensures !('A' <= c <= 'Z') ==> r == c
  {
    if 'A' <= c <= 'Z' then (c as int + 32) as char else c
  }

  /** `Char.equals(other, ignoreCase = true)`. */
  predicate EqualsIgnoreCase(c: char, d: char)
  {
    LowerAscii(c) == LowerAscii(d)
  }

  /** `regionMatches(offset, other, 0, other.length, ignoreCase = true)`. */
  predicate RegionMatchesIgnoreCase(s: string, offset: nat, q: string)
    requires offset + |q| <= |s|
  {
    forall j :: 0 <= j < |q| ==> EqualsIgnoreCase(s[offset + j], q[j])
  }

  /** `s.contains(q, ignoreCase = true)`: some offset of `s` matches `q`. Every
      text contains the empty text, and a match needs the query to fit. */
  predicate ContainsIgnoreCase(s: string, q: string)
    ensures q == "" ==> ContainsIgnoreCase(s, q)
    ensures ContainsIgnoreCase(s, q) ==> |q| <= |s|
  {
    assert q == "" ==> RegionMatchesIgnoreCase(s, 0, q);
    exists i: nat :: i + |q| <= |s| && RegionMatchesIgnoreCase(s, i, q)
  }

  /**
   * SQLite's BINARY collation on text: UTF-8 bytes compared with memcmp, which
   * orders Unicode scalar values exactly as their code points, so it is the
   * lexicographic order on characters, a proper prefix first.
   */
  predicate LexLe(a: string, b: string)
  {
    if a == [] then true
    else if b == [] then false
    else if a[0] != b[0] then a[0] < b[0]
    else LexLe(a[1..], b[1..])
  }

  lemma {:induction false} LexLeReflexive(a: string)
    ensures LexLe(a, a)
  {
    if a != [] {
      LexLeReflexive(a[1..]);
    }
  }

  /** Any two names are comparable, so `ORDER BY` is well defined. */
  lemma {:induction false} LexLeTotal(a: string, b: string)
    ensures LexLe(a, b) || LexLe(b, a)
  {
    if a != [] && b != [] && a[0] == b[0] {
      LexLeTotal(a[1..], b[1..]);
    }
  }

  lemma {:induction false} LexLeTransitive(a: string, b: string, c: string)
    requires LexLe(a, b) && LexLe(b, c)
    ensures LexLe(a, c)
  {
    if a != [] && b != [] && c != [] && a[0] == b[0] && b[0] == c[0] {
      LexLeTransitive(a[1..], b[1..], c[1..]);
    }
  }

  /** Two names each before the other are the same name. */
  lemma {:induction false} LexLeAntisymmetric(a: string, b: string)
    requires LexLe(a, b) && LexLe(b, a)
    ensures a == b
  {
    if a != [] && b != [] {
      LexLeAntisymmetric(a[1..], b[1..]);
      assert a == [a[0]] + a[1..];
      assert b == [b[0]] + b[1..];
    }
  }
}

=== FILE: vault.dfy ===
/**
 * `VaultViewModel`: the account list the vault screen shows (the selected
 * folder's accounts, narrowed by the search box), the folder selection, and the
 * bottom sheet that shows one account for editing.
 *
 * The `uiState` flow is modelled as the value it emits for the current folder
 * selection and query; each launched block is one sequential step.
 */
module Vault {
  import opened Wrappers
  import opened Session
  import opened Entities
  import opened Storage
  import opened Text
  import opened Collections
  import opened Repository

  datatype VaultUiState = Loading | Success(accounts: seq<AccountModel>) | Error(message: string)

  /** What the list shows for an exception without a message. */
  const UnknownErrorMessage := "Error desconocido"

  /** The search predicate: the query occurs, ignoring case, in the service name,
      the username or the email. Password, URL and notes are never searched. */
  predicate Matches(query: string, a: AccountModel)
    ensures query == "" ==> Matches(query, a)
    ensures Matches(query, a) ==> |query| <= |a.serviceName| || |query| <= |a.username| || |query| <= |a.email|
  {
    assert query == "" ==> RegionMatchesIgnoreCase(a.serviceName, 0, query);
    ContainsIgnoreCase(a.serviceName, query) || ContainsIgnoreCase(a.username, query)
    || ContainsIgnoreCase(a.email, query)
  }

  /** The `combine` step of `uiState`: a blank query shows the list as it is;
      any other query keeps, in order, the accounts that match it. */
  function SearchResults(accounts: seq<AccountModel>, query: string): (r: seq<AccountModel>)
    ensures IsBlank(query) ==> r == accounts
    ensures !IsBlank(query) ==>
              && |r| <= |accounts|
              && (forall i :: 0 <= i < |r| ==> r[i] in accounts && Matches(query, r[i]))
              && (forall i :: 0 <= i < |accounts| && Matches(query, accounts[i]) ==> accounts[i] in r)
  {
    if IsBlank(query) then accounts else Filter(accounts, a => Matches(query, a))
  }

  /** Searching the results again with the same query changes nothing. */
  lemma SearchIdempotent(accounts: seq<AccountModel>, query: string)
    ensures SearchResults(SearchResults(accounts, query), query) == SearchResults(accounts, query)
  {
    if !IsBlank(query) {
      FilterIdempotent(accounts, a => Matches(query, a));
    }
  }

  /** The search keeps the list's order: the results for two consecutive parts of
      the list are the results for the first part followed by those for the second. */
  lemma SearchKeepsOrder(s: seq<AccountModel>, t: seq<AccountModel>, query: string)
    ensures SearchResults(s + t, query) == SearchResults(s, query) + SearchResults(t, query)
  {
    if !IsBlank(query) {
      FilterAppend(s, t, a => Matches(query, a));
    }
  }

  /** The secret fields play no part in the search: an account matches or not
      whatever its password, URL and notes are. */
  lemma SearchIgnoresSecrets(query: string, a: AccountModel, password: string, url: string, notes: string)
    ensures Matches(query, a.(password := password, url := url, notes := notes)) == Matches(query, a)
  {
  }

  /** Matching ignores case: a query and its lower-case form match the same names. */
  lemma {:induction false} SearchIgnoresCase(name: string, query: string)
    ensures ContainsIgnoreCase(name, query) <==> ContainsIgnoreCase(name, Lowered(query))
  {
    if ContainsIgnoreCase(name, query) {
      var i: nat :| i + |query| <= |name| && RegionMatchesIgnoreCase(name, i, query);
      assert RegionMatchesIgnoreCase(name, i, Lowered(query)) by {
        forall j | 0 <= j < |query| ensures EqualsIgnoreCase(name[i + j], Lowered(query)[j]) {
          LowerIdempotent(query[j]);
        }
      }
    }
    if ContainsIgnoreCase(name, Lowered(query)) {
      var i: nat :| i + |Lowered(query)| <= |name| && RegionMatchesIgnoreCase(name, i, Lowered(query));
      assert RegionMatchesIgnoreCase(name, i, query) by {
        forall j | 0 <= j < |query| ensures EqualsIgnoreCase(name[i + j], query[j]) {
          LowerIdempotent(query[j]);
        }
      }
    }
  }

  /** `lowercase()` on ASCII letters. */
  function Lowered(s: string): (r: string)
    ensures |r| == |s| && forall j :: 0 <= j < |s| ==> r[j] == LowerAscii(s[j])
  {
    seq(|s|, j requires 0 <= j < |s| => LowerAscii(s[j]))
  }

  lemma LowerIdempotent(c: char)
    ensures LowerAscii(LowerAscii(c)) == LowerAscii(c)
  {
  }

  /** The value `uiState` emits: the listing's failure as an error (with its
      message, or "Error desconocido" without one), else the search results. */
  function Present(listing: Result<seq<AccountModel>>, query: string): (s: VaultUiState)
    ensures listing.Failure? ==> s.Error?
    ensures listing.Failure? && listing.error.Message().Some? ==> s.message == listing.error.Message().value
    ensures listing.Failure? && listing.error.Message().None? ==> s.message == UnknownErrorMessage
    ensures listing.Ok? ==> s == Success(SearchResults(listing.value, query))
  {
    match listing
    case Failure(e) => Error(match e.Message() case Some(m) => m case None => UnknownErrorMessage)
    case Ok(accounts) => Success(SearchResults(accounts, query))
  }

  /** `VaultViewModel` over the repository. */
  class VaultViewModel {
    const repo: PasswordRepository
    var selectedFolderId: Option<int>
    var searchQuery: string
    var selectedAccount: Option<AccountModel>
    var isSheetOpen: bool

    constructor(repo: PasswordRepository)
      ensures this.repo == repo
      ensures selectedFolderId == None && searchQuery == "" && selectedAccount == None && !isSheetOpen
    {
      this.repo := repo;
      selectedFolderId := None;
      searchQuery := "";
      selectedAccount := None;
      isSheetOpen := false;
    }

    /** The value `uiState` emits now: the selected folder's accounts (every
        account when none is selected), decrypted, then searched. */
    method UiState(now: int) returns (s: VaultUiState)
      requires repo.db.Valid()
      modifies repo.session
      ensures s == Present(ListResult(repo.Listing(selectedFolderId), old(repo.session.State()), now), searchQuery)
      ensures repo.session.State() ==
                if repo.Listing(selectedFolderId) == [] then old(repo.session.State())
                else Read(old(repo.session.State()), now).1
    {
      var listing := repo.GetAccounts(selectedFolderId, now);
      s := Present(listing, searchQuery);
    }

    method OnSearchQueryChange(newQuery: string)
      modifies this
      ensures searchQuery == newQuery
      ensures selectedFolderId == old(selectedFolderId) && selectedAccount == old(selectedAccount)
      ensures isSheetOpen == old(isSheetOpen)
    {
      searchQuery := newQuery;
    }

    method OnFolderSelect(id: Option<int>)
      modifies this
      ensures selectedFolderId == id
      ensures searchQuery == old(searchQuery) && selectedAccount == old(selectedAccount)
      ensures isSheetOpen == old(isSheetOpen)
    {
      selectedFolderId := id;
    }

    /** `onCreateFolder`: inserts a new folder with that name. */
    method OnCreateFolder(name: string)
      requires repo.db.Valid()
      modifies repo.db
      ensures repo.db.Valid()
      ensures exists id :: id !in old(repo.db.folders) && repo.db.folders == old(repo.db.folders)[id := Folder(id, name)]
      ensures repo.db.accounts == old(repo.db.accounts) && repo.db.users == old(repo.db.users)
    {
      var id := repo.InsertFolder(Folder(Unsaved, name));
    }

    /** `onDeleteFolder`: the selection falls back to "all accounts" exactly when
        the deleted folder was selected; the folder goes, its accounts stay. */
    method OnDeleteFolder(folder: Folder)
      requires repo.db.Valid()
      modifies this, repo.db
      ensures repo.db.Valid()
      ensures selectedFolderId == if old(selectedFolderId) == Some(folder.id) then None else old(selectedFolderId)
      ensures searchQuery == old(searchQuery) && selectedAccount == old(selectedAccount)
      ensures isSheetOpen == old(isSheetOpen)
      ensures repo.db.folders == old(repo.db.folders) - {folder.id}
      ensures repo.db.accounts.Keys == old(repo.db.accounts).Keys
      ensures forall k :: k in repo.db.accounts ==>
                repo.db.accounts[k] == if old(repo.db.accounts)[k].folderId == Some(folder.id)
                                       then old(repo.db.accounts)[k].(folderId := None)
                                       else old(repo.db.accounts)[k]
      ensures repo.db.users == old(repo.db.users)
    {
      if selectedFolderId == Some(folder.id) {
        selectedFolderId := None;
      }
      repo.DeleteFolder(folder);
    }

    /** `onAddClick`: opens the sheet on a new, empty account in the selected folder. */
    method OnAddClick()
      modifies this
      ensures isSheetOpen && selectedAccount == Some(NewAccountModel(selectedFolderId, ""))
      ensures selectedFolderId == old(selectedFolderId) && searchQuery == old(searchQuery)
    {
      selectedAccount := Some(NewAccountModel(selectedFolderId, ""));
      isSheetOpen := true;
    }

    method OnAccountClick(account: AccountModel)
      modifies this
      ensures isSheetOpen && selectedAccount == Some(account)
      ensures selectedFolderId == old(selectedFolderId) && searchQuery == old(searchQuery)
    {
      selectedAccount := Some(account);
      isSheetOpen := true;
    }

    /** `onDismissSheet`: the sheet closes and shows nothing. */
    method OnDismissSheet()
      modifies this
      ensures !isSheetOpen && selectedAccount == None
      ensures selectedFolderId == old(selectedFolderId) && searchQuery == old(searchQuery)
    {
      isSheetOpen := false;
      selectedAccount := None;
    }

    /** `saveAccount`: save, then dismiss the sheet. A save that throws (no session
        key, a missing folder) ends the launched block before the dismissal. */
    method SaveAccount(account: AccountModel, now: int) returns (r: Outcome)
      requires repo.db.Valid()
      modifies this, repo.db, repo.session, repo.rng
      ensures repo.db.Valid()
      ensures repo.session.State() == Read(old(repo.session.State()), now).1
      ensures repo.db.folders == old(repo.db.folders) && repo.db.users == old(repo.db.users)
      ensures repo.rng.draws == old(repo.rng.draws) + if Read(old(repo.session.State()), now).0.Some? then 5 else 0
      ensures var key := Read(old(repo.session.State()), now).0;
              && (key.None? ==> r == Fail(NoSession) && repo.db.accounts == old(repo.db.accounts))
              && (key.Some? ==>
                    (r, repo.db.accounts) == SaveEffect(old(repo.db.accounts), old(repo.db.accountSeq), old(repo.db.folders),
                      BuildRow(account, key.value, IvsAt(repo.rng, old(repo.rng.draws)), now)))
      ensures r.Pass? ==> !isSheetOpen && selectedAccount == None
      ensures r.Fail? ==> isSheetOpen == old(isSheetOpen) && selectedAccount == old(selectedAccount)
      ensures selectedFolderId == old(selectedFolderId) && searchQuery == old(searchQuery)
    {
      r := repo.SaveAccount(account, now);
      if r.Pass? {
        OnDismissSheet();
      }
    }

    /** `deleteAccount`: delete, then dismiss the sheet. */
    method DeleteAccount(id: int)
      requires repo.db.Valid()
      modifies this, repo.db
      ensures repo.db.Valid()
      ensures repo.db.accounts == old(repo.db.accounts) - {id}
      ensures repo.db.folders == old(repo.db.folders) && repo.db.users == old(repo.db.users)
      ensures !isSheetOpen && selectedAccount == None
      ensures selectedFolderId == old(selectedFolderId) && searchQuery == old(searchQuery)
    {
      repo.DeleteAccount(id);
      OnDismissSheet();
    }
  }
}

=== FILE: wrappers.dfy ===
/** Kotlin nullables and thrown exceptions, as values. */
module Wrappers {

  /** A Kotlin `T?`: `None` stands for `null`. */
  datatype Option<+T> = None | Some(value: T)

  /** A JVM exception; only the parts the vault engine looks at are kept. */
  datatype Exception =
    | IllegalStateException(text: string)
    | SQLiteConstraintException(text: string)
    /** Any other low-level failure (disk, key store, I/O); Kotlin's `e.message` may be null. */
    | RuntimeFailure(detail: Option<string>)
  {
    /** Kotlin's `e.message`. */
    function Message(): Option<string>
    {
      match this
      case IllegalStateException(t) => Some(t)
      case SQLiteConstraintException(t) => Some(t)
      case RuntimeFailure(d) => d
    }
  }

  /** What a Kotlin string template prints for a nullable string: `null` prints as "null". */
  function Interpolate(s: Option<string>): (r: string)
    ensures s.Some? ==> r == s.value
    ensures s.None? ==> r == "null"
  {
    match s
    case Some(t) => t
    case None => "null"
  }

  /** The result of a call that either returns a value or throws. */
  datatype Result<+T> = Ok(value: T) | Failure(error: Exception)

  /** The result of a call that returns nothing (`Unit`) or throws. */
  datatype Outcome = Pass | Fail(error: Exception)
}
